=== FILE: README.md ===
# marcum authorship statistics, modelled in Dafny

Two scripts are modelled here.

`collate-author-words.py` reads the output of `git log -p -U0 --date=raw`.
It turns every added line of a C source or header into a set of normalised
tokens. It folds each commit's added tokens into a unigram model per author
and into one global model. It then ranks authors by the cross-entropy of the
global model against theirs.

`make-author-stats.py` reads `time,person` lines. It prints one
`count,span,person` row per maximal run of consecutive lines by the same
person.

The modules follow the scripts' structure:

| module | what it models |
|---|---|
| `Common` | `Option` (Python's `None`) and `Result` (an exception) |
| `PyStr` | the `str` builtins the scripts use: `strip`, `split()`, `split(None, 1)`, `split(sep)[0]`, `startswith`/`endswith`, `int()` |
| `CommentStrip` | comment stage of `accumulate_terms`: continuation lines, then the `/*` cut followed by the `//` cut |
| `StringLiterals` | `re_c_string` and the `' $ '` substitution |
| `Operators` | operator-cluster substitution, leftmost match with the first alternative winning |
| `Digits` | `flatten_digits_impl` and the number substitution |
| `TermExtractor` | `accumulate_terms` as the ordered pipeline of those stages, then `split()` |
| `LogParser` | `CommitRecord`, `interesting_file` and the `readrecord` state machine over a finite list of lines |
| `MapSum` | the sum of a map's values, the quantity `total_count` tracks |
| `Unigram` | `UnigramModel`: `add`, `update`, `p`, `bits`, `entropy`, `cross_entropy`, `top_words` |
| `Aggregator` | `AuthorData`, the driver's fold with its `limit`, and the ranking report |
| `AuthorStats` | `make-author-stats.py` |

Python exceptions are `Failure` values. Where the source raises one of these, so does the model (the range errors of `datetime.fromtimestamp` are the one exception, see "## Left out"):
- an `IndexError` from a missing `split` field;
- a `ValueError` from `int()`;
- an `AttributeError` on `None`;
- a `KeyError` for an unknown word;
- a `NameError` on empty input.

A generator or loop that raises keeps what it produced before the raise.

Records and parser state are plain datatypes. Dictionary iteration order is not fixed by the language, so it is a parameter wherever it matters: `top_words` and the order of `author_data.values()`. The base-2 logarithm is a function parameter, so `bits`, `entropy` and `cross_entropy` are modelled only for which lookups they make and when a lookup raises. Probabilities are exact `real` quotients.

Where the code decides a detail, the code is followed:
- The two comment cuts are sequential. In `x//*` the `/*` is found first and cut, and the `/` before it survives as a token (`CommentStrip.SlashSlashStarKeepsSlash`).
- The comment cuts run before literals are collapsed, so a literal holding `//` or `/*` is cut inside its quotes: `printf("http://x")` keeps the token `"http`, and `a"//"c` gives only `a"` (`TermExtractor.OpenerInsideLiteral`).
- `int()` is Python 2's: after the optional sign it skips blanks again, so `int(" - 5 ")` is -5. Blanks between digits, a second sign or no digit at all raise `ValueError`.
- `readline()` returns `""` at the end of input, never `None`. The loop therefore never ends on its own, and it never yields the last record. The model's reading of a finite input ends explicitly and yields the pending record; see Findings.

## Model

| member | source | states |
|---|---|---|
| `PyStr.Strip` | collate-author-words.py:67 | `strip()` returns a contiguous slice of the input, with only whitespace cut from each end, and the result neither starts nor ends with whitespace |
| `PyStr.Words` | collate-author-words.py:50 | every piece `split()` returns is non-empty, whitespace-free, and made of characters of the input |
| `PyStr.WordsOfSpaced` | collate-author-words.py:50 | `split()` gives back exactly the words that were joined with spaces |
| `PyStr.WordsAtWs` | collate-author-words.py:50 | a whitespace character splits the words of a concatenation exactly into the words of its two sides |
| `PyStr.WordsOfStrip` | collate-author-words.py:67 | stripping never changes the words of a string |
| `PyStr.SplitOnce` | collate-author-words.py:67 | `split(None, 1)` has at most two parts: the first is a word, and the second starts at a non-blank character |
| `PyStr.SplitOnceRest` | collate-author-words.py:67-69 | the second part of `split(None, 1)` is the whole rest of the line: a suffix preceded only by blanks, the first word and at least one blank |
| `PyStr.SplitOnceAfterWord` | collate-author-words.py:67-69 | after a word and a space, a remainder that is not all blank becomes the second part with its leading blanks removed |
| `PyStr.SplitOnceAgreesWithWords` | collate-author-words.py:67 | `split(None, 1)` and `split()` agree on the number of parts (capped at two) and on the first word, and the remainder's words are the remaining words |
| `PyStr.Before` | collate-author-words.py:42-43 | `split(sep)[0]` is a prefix that contains no occurrence of `sep` and is followed by `sep` unless it is the whole string |
| `PyStr.ParseIntAccepts` | make-author-stats.py:19 | `int()` accepts blanks, an optional sign, blanks after a sign, at least one digit and blanks, and returns the signed value of the digits |
| `PyStr.ParseIntForm` | make-author-stats.py:19 | conversely, every string `int()` accepts has exactly that shape, and its value is the signed value of its digits |
| `PyStr.ParseIntRejects` | make-author-stats.py:19 | a non-blank character that is not a digit, after another non-blank character, makes `int()` raise |
| `PyStr.ParseIntRejectsGap` | make-author-stats.py:19 | a blank between a digit and a later non-blank character makes `int()` raise |
| `PyStr.ParseIntNeedsDigit` | make-author-stats.py:19 | a string without a digit makes `int()` raise |
| `PyStr.ParseSpacedSign` | make-author-stats.py:19 | `int(" - 5 ")` is -5: blanks may follow the sign |
| `PyStr.ParseTabbedSign` | make-author-stats.py:19 | `int("+\t12")` is 12 |
| `PyStr.ParseDoubleSign` | make-author-stats.py:19 | `int("--5")` raises |
| `PyStr.ParseSplitDigits` | make-author-stats.py:19 | `int("5 5")` raises |
| `PyStr.ParseShowInt` | collate-author-words.py:71 | `int()` reads back any integer written in decimal, including negative ones |
| `PyStr.ParseNegated` | make-author-stats.py:19 | `int()` of `-` followed by digits is the digits' value negated |
| `CommentStrip.StripComments` | collate-author-words.py:42-43 | the two cuts leave a prefix of the line with no comment opener in it, followed by `/*` or `//` unless nothing was cut |
| `CommentStrip.CommentTailDropped` | collate-author-words.py:42-43 | text followed by `/*` or `//` and anything else strips back to that text, unless the marker merges with its neighbours into an earlier opener |
| `CommentStrip.StripCommentsNoOpener` | collate-author-words.py:42-43 | a line without comment openers passes the comment stage whole |
| `CommentStrip.SlashSlashStarKeepsSlash` | collate-author-words.py:42-43 | because the cuts are sequential, `x//*` becomes `x/` |
| `CommentStrip.ContinuationUnaffectedByTail` | collate-author-words.py:40-43 | a comment tail can neither make a line a continuation line nor stop it from being one |
| `StringLiterals.CloseAt` | collate-author-words.py:29-35 | the lazy match closes at the first quote not preceded by a backslash, with no newline before it, and finds none when every such quote has a newline before it |
| `StringLiterals.CloseAtLiteral` | collate-author-words.py:29-35 | a well-formed literal body is closed exactly by the quote after it |
| `StringLiterals.CollapseLiteral` | collate-author-words.py:44-45 | a literal becomes ` $ `: the text before it is kept, its contents vanish, and the scan resumes after its closing quote |
| `StringLiterals.CollapseNoQuote` | collate-author-words.py:44-45 | a line without quotes is left alone |
| `StringLiterals.CollapseUnterminated` | collate-author-words.py:29-35 | a quote with no closing partner on the line is kept as written |
| `Operators.OpLen` | collate-author-words.py:47 | the cluster matched at a position consists of cluster characters only, and one is matched whenever the position holds a cluster character |
| `Operators.SpaceOpsOnlyInsertsSpaces` | collate-author-words.py:47 | with all spaces deleted, the output of the operator stage equals the input |
| `Operators.SpaceOpsNoOps` | collate-author-words.py:47 | text without cluster characters passes through unchanged |
| `Operators.SpaceOpsAtSpace` | collate-author-words.py:47 | clusters never reach across a space, so the two sides of a space are rewritten independently |
| `Operators.ArrowExample` | collate-author-words.py:47 | `a->b` becomes `a -> b`: the arrow is tried first |
| `Operators.ShiftAssignExample` | collate-author-words.py:47 | `x<<=y` keeps `<<=` whole as one maximal run |
| `Operators.MinusAssignExample` | collate-author-words.py:47 | in `a-=b` the `-` and the `=` are spaced separately |
| `Digits.Flatten` | collate-author-words.py:48-49 | the number stage keeps the length of the line |
| `Digits.FlattenKeepsShape` | collate-author-words.py:22-26 | every character that is not a hex digit stays in place, hex digits stay hex, and no digit from 1 to 8 remains |
| `Digits.FlattenLeavesNoSmallDigit` | collate-author-words.py:48-49 | no character of the flattened line is a digit from 1 to 8 |
| `Digits.FlattenHexLiteral` | collate-author-words.py:22-24 | `0x` and h hex digits become `0x` and h letters `f` |
| `Digits.FlattenDecimal` | collate-author-words.py:25-26 | a decimal run that does not open a hex literal becomes as many `9`s |
| `Digits.FlattenAtSpace` | collate-author-words.py:49 | literals never reach across a space |
| `Digits.HexExample` | collate-author-words.py:22-24 | `0x1A` becomes `0xff` |
| `Digits.DecimalExamples` | collate-author-words.py:25-26 | `42` becomes `99`, and `x86` becomes `x99` |
| `TermExtractor.Terms` | collate-author-words.py:47-50 | every token is non-empty and whitespace-free, and with `genericdigit` it has no digit from 1 to 8 |
| `TermExtractor.AccumulateTerms` | collate-author-words.py:37-50 | the set only grows, each token it gains is a word (digit-flattened with `genericdigit`), and a continuation line adds nothing |
| `TermExtractor.PlainLineTerms` | collate-author-words.py:37-50 | a line with no quote, no operator or punctuation character and no digit adds exactly its `split()` words to the set, whatever the options |
| `TermExtractor.CommentTailIgnored` | collate-author-words.py:39-43 | a line with a comment tail adds exactly the tokens of the text before the opener |
| `TermExtractor.LaterAtSpace` | collate-author-words.py:47-49 | the operator and number stages both work independently on the two sides of a space |
| `TermExtractor.WordsAroundDollar` | collate-author-words.py:47-50 | the ` $ ` left by a literal comes out as the single token `$` between the tokens of its two sides |
| `TermExtractor.LiteralBecomesDollar` | collate-author-words.py:44-50 | after the comment stage, the tokens of text with a literal are those before it, then `$`, then those after it, and nothing from inside the quotes |
| `TermExtractor.LiteralLineTerms` | collate-author-words.py:37-50 | the same for a whole line that the comment stage leaves alone (it is off, or the line has no opener and is no continuation line): the set gains the tokens before the literal, `$` and the tokens after it |
| `TermExtractor.OpenerInsideLiteral` | collate-author-words.py:41-45 | the comment cut runs before the literal collapse, so a literal holding `//` is cut inside its quotes: a plain word `a`, a quote, `//` and anything after give the single token `a"` |
| `TermExtractor.OpenerInsideLiteralExample` | collate-author-words.py:41-45 | the line `a"//"c` gives the token set `{a"}`, not `a`, `$` and `c` |
| `LogParser.CommitId` | collate-author-words.py:67 | the id raises `IndexError` exactly when the line has fewer than two words, and otherwise its words are the line's words after the first |
| `LogParser.AuthorName` | collate-author-words.py:69 | the author raises `IndexError` exactly when the line has fewer than two words, and otherwise contains no `<` |
| `LogParser.CommitIdOfLine` | collate-author-words.py:67 | the id of `commit ` and a remainder is the remainder stripped, and `IndexError` when the remainder is all blank |
| `LogParser.CommitIdOfHash` | collate-author-words.py:66-67 | a `commit ` line holding one hash and its newline gives back exactly that hash |
| `LogParser.AuthorNameOfLine` | collate-author-words.py:69 | the author of `Author: ` and a remainder is the remainder up to its first `<`, stripped, and `IndexError` when the remainder is all blank |
| `LogParser.AuthorNameBeforeAddress` | collate-author-words.py:69 | `Author: name <address>` gives exactly the name, for any trimmed name without `<` |
| `LogParser.AuthorLineStep` | collate-author-words.py:68-69 | an `Author: ` line hands nothing out; it raises `IndexError` with no field, then `AttributeError` with no record, and otherwise sets the pending record's author and changes nothing else |
| `LogParser.DateLineStep` | collate-author-words.py:70-71 | a `Date: ` line hands nothing out; it raises `IndexError` with no field, `ValueError` when the field is not an integer, `AttributeError` with no record, and otherwise sets the pending record's date to the field's value and changes nothing else (the range errors of `fromtimestamp` at :72 are not modelled) |
| `LogParser.DateValue` | collate-author-words.py:71 | the date is `int()` of the second word: `IndexError` without one, and `ValueError` when that word is not an integer |
| `LogParser.Classify` | collate-author-words.py:61-81 | a line is a `commit ` line exactly when it starts with `commit `, and then carries that line's id |
| `LogParser.Step` | collate-author-words.py:59-81 | a `commit ` line hands out the pending record and opens a fresh one with its id, or raises when the id is missing; no other line hands anything out or changes which record is pending |
| `LogParser.UnmatchedLineStep` | collate-author-words.py:61-81 | a line that starts with none of `commit `, `Author: `, `Date: `, `+` and `-` falls through every branch: it hands nothing out, never raises and leaves the parser state unchanged |
| `LogParser.RunFrom` | collate-author-words.py:59-81 | an error is reported at the index of one of the lines read |
| `LogParser.RunIds` | collate-author-words.py:59-67 | without an error, the ids handed out are the pending id followed by the ids the `commit ` lines announce, in order |
| `LogParser.RunIdsBeforeError` | collate-author-words.py:59-81 | when a line raises, the records handed out are those of the earlier `commit ` lines; the pending record is included when the raising line is itself a `commit ` line and lost otherwise |
| `LogParser.ReadRecordsIds` | collate-author-words.py:59-67 | over a whole input that raises nothing, the records are exactly those announced by the `commit ` lines, one per line, in order |
| `LogParser.ReadRecordsBeforeError` | collate-author-words.py:59-81 | over a whole input that raises at line k, the records are those announced before line k, less the pending one unless line k starts with `commit ` |
| `LogParser.RunTerms` | collate-author-words.py:59-81 | from any line on, the pending record gains the terms of the content lines up to the next `commit ` line, and each later record holds the terms of the lines of its own commit |
| `LogParser.ReadRecordsTerms` | collate-author-words.py:59-81 | over a whole input that raises nothing, the records belong one each to the `commit ` lines, and each one's added terms are the union of the terms of the `+` lines of `.c`/`.h` files between its `commit ` line and the next (removed terms likewise with `-` lines), the file being the one the last `+++ ` (`--- `) header named |
| `LogParser.ReadRecordsWellFormed` | collate-author-words.py:78-81 | every term of every record handed out is a non-empty, whitespace-free token without a digit from 1 to 8 |
| `LogParser.PendingRecordNeverYielded` | collate-author-words.py:60-65 | an empty line, which is what `readline()` returns at the end, hands nothing out and changes nothing, so the last record is never yielded |
| `LogParser.AddedLine` | collate-author-words.py:78-79 | a `+` line raises with no new filename, is skipped for a non-C file, and raises with no record; otherwise only the record's added terms change, and they gain the line's tokens |
| `LogParser.RemovedLine` | collate-author-words.py:80-81 | a `-` line does the same with the old filename and the removed terms |
| `LogParser.FileHeadersAreNotContent` | collate-author-words.py:74-81 | a `--- ` or `+++ ` line never raises and never touches the record; each sets only its own filename |
| `LogParser.ClassifyHeader` | collate-author-words.py:74-77 | the filename headers are matched before the content rules |
| `LogParser.ClassifyContent` | collate-author-words.py:78-81 | any other line starting with `+` or `-` is a content line, carrying the text after the marker |
| `Unigram.EmptyValid` | collate-author-words.py:84-86 | a fresh model is consistent: its total is the sum of its counts |
| `Unigram.Add` | collate-author-words.py:89-91 | `add(w)` raises the count of `w` and the total by exactly one, moves no other count, and keeps the total equal to the sum of the counts |
| `Unigram.Update` | collate-author-words.py:98-99 | `update` over a list raises the total by the list's length and each count by the word's number of occurrences, keeping the model consistent |
| `Unigram.UpdateAnyOrder` | collate-author-words.py:98-99 | walking a set in any order gives the same model |
| `Unigram.UpdateSetKeeps` | collate-author-words.py:98-99 | `update` over a set raises the total by the set's size and each word of the set by one, keeping the model consistent |
| `Unigram.P` | collate-author-words.py:100-103 | `p(w)` is the count of `w` over the total for a known word and the count of `''` for an unknown one; it raises `KeyError` exactly when neither key is present, and divides by zero exactly when the total is zero |
| `Unigram.PKnownWord` | collate-author-words.py:103 | on a consistent model, a known word's probability lies in (0, 1], and times the total it gives back the word's count |
| `Unigram.FirstSightingProbability` | collate-author-words.py:89-103 | a word added for the first time has probability one over the new total |
| `Unigram.Bits` | collate-author-words.py:104-105 | `bits` propagates `p`'s error, is minus the logarithm of a positive probability, and hits a math domain error exactly when the probability is zero |
| `Unigram.WeightedBits` | collate-author-words.py:106-110 | the sum raises only if some lookup it makes raises, and succeeds when every lookup does |
| `Unigram.EntropyDefined` | collate-author-words.py:106-107 | the entropy of a consistent model is always defined |
| `Unigram.CrossEntropyDefined` | collate-author-words.py:108-110 | the cross-entropy is defined when the other model's vocabulary lies inside this one's |
| `Unigram.CrossEntropyUnknownWord` | collate-author-words.py:100-110 | with no `''` entry, a word of the other model unknown to this one makes the cross-entropy raise `KeyError` |
| `Unigram.TopWords` | collate-author-words.py:111-112 | `top_words(n)` returns min(n, number of keys) words, and none for n <= 0 |
| `Unigram.TopWordsFrom` | collate-author-words.py:111-112 | only keys come out |
| `Unigram.TopWordsDescending` | collate-author-words.py:111-112 | counts never increase along the result |
| `Unigram.TopWordsMaximal` | collate-author-words.py:111-112 | no key left out has a higher count than any key returned |
| `Unigram.TopWordsDistinct` | collate-author-words.py:111-112 | the keys returned are distinct |
| `Aggregator.AddDocument` | collate-author-words.py:125-127 | `add_document` adds one document and counts each of its words once, keeping the name and the model's consistency |
| `Aggregator.Fold` | collate-author-words.py:133-144 | the loop consumes every record unless it breaks, and it breaks only right after folding a record that added terms |
| `Aggregator.InitialInv` | collate-author-words.py:130-132 | the initial state satisfies the invariant with nothing folded |
| `Aggregator.AbsorbInv` | collate-author-words.py:135-142 | one loop body keeps the invariant, with one more document exactly when the record added terms: every model consistent, each author's words in the global vocabulary, the global total the sum of the author totals, document counts summing to the number folded, `limit` counted down |
| `Aggregator.FoldInv` | collate-author-words.py:132-144 | the whole loop keeps the invariant, folds at most 200000 documents, and breaks exactly when it reaches 200000 |
| `Aggregator.FoldCounts` | collate-author-words.py:135-141 | each word's global count grows by the number of consumed commits that added it |
| `Aggregator.Collate` | collate-author-words.py:130-144 | over a whole log, the parser's error reaches the script exactly when the loop did not break on the limit first |
| `Aggregator.CollateInv` | collate-author-words.py:130-144 | a log the script gets through leaves a consistent state, with at most 200000 documents and each word's global count equal to the number of those commits that added it |
| `Aggregator.Scores` | collate-author-words.py:149-151 | one row per author, in order, holding that author's cross-entropy; defined whenever every cross-entropy is |
| `Aggregator.ScoresDefined` | collate-author-words.py:149-151 | from a consistent state every cross-entropy is defined, because each author's words are in the global vocabulary |
| `Aggregator.SortByScoreCorrect` | collate-author-words.py:149-151 | the ranking is ascending by cross-entropy and is a permutation of the rows |
| `Aggregator.ListedCounts` | collate-author-words.py:152-153 | a row is listed exactly as often as it is ranked when its author has at least ten documents, and never otherwise |
| `Aggregator.ListedAscending` | collate-author-words.py:152-153 | filtering keeps the ranking ascending |
| `Aggregator.RankingCorrect` | collate-author-words.py:149-155 | the printed ranking is ascending and holds exactly the rows whose authors have at least ten documents |
| `Aggregator.SummaryOk` | collate-author-words.py:146-155 | from a consistent state the report cannot raise, and it lists, ascending, exactly the authors with at least ten documents |
| `AuthorStats.SplitAtComma` | make-author-stats.py:11 | the line splits at its first comma only: no comma means no split, and the text before the comma has no comma |
| `AuthorStats.SplitAtCommaOf` | make-author-stats.py:11 | a comma-free time, a comma and a person split back into exactly that time and person, whatever commas the person holds |
| `AuthorStats.ParseLineOf` | make-author-stats.py:11-22 | a trimmed `time,person` line with a comma-free time yields that person, with the time `int()` gives, or raises `ValueError` when `int()` does |
| `AuthorStats.SpacedSignLine` | make-author-stats.py:11-22 | `- 5,bob` is a line by `bob` at time -5, since `int()` takes blanks after the sign |
| `AuthorStats.Runs` | make-author-stats.py:12-22 | there are no more runs than lines, and at least one run when there is a line |
| `AuthorStats.RunsAreGroups` | make-author-stats.py:12-22 | the runs built line by line are the runs of an independent back-to-front grouping |
| `AuthorStats.GroupSnoc` | make-author-stats.py:12-22 | the back-to-front grouping gains a line exactly as the script's runs do |
| `AuthorStats.RunsCover` | make-author-stats.py:12-21 | the runs are maximal and cover the input: each has a line, neighbours differ in person, and the counts sum to the number of lines |
| `AuthorStats.RunsExample` | make-author-stats.py:12-22 | two lines by one person and then one by another give runs of 2 and 1, each from its first line's time to its last's |
| `AuthorStats.NewRunStep` | make-author-stats.py:12-20 | a line naming someone new prints the tracked run and starts a run of one line at its time |
| `AuthorStats.SameRunStep` | make-author-stats.py:21-22 | a line naming the tracked person grows the run by one, and the run now ends at that line's time |
| `AuthorStats.Feed` | make-author-stats.py:12-22 | the loop body keeps the script's variables tracking the runs of the lines read |
| `AuthorStats.Abort` | make-author-stats.py:11-22 | a bad time prints the tracked run first only when the line names someone new |
| `AuthorStats.Finish` | make-author-stats.py:24-27 | the final print completes the rows with the run in progress |
| `AuthorStats.Scan` | make-author-stats.py:10-22 | the loop stops at the first line that raises, or at the end, tracking the runs of the lines before it |
| `AuthorStats.SummariseLines` | make-author-stats.py:10-27 | an empty input raises `NameError` with nothing printed; an input that raises nothing prints one row per run; otherwise it raises `ValueError` at the first bad line after printing the rows finished by then |
| `AuthorStats.Summarise` | make-author-stats.py:10-27 | the same over raw lines |

## Left out

- `grab.py` (histogram plotting, float date conversion, option parsing) is not part of this model. It has no logic beyond library calls.
- `UnigramModel.smooth` is left out. It delegates to the `sgt` module, which is not part of this model, works on floats, and is never called.
- `update(UnigramModel)` is left out. That branch of `update` falls through to iterating the model itself and would raise, and nothing calls it.
- The numeric values of `bits`, `entropy` and `cross_entropy` are left out. They are floating-point logarithms, so the logarithm is a parameter and only the lookups and their failures are stated.
- Float rounding in `p` is left out; quotients are exact reals.
- The `month` field (`datetime.fromtimestamp`) depends on the local time zone, so it is not modelled. The date's `int()` is.
- `LogParser.DateLineStep`: the `ValueError` (year out of range) and `OverflowError` (past the platform's `time_t`) that `datetime.fromtimestamp` raises at collate-author-words.py:72, after the date is stored, are not modelled, because the bounds depend on the platform and the local time zone. The model sets the date for every integer field.
- Reading stdin or a file, `sys.argv`, and all `print` formatting are outside the model. The printed values are the rows and the report.
- Dictionary iteration order is a parameter, not a model of CPython's hash order.
- `Aggregator.SortByScoreCorrect`: the stability of `sorted` among equal cross-entropies is built into `SortByScore` but not stated as a property.
- `Unigram.TopWordsDescending`: which of several equally frequent words `heapq.nlargest` prefers is built into `TopWords` (the one met first) but not stated as a property.
- `PyStr.SplitOnce`: its own contract states the parts' shape only. That the second part is the rest of the line after the first word and its blanks is stated by `SplitOnceRest`.
- `TermExtractor.Terms`: its own contract states the shape of the tokens only. Which tokens a line gives is stated by `PlainLineTerms`, `CommentTailIgnored`, `LiteralLineTerms` and `OpenerInsideLiteral` for those line shapes, and otherwise only through the stage functions. `LiteralBecomesDollar` speaks of the text after the comment stage, not of the raw line.
- `TermExtractor.AccumulateTerms`: its own contract states that the set grows by well-shaped tokens only. The exact set for those line shapes is stated by the same four lemmas.
- `LogParser.CommitId`: its own contract fixes only the id's words. The exact id is stated by `CommitIdOfLine`.
- `LogParser.AuthorName`: its own contract states only that the name has no `<`. The exact name is stated by `AuthorNameOfLine`.
- `LogParser.Step`: its own contract covers `commit ` lines and which record is pending. What the other lines do is stated by `AuthorLineStep`, `DateLineStep`, `AddedLine`, `RemovedLine`, `FileHeadersAreNotContent` and, for a line that matches none of the prefixes, `UnmatchedLineStep`.
- `LogParser.PendingRecordNeverYielded`: the as-written end of input is modelled with a `fuel` bound on the number of further `readline()` calls, because the real loop never terminates.
- The report holds the top 30 words and the ranking, but not the printed probabilities, bits or total entropy. `Unigram.EntropyDefined` states only that the entropy is defined.

## Findings

| source | as written | input that shows it | evidently intended | confidence | as-written member | corrected member |
|---|---|---|---|---|---|---|
| collate-author-words.py:60-65 | the loop ends only when `readline()` returns `None`, but at the end of input it returns `""`, which matches no branch | any log, e.g. the single line `commit abc`: after it every call returns `""`, the pending record is never yielded and the loop never ends | at the end of input, yield the pending record and stop | not executed | `LogParser.PendingRecordNeverYielded` | `LogParser.ReadRecordsIds` |

=== FILE: aggregator.dfy ===
/**
 The top-level fold of the collating script: each commit that added any
 terms counts as one document of its author; the document's term set goes
 into that author's model and into the global model, and the loop stops
 once 200000 documents have been folded. The report ranks authors by the
 cross-entropy of the global model against theirs, ascending, and lists
 those with at least ten documents.
 */
module Aggregator {
  import opened Common
  import opened MapSum
  import opened Unigram
  import LogParser

  /** `AuthorData`: an author (possibly unnamed), their model, and how many
      documents went into it. */
  datatype AuthorData = AuthorData(name: Option<string>, model: Model, documentCount: nat)

  /** `add_document(words)`: one more document, its words counted once
      each, and the model stays consistent. */
  function AddDocument(ad: AuthorData, words: set<string>): (r: AuthorData)
    ensures r.name == ad.name && r.documentCount == ad.documentCount + 1
    ensures r.model.total == ad.model.total + |words|
    ensures r.model.counts.Keys == ad.model.counts.Keys + words
    ensures forall w :: Count(r.model, w) == Count(ad.model, w) + (if w in words then 1 else 0)
    ensures Valid(ad.model) ==> Valid(r.model)
  {
    UpdateSetKeeps(ad.model, words);
    ad.(model := UpdateSet(ad.model, words), documentCount := ad.documentCount + 1)
  }

  /** The script's `limit`. */
  const Limit: int := 200000

  /** The loop's state: the global model, `author_data`, and `limit`. */
  datatype Session = Session(global: Model, authors: map<Option<string>, AuthorData>, limit: int)

  const Initial: Session := Session(Empty, map[], Limit)

  /** The loop body for one record. */
  function Absorb(s: Session, rec: LogParser.CommitRecord): Session {
    if |rec.addTerms| == 0 then s
    else
      var a := rec.author;
      var ad := if a in s.authors then s.authors[a] else AuthorData(a, Empty, 0);
      Session(UpdateSet(s.global, rec.addTerms), s.authors[a := AddDocument(ad, rec.addTerms)], s.limit - 1)
  }

  /** Where the loop ended: the state, whether it broke on the limit, and
      how many records it consumed. */
  datatype Folded = Folded(session: Session, stopped: bool, consumed: nat)

  /** The `for` loop: a folded record that brings `limit` to zero breaks
      out after it is counted. */
  function Fold(s: Session, recs: seq<LogParser.CommitRecord>): (f: Folded)
    ensures f.consumed <= |recs|
    ensures !f.stopped ==> f.consumed == |recs|
    ensures f.stopped ==> f.consumed > 0 && |recs[f.consumed - 1].addTerms| > 0
    decreases |recs|
  {
    if recs == [] then Folded(s, false, 0)
    else
      var s' := Absorb(s, recs[0]);
      if |recs[0].addTerms| > 0 && s'.limit <= 0 then Folded(s', true, 1)
      else
        var f := Fold(s', recs[1..]);
        Folded(f.session, f.stopped, f.consumed + 1)
  }

  /* What the fold keeps true */

  ghost function Totals(authors: map<Option<string>, AuthorData>): map<Option<string>, nat> {
    map a | a in authors :: authors[a].model.total
  }

  ghost function Documents(authors: map<Option<string>, AuthorData>): map<Option<string>, nat> {
    map a | a in authors :: authors[a].documentCount
  }

  /** One author's entry is consistent with the global model. */
  ghost predicate AuthorOk(s: Session, a: Option<string>)
    requires a in s.authors
  {
    var ad := s.authors[a];
    && ad.name == a
    && Valid(ad.model)
    && ad.model.counts.Keys <= s.global.counts.Keys
    && ad.documentCount > 0
  }

  /** After `folded` documents: every model consistent with its total, each
      author filed under their own name, every author word in the global
      vocabulary, the global total the sum of the author totals, the
      document counts summing to `folded`, and `limit` counted down by
      `folded`. */
  ghost predicate Inv(s: Session, folded: nat) {
    && Valid(s.global)
    && (forall a :: a in s.authors ==> AuthorOk(s, a))
    && s.global.total == Sum(Totals(s.authors))
    && Sum(Documents(s.authors)) == folded
    && s.limit == Limit - folded
  }

  lemma InitialInv()
    ensures Inv(Initial, 0)
  {
    assert Totals(map[]) == map[];
    assert Documents(map[]) == map[];
  }

  /** How many of `recs` added any terms. */
  function DocumentCount(recs: seq<LogParser.CommitRecord>): nat {
    if recs == [] then 0 else (if |recs[0].addTerms| > 0 then 1 else 0) + DocumentCount(recs[1..])
  }

  /** How many of `recs` added `w`: the document frequency of `w`. */
  function DocumentFrequency(recs: seq<LogParser.CommitRecord>, w: string): nat {
    if recs == [] then 0 else (if w in recs[0].addTerms then 1 else 0) + DocumentFrequency(recs[1..], w)
  }

  lemma TotalsUpdate(authors: map<Option<string>, AuthorData>, a: Option<string>, ad: AuthorData)
    ensures Totals(authors[a := ad]) == Totals(authors)[a := ad.model.total]
    ensures Documents(authors[a := ad]) == Documents(authors)[a := ad.documentCount]
  {
  }

  /** One loop body keeps the invariant, counting the record as a document
      exactly when it added terms. */
  lemma AbsorbInv(s: Session, rec: LogParser.CommitRecord, folded: nat)
    requires Inv(s, folded)
    ensures Inv(Absorb(s, rec), folded + (if |rec.addTerms| > 0 then 1 else 0))
  {
    if |rec.addTerms| > 0 {
      AbsorbAuthorsOk(s, rec, folded);
      AbsorbSums(s, rec, folded);
    } else {
      assert Absorb(s, rec) == s;
    }
  }

  /** The author of a document keeps a consistent entry, and the others
      keep theirs. */
  lemma AbsorbAuthorsOk(s: Session, rec: LogParser.CommitRecord, folded: nat)
    requires Inv(s, folded) && |rec.addTerms| > 0
    ensures Valid(Absorb(s, rec).global)
    ensures forall b :: b in Absorb(s, rec).authors ==> AuthorOk(Absorb(s, rec), b)
  {
    var s' := Absorb(s, rec);
    UpdateSetKeeps(s.global, rec.addTerms);
    forall b | b in s'.authors
      ensures AuthorOk(s', b)
    {
      if b == rec.author {
        OwnAuthorOk(s, rec);
      } else {
        OtherAuthorOk(s, rec, b);
      }
    }
  }

  /** The document's author ends up with a consistent entry. */
  lemma OwnAuthorOk(s: Session, rec: LogParser.CommitRecord)
    requires |rec.addTerms| > 0
    requires rec.author in s.authors ==> AuthorOk(s, rec.author)
    ensures rec.author in Absorb(s, rec).authors && AuthorOk(Absorb(s, rec), rec.author)
  {
    var a := rec.author;
    var ad := if a in s.authors then s.authors[a] else AuthorData(a, Empty, 0);
    EmptyValid();
    assert Valid(ad.model) && ad.model.counts.Keys <= s.global.counts.Keys;
    UpdateSetKeeps(s.global, rec.addTerms);
  }

  /** Any other author's entry is untouched, and the global vocabulary only
      grows. */
  lemma OtherAuthorOk(s: Session, rec: LogParser.CommitRecord, b: Option<string>)
    requires |rec.addTerms| > 0 && b in s.authors && b != rec.author && AuthorOk(s, b)
    ensures b in Absorb(s, rec).authors && AuthorOk(Absorb(s, rec), b)
  {
    UpdateSetKeeps(s.global, rec.addTerms);
    assert Absorb(s, rec).authors[b] == s.authors[b];
  }

  /** A document adds its size to the global total and to its author's
      total, and one to the document counts. */
  lemma AbsorbSums(s: Session, rec: LogParser.CommitRecord, folded: nat)
    requires Inv(s, folded) && |rec.addTerms| > 0
    ensures Absorb(s, rec).global.total == Sum(Totals(Absorb(s, rec).authors))
    ensures Sum(Documents(Absorb(s, rec).authors)) == folded + 1
    ensures Absorb(s, rec).limit == Limit - (folded + 1)
  {
    var a := rec.author;
    var ad := if a in s.authors then s.authors[a] else AuthorData(a, Empty, 0);
    var ad' := AddDocument(ad, rec.addTerms);
    assert a in s.authors ==> Totals(s.authors)[a] == ad.model.total && Documents(s.authors)[a] == ad.documentCount;
    UpdateSetKeeps(s.global, rec.addTerms);
    TotalsUpdate(s.authors, a, ad');
    SumUpdate(Totals(s.authors), a, ad'.model.total);
    SumUpdate(Documents(s.authors), a, ad'.documentCount);
  }

  /** What `FoldInv` promises for a fold from `s` over `recs`. */
  ghost predicate FoldOk(s: Session, recs: seq<LogParser.CommitRecord>, folded: nat) {
    var f := Fold(s, recs);
    var n := folded + DocumentCount(recs[..f.consumed]);
    && Inv(f.session, n)
    && n <= Limit
    && (f.stopped <==> n == Limit)
  }

  /** The fold keeps the invariant; it folds the records that added terms
      among those it consumed, never more than `Limit`, and breaks exactly
      when it reaches `Limit`. */
  lemma {:induction false} FoldInv(s: Session, recs: seq<LogParser.CommitRecord>, folded: nat)
    requires Inv(s, folded) && folded < Limit
    ensures FoldOk(s, recs, folded)
    decreases |recs|
  {
    if recs == [] {
      assert recs[..0] == [];
    } else {
      var s' := Absorb(s, recs[0]);
      AbsorbInv(s, recs[0], folded);
      var d := if |recs[0].addTerms| > 0 then 1 else 0;
      if |recs[0].addTerms| > 0 && s'.limit <= 0 {
        FoldStops(s, recs, folded);
      } else {
        FoldInv(s', recs[1..], folded + d);
        FoldContinues(s, recs, folded);
      }
    }
  }

  lemma FoldStops(s: Session, recs: seq<LogParser.CommitRecord>, folded: nat)
    requires recs != [] && |recs[0].addTerms| > 0 && folded < Limit
    requires Inv(Absorb(s, recs[0]), folded + 1) && Absorb(s, recs[0]).limit <= 0
    ensures FoldOk(s, recs, folded)
  {
    StopShape(s, recs);
    FirstDocument(recs);
  }

  lemma StopShape(s: Session, recs: seq<LogParser.CommitRecord>)
    requires recs != [] && |recs[0].addTerms| > 0 && Absorb(s, recs[0]).limit <= 0
    ensures Fold(s, recs) == Folded(Absorb(s, recs[0]), true, 1)
  {
  }

  lemma ContinueShape(s: Session, recs: seq<LogParser.CommitRecord>)
    requires recs != [] && !(|recs[0].addTerms| > 0 && Absorb(s, recs[0]).limit <= 0)
    ensures var f := Fold(Absorb(s, recs[0]), recs[1..]);
      Fold(s, recs) == Folded(f.session, f.stopped, f.consumed + 1)
  {
  }

  lemma FirstDocument(recs: seq<LogParser.CommitRecord>)
    requires recs != [] && |recs[0].addTerms| > 0
    ensures DocumentCount(recs[..1]) == 1
  {
    assert recs[..1] == [recs[0]];
    assert recs[..1][1..] == [];
  }

  lemma FoldContinues(s: Session, recs: seq<LogParser.CommitRecord>, folded: nat)
    requires recs != []
    requires var s' := Absorb(s, recs[0]); !(|recs[0].addTerms| > 0 && s'.limit <= 0)
    requires FoldOk(Absorb(s, recs[0]), recs[1..], folded + (if |recs[0].addTerms| > 0 then 1 else 0))
    ensures FoldOk(s, recs, folded)
  {
    PrefixCounts(recs, Fold(Absorb(s, recs[0]), recs[1..]).consumed);
  }

  /** Every word's global count goes up by its document frequency among
      the records the fold consumed. */
  lemma {:induction false} FoldCounts(s: Session, recs: seq<LogParser.CommitRecord>, w: string)
    ensures CountsOk(s, recs, w)
    decreases |recs|
  {
    if recs == [] {
      assert recs[..0] == [];
    } else if |recs[0].addTerms| > 0 && Absorb(s, recs[0]).limit <= 0 {
      CountsStop(s, recs, w);
    } else {
      FoldCounts(Absorb(s, recs[0]), recs[1..], w);
      CountsContinue(s, recs, w);
    }
  }

  /** What `FoldCounts` promises for a fold from `s` over `recs`. */
  ghost predicate CountsOk(s: Session, recs: seq<LogParser.CommitRecord>, w: string) {
    var f := Fold(s, recs);
    Count(f.session.global, w) == Count(s.global, w) + DocumentFrequency(recs[..f.consumed], w)
  }

  lemma CountsStop(s: Session, recs: seq<LogParser.CommitRecord>, w: string)
    requires recs != [] && |recs[0].addTerms| > 0 && Absorb(s, recs[0]).limit <= 0
    ensures CountsOk(s, recs, w)
  {
    AbsorbCounts(s, recs[0]);
    StopShape(s, recs);
    PrefixCounts(recs, 0);
    assert recs[1..][..0] == [];
  }

  lemma CountsContinue(s: Session, recs: seq<LogParser.CommitRecord>, w: string)
    requires recs != [] && !(|recs[0].addTerms| > 0 && Absorb(s, recs[0]).limit <= 0)
    requires CountsOk(Absorb(s, recs[0]), recs[1..], w)
    ensures CountsOk(s, recs, w)
  {
    AbsorbCounts(s, recs[0]);
    ContinueShape(s, recs);
    PrefixCounts(recs, Fold(Absorb(s, recs[0]), recs[1..]).consumed);
  }

  lemma AbsorbCounts(s: Session, rec: LogParser.CommitRecord)
    ensures forall w :: Count(Absorb(s, rec).global, w) == Count(s.global, w) + (if w in rec.addTerms then 1 else 0)
  {
    UpdateSetKeeps(s.global, rec.addTerms);
  }

  lemma PrefixCounts(recs: seq<LogParser.CommitRecord>, k: nat)
    requires recs != [] && k < |recs|
    ensures DocumentCount(recs[..k + 1])
         == (if |recs[0].addTerms| > 0 then 1 else 0) + DocumentCount(recs[1..][..k])
    ensures forall w :: (DocumentFrequency(recs[..k + 1], w)
         == (if w in recs[0].addTerms then 1 else 0) + DocumentFrequency(recs[1..][..k], w))
  {
    assert recs[..k + 1][1..] == recs[1..][..k];
  }

  /* The script over a whole log */

  /** The loop over `readrecord(sys.stdin)`: the parser's exception reaches
      the script unless the loop broke on the limit before the generator
      got that far. */
  function Collate(lines: seq<string>): (r: Result<Session, LogParser.LineError>)
    ensures var p := LogParser.ReadRecords(lines);
      r.Failure? <==> p.error.Some? && !Fold(Initial, p.records).stopped
  {
    var p := LogParser.ReadRecords(lines);
    var f := Fold(Initial, p.records);
    if !f.stopped && p.error.Some? then Failure(p.error.value) else Success(f.session)
  }

  /** A log the script gets through leaves a consistent state: the
      invariant holds with one document per record that added terms, at
      most `Limit` of them, and each word's global count is the number of
      those commits that added it. */
  lemma CollateInv(lines: seq<string>)
    ensures var p := LogParser.ReadRecords(lines);
      var f := Fold(Initial, p.records);
      var n := DocumentCount(p.records[..f.consumed]);
      Collate(lines).Success? ==>
        && Inv(Collate(lines).value, n)
        && n <= Limit
        && forall w :: Count(Collate(lines).value.global, w) == DocumentFrequency(p.records[..f.consumed], w)
  {
    var p := LogParser.ReadRecords(lines);
    InitialInv();
    FoldInv(Initial, p.records, 0);
    forall w
      ensures Count(Fold(Initial, p.records).session.global, w)
           == DocumentFrequency(p.records[..Fold(Initial, p.records).consumed], w)
    {
      FoldCounts(Initial, p.records, w);
    }
  }

  /* The report */

  /** An author and the cross-entropy of the global model against theirs. */
  datatype RankRow = RankRow(author: AuthorData, crossEntropy: real)

  /** The list comprehension over `author_data.values()`, met in the order
      `ads`; `keyOrder` gives each model's dict order. The first failing
      lookup raises. */
  function Scores(global: Model, ads: seq<AuthorData>, keyOrder: Model -> seq<string>, log2: real -> real)
    : (r: Result<seq<RankRow>, ProbError>)
    ensures r.Success? ==> |r.value| == |ads|
    ensures r.Success? ==> forall i :: 0 <= i < |ads| ==>
              && r.value[i].author == ads[i]
              && CrossEntropy(global, ads[i].model, keyOrder(ads[i].model), log2) == Success(r.value[i].crossEntropy)
    ensures (forall i :: 0 <= i < |ads| ==> CrossEntropy(global, ads[i].model, keyOrder(ads[i].model), log2).Success?)
            ==> r.Success?
  {
    if ads == [] then Success([])
    else
      match CrossEntropy(global, ads[0].model, keyOrder(ads[0].model), log2)
      case Failure(e) => Failure(e)
      case Success(x) =>
        match Scores(global, ads[1..], keyOrder, log2)
        case Failure(e) => Failure(e)
        case Success(rest) => Success([RankRow(ads[0], x)] + rest)
  }

  predicate Ascending(rows: seq<RankRow>) {
    forall i, j :: 0 <= i < j < |rows| ==> rows[i].crossEntropy <= rows[j].crossEntropy
  }

  /** No row of `rows` scores below `v`. */
  predicate AtLeast(v: real, rows: seq<RankRow>) {
    forall k :: 0 <= k < |rows| ==> v <= rows[k].crossEntropy
  }

  /** A row placed ahead of an ascending list that it does not exceed. */
  lemma ConsAscending(x: RankRow, rows: seq<RankRow>)
    requires Ascending(rows) && AtLeast(x.crossEntropy, rows)
    ensures Ascending([x] + rows)
  {
    var r := [x] + rows;
    forall i, j | 0 <= i < j < |r|
      ensures r[i].crossEntropy <= r[j].crossEntropy
    {
      assert r[j] == rows[j - 1];
      if i > 0 {
        assert r[i] == rows[i - 1];
      }
    }
  }

  /** Places `x`, which came before every row of `rows`, ahead of the first
      row scoring at least as much: ties keep their original order. */
  function Insert(x: RankRow, rows: seq<RankRow>): (r: seq<RankRow>)
    ensures |r| == |rows| + 1
  {
    if rows == [] then [x]
    else if x.crossEntropy <= rows[0].crossEntropy then [x] + rows
    else [rows[0]] + Insert(x, rows[1..])
  }

  lemma {:induction false} InsertPermutes(x: RankRow, rows: seq<RankRow>)
    ensures multiset(Insert(x, rows)) == multiset(rows) + multiset{x}
  {
    if rows != [] && x.crossEntropy > rows[0].crossEntropy {
      InsertPermutes(x, rows[1..]);
      assert rows == [rows[0]] + rows[1..];
    }
  }

  lemma {:induction false} InsertAtLeast(v: real, x: RankRow, rows: seq<RankRow>)
    requires AtLeast(v, rows) && v <= x.crossEntropy
    ensures AtLeast(v, Insert(x, rows))
  {
    if rows != [] && x.crossEntropy > rows[0].crossEntropy {
      InsertAtLeast(v, x, rows[1..]);
      var t := Insert(x, rows[1..]);
      assert Insert(x, rows) == [rows[0]] + t;
      forall k | 0 < k < |t| + 1 ensures v <= ([rows[0]] + t)[k].crossEntropy {
        assert ([rows[0]] + t)[k] == t[k - 1];
      }
    }
  }

  /** Insertion keeps a list ascending. */
  lemma {:induction false} InsertAscending(x: RankRow, rows: seq<RankRow>)
    requires Ascending(rows)
    ensures Ascending(Insert(x, rows))
  {
    if rows == [] {
    } else if x.crossEntropy <= rows[0].crossEntropy {
      ConsAscending(x, rows);
    } else {
      InsertAscending(x, rows[1..]);
      InsertAtLeast(rows[0].crossEntropy, x, rows[1..]);
      ConsAscending(rows[0], Insert(x, rows[1..]));
    }
  }

  /** `sorted(..., key=itemgetter(1))`: a stable sort by cross-entropy. */
  function SortByScore(rows: seq<RankRow>): (r: seq<RankRow>)
    ensures |r| == |rows|
  {
    if rows == [] then [] else Insert(rows[0], SortByScore(rows[1..]))
  }

  /** The ranking is ascending and neither loses nor duplicates a row. */
  lemma {:induction false} SortByScoreCorrect(rows: seq<RankRow>)
    ensures Ascending(SortByScore(rows))
    ensures multiset(SortByScore(rows)) == multiset(rows)
  {
    if rows != [] {
      SortByScoreCorrect(rows[1..]);
      InsertAscending(rows[0], SortByScore(rows[1..]));
      InsertPermutes(rows[0], SortByScore(rows[1..]));
      assert rows == [rows[0]] + rows[1..];
    }
  }

  /** The final loop's filter: the rows of authors with at least ten
      documents, in ranking order. */
  function Listed(rows: seq<RankRow>): (r: seq<RankRow>)
    ensures |r| <= |rows|
  {
    if rows == [] then []
    else if rows[0].author.documentCount >= 10 then [rows[0]] + Listed(rows[1..])
    else Listed(rows[1..])
  }

  /** A row is listed exactly as often as it is ranked if its author has
      at least ten documents, and not at all otherwise. */
  lemma {:induction false} ListedCounts(rows: seq<RankRow>)
    ensures forall x :: multiset(Listed(rows))[x] == (if x.author.documentCount >= 10 then multiset(rows)[x] else 0)
  {
    if rows != [] {
      ListedCounts(rows[1..]);
      assert rows == [rows[0]] + rows[1..];
    }
  }

  lemma {:induction false} ListedAtLeast(v: real, rows: seq<RankRow>)
    requires AtLeast(v, rows)
    ensures AtLeast(v, Listed(rows))
  {
    if rows != [] {
      ListedAtLeast(v, rows[1..]);
      var t := Listed(rows[1..]);
      if rows[0].author.documentCount >= 10 {
        forall k | 0 < k < |t| + 1 ensures v <= ([rows[0]] + t)[k].crossEntropy {
          assert ([rows[0]] + t)[k] == t[k - 1];
        }
      }
    }
  }

  /** Filtering keeps the ranking ascending. */
  lemma {:induction false} ListedAscending(rows: seq<RankRow>)
    requires Ascending(rows)
    ensures Ascending(Listed(rows))
  {
    if rows != [] {
      ListedAscending(rows[1..]);
      if rows[0].author.documentCount >= 10 {
        ListedAtLeast(rows[0].crossEntropy, rows[1..]);
        ConsAscending(rows[0], Listed(rows[1..]));
      }
    }
  }

  /** What the script prints: the 30 most frequent words of the whole log,
      and the ranked, filtered authors. */
  datatype Output = Output(topWords: seq<string>, ranking: seq<RankRow>)

  function Summary(s: Session, wordOrder: seq<string>, ads: seq<AuthorData>,
                   keyOrder: Model -> seq<string>, log2: real -> real): Result<Output, ProbError>
  {
    match Scores(s.global, ads, keyOrder, log2)
    case Failure(e) => Failure(e)
    case Success(rows) => Success(Output(TopWords(s.global, wordOrder, 30), Listed(SortByScore(rows))))
  }

  /** From a consistent state every cross-entropy is defined: each
      author's words are in the global vocabulary, so none reaches the
      `''` lookup. */
  lemma ScoresDefined(s: Session, folded: nat, ads: seq<AuthorData>,
                      keyOrder: Model -> seq<string>, log2: real -> real)
    requires Inv(s, folded)
    requires forall i :: 0 <= i < |ads| ==> ads[i].name in s.authors && s.authors[ads[i].name] == ads[i]
    requires forall i :: 0 <= i < |ads| ==> Enumerates(keyOrder(ads[i].model), ads[i].model.counts.Keys)
    ensures Scores(s.global, ads, keyOrder, log2).Success?
  {
    forall i | 0 <= i < |ads|
      ensures CrossEntropy(s.global, ads[i].model, keyOrder(ads[i].model), log2).Success?
    {
      assert AuthorOk(s, ads[i].name);
      CrossEntropyDefined(s.global, ads[i].model, keyOrder(ads[i].model), log2);
    }
  }

  /** The printed ranking: ascending, only authors with at least ten
      documents, and every such author of `rows`. */
  lemma RankingCorrect(rows: seq<RankRow>)
    ensures var out := Listed(SortByScore(rows));
      && Ascending(out)
      && (forall i :: 0 <= i < |out| ==> out[i].author.documentCount >= 10)
      && (forall x :: x in out <==> x in rows && x.author.documentCount >= 10)
  {
    var sorted := SortByScore(rows);
    var out := Listed(sorted);
    SortByScoreCorrect(rows);
    ListedAscending(sorted);
    ListedCounts(sorted);
    forall x
      ensures x in out <==> x in rows && x.author.documentCount >= 10
    {
      assert x in out <==> multiset(out)[x] > 0;
      assert x in rows <==> multiset(rows)[x] > 0;
    }
    forall i | 0 <= i < |out|
      ensures out[i].author.documentCount >= 10
    {
      assert out[i] in out;
    }
  }

  /** From a consistent state the report cannot fail, and it lists, in
      ascending order of cross-entropy, exactly the authors of `ads` with
      at least ten documents. */
  lemma SummaryOk(s: Session, folded: nat, wordOrder: seq<string>, ads: seq<AuthorData>,
                  keyOrder: Model -> seq<string>, log2: real -> real)
    requires Inv(s, folded)
    requires forall i :: 0 <= i < |ads| ==> ads[i].name in s.authors && s.authors[ads[i].name] == ads[i]
    requires forall i :: 0 <= i < |ads| ==> Enumerates(keyOrder(ads[i].model), ads[i].model.counts.Keys)
    ensures Summary(s, wordOrder, ads, keyOrder, log2).Success?
    ensures var out := Summary(s, wordOrder, ads, keyOrder, log2).value;
      && Ascending(out.ranking)
      && (forall i :: 0 <= i < |out.ranking| ==> out.ranking[i].author.documentCount >= 10)
      && (forall ad :: ad in Authors(out.ranking) <==> ad in ads && ad.documentCount >= 10)
  {
    ScoresDefined(s, folded, ads, keyOrder, log2);
    var rows := Scores(s.global, ads, keyOrder, log2).value;
    RankingCorrect(rows);
    ListedAuthors(ads, rows, Listed(SortByScore(rows)));
  }

  /** The rows are those of `ads`, position by position, and `out` holds
      exactly the rows with at least ten documents: then its authors are
      exactly the authors of `ads` with at least ten documents. */
  lemma ListedAuthors(ads: seq<AuthorData>, rows: seq<RankRow>, out: seq<RankRow>)
    requires |rows| == |ads| && forall i :: 0 <= i < |ads| ==> rows[i].author == ads[i]
    requires forall x :: x in out <==> x in rows && x.author.documentCount >= 10
    ensures forall ad :: ad in Authors(out) <==> ad in ads && ad.documentCount >= 10
  {
    forall ad
      ensures ad in Authors(out) <==> ad in ads && ad.documentCount >= 10
    {
      if ad in Authors(out) {
        var i :| 0 <= i < |out| && Authors(out)[i] == ad;
        assert out[i] in rows;
        var j :| 0 <= j < |rows| && rows[j] == out[i];
        assert ads[j] == ad;
      }
      if ad in ads && ad.documentCount >= 10 {
        var j :| 0 <= j < |ads| && ads[j] == ad;
        assert rows[j] in rows;
        assert rows[j] in out;
        var i :| 0 <= i < |out| && out[i] == rows[j];
        assert Authors(out)[i] == ad;
      }
    }
  }

  /** The authors of a list of rows, in order. */
  function Authors(rows: seq<RankRow>): (r: seq<AuthorData>)
    ensures |r| == |rows| && forall i :: 0 <= i < |rows| ==> r[i] == rows[i].author
  {
    seq(|rows|, i requires 0 <= i < |rows| => rows[i].author)
  }
}

=== FILE: author_stats.dfy ===
/**
 make-author-stats: reads `time,person` lines, newest first, and prints one
 `count,span,person` row per maximal run of consecutive lines by the same
 person, where span is the time of the run's first line minus the time of
 its last. A line without a comma, or whose time is not an integer, raises
 after the rows printed so far; an empty input raises at the final print.
 */
module AuthorStats {
  import opened Common
  import opened PyStr

  datatype Entry = Entry(time: int, person: string)

  /** A maximal run: its person, how many lines, and the times of its first
      and last line. */
  datatype Run = Run(person: string, count: nat, first: int, last: int)

  /** A printed row. */
  datatype StatRow = StatRow(count: int, span: int, person: string)

  /** One input line after `line.strip().split(',', 1)` and `int(time)`. */
  datatype Line = NoComma | BadTime(person: string) | Good(entry: Entry)

  /** The text before the first comma and the text after it, `None` when
      there is no comma. */
  function SplitAtComma(t: string): (r: Option<(string, string)>)
    ensures r.None? <==> ',' !in t
    ensures r.Some? ==> t == r.value.0 + "," + r.value.1 && ',' !in r.value.0
  {
    var time := Before(t, ",");
    BeforeExcludes(t, ',');
    if |time| == |t| then
      assert time == t;
      None
    else
      assert t[|time|..][..1] == ",";
      assert t == time + "," + t[|time| + 1..];
      Some((time, t[|time| + 1..]))
  }

  function ParseLine(line: string): Line {
    match SplitAtComma(Strip(line))
    case None => NoComma
    case Some((time, person)) =>
      match ParseInt(time)
      case None => BadTime(person)
      case Some(t) => Good(Entry(t, person))
  }

  /** The runs of `es`, built left to right: a line extends the last run
      when it has the same person, and opens a new run otherwise. */
  function Runs(es: seq<Entry>): (rs: seq<Run>)
    ensures |rs| <= |es|
    ensures es != [] ==> rs != []
  {
    if es == [] then []
    else
      var rs := Runs(es[..|es| - 1]);
      var e := es[|es| - 1];
      if rs != [] && rs[|rs| - 1].person == e.person then
        var r := rs[|rs| - 1];
        rs[..|rs| - 1] + [r.(count := r.count + 1, last := e.time)]
      else rs + [Run(e.person, 1, e.time, e.time)]
  }

  function RowOf(r: Run): StatRow {
    StatRow(r.count, r.first - r.last, r.person)
  }

  function RowsOf(rs: seq<Run>): (rows: seq<StatRow>)
    ensures |rows| == |rs| && forall i :: 0 <= i < |rs| ==> rows[i] == RowOf(rs[i])
  {
    seq(|rs|, i requires 0 <= i < |rs| => RowOf(rs[i]))
  }

  /** A comma-free time, a comma and a person split back into the two. */
  lemma SplitAtCommaOf(time: string, person: string)
    requires ',' !in time
    ensures SplitAtComma(time + "," + person) == Some((time, person))
  {
    var t := time + "," + person;
    assert t[|time|] == ',';
    var r := SplitAtComma(t);
    var x := r.value.0;
    assert |x| == |time|;
    assert x == t[..|time|] == time;
    assert r.value.1 == t[|time| + 1..] == person;
  }

  /** A trimmed line `time,person` with a comma-free time: the person is
      everything after the comma, and the time is `int()` of the text
      before it. */
  lemma ParseLineOf(time: string, person: string)
    requires ',' !in time
    requires Strip(time + "," + person) == time + "," + person
    ensures ParseLine(time + "," + person)
         == if ParseInt(time).None? then BadTime(person) else Good(Entry(ParseInt(time).value, person))
  {
    SplitAtCommaOf(time, person);
  }

  /** Python 2 takes blanks after the sign of a time: `- 5,bob` is a line
      by bob at time -5. */
  lemma SpacedSignLine()
    ensures ParseLine("- 5" + "," + "bob") == Good(Entry(-5, "bob"))
  {
    var time, person := "- 5", "bob";
    assert ',' !in time;
    SpacedSignTrimmed();
    ParseMinusSpaceFive();
    ParseLineOf(time, person);
  }

  lemma SpacedSignTrimmed()
    ensures Strip("- 5" + "," + "bob") == "- 5" + "," + "bob"
  {
    var line := "- 5" + "," + "bob";
    assert line[0] == '-' && line[|line| - 1] == 'b';
    StripTrimmed(line);
  }

  /** Every line of the input, parsed. */
  function ParseLines(lines: seq<string>): (ls: seq<Line>)
    ensures |ls| == |lines|
  {
    seq(|lines|, i requires 0 <= i < |lines| => ParseLine(lines[i]))
  }

  predicate AllGood(ls: seq<Line>) {
    forall i :: 0 <= i < |ls| ==> ls[i].Good?
  }

  function Entries(ls: seq<Line>): (es: seq<Entry>)
    requires AllGood(ls)
    ensures |es| == |ls| && forall i :: 0 <= i < |ls| ==> es[i] == ls[i].entry
  {
    seq(|ls|, i requires 0 <= i < |ls| => ls[i].entry)
  }

  datatype StatsError = ValueError(line: nat) | NameError

  /** Whether a line names someone other than the person of the last run,
      so that the script prints that run before going on. */
  predicate NewPerson(rs: seq<Run>, person: string) {
    rs != [] && rs[|rs| - 1].person != person
  }

  /** One more line: a new run when the person changes, else the last run
      grows by one and ends at the new time. */
  function Extend(rs: seq<Run>, e: Entry): seq<Run> {
    if rs == [] || NewPerson(rs, e.person) then rs + [Run(e.person, 1, e.time, e.time)]
    else AllButLast(rs) + [rs[|rs| - 1].(count := rs[|rs| - 1].count + 1, last := e.time)]
  }

  lemma RunsSnoc(es: seq<Entry>, e: Entry)
    ensures Runs(es + [e]) == Extend(Runs(es), e)
  {
    assert (es + [e])[..|es|] == es;
  }

  lemma RowsOfSnoc(rs: seq<Run>, r: Run)
    ensures RowsOf(rs + [r]) == RowsOf(rs) + [RowOf(r)]
  {
  }

  lemma GoodPrefix(ls: seq<Line>, i: nat)
    requires i < |ls| && AllGood(ls[..i]) && ls[i].Good?
    ensures AllGood(ls[..i + 1])
    ensures Entries(ls[..i + 1]) == Entries(ls[..i]) + [ls[i].entry]
  {
    assert ls[..i + 1] == ls[..i] + [ls[i]];
  }

  /** One more line in front of the runs: it joins the first run when it
      names that run's person, which then starts at its time, and opens a
      run of its own otherwise. */
  function Prepend(e: Entry, rs: seq<Run>): (out: seq<Run>)
    ensures |rs| <= |out| <= |rs| + 1
  {
    if rs != [] && rs[0].person == e.person then [rs[0].(count := rs[0].count + 1, first := e.time)] + rs[1..]
    else [Run(e.person, 1, e.time, e.time)] + rs
  }

  /** A reference definition of the runs, built back to front: each line
      is put in front of the runs of the lines after it. */
  function Group(es: seq<Entry>): (rs: seq<Run>)
    ensures |rs| <= |es|
    decreases |es|
  {
    if es == [] then [] else Prepend(es[0], Group(es[1..]))
  }

  /** Adding a line at the front and one at the back commute, whatever the
      runs in between. */
  lemma PrependExtend(a: Entry, rs: seq<Run>, e: Entry)
    ensures Prepend(a, Extend(rs, e)) == Extend(Prepend(a, rs), e)
  {
    if rs == [] {
      PrependExtendEmpty(a, e);
    } else if |rs| == 1 {
      PrependExtendOne(a, rs[0], e);
      assert rs == [rs[0]];
    } else {
      PrependExtendLong(a, rs, e);
    }
  }

  lemma PrependExtendEmpty(a: Entry, e: Entry)
    ensures Prepend(a, Extend([], e)) == Extend(Prepend(a, []), e)
  {
    var x := Prepend(a, Extend([], e));
    var y := Extend(Prepend(a, []), e);
    if a.person == e.person {
      assert AllButLast([Run(a.person, 1, a.time, a.time)]) == [];
      assert |x| == 1 == |y| && x[0] == y[0];
    } else {
      assert |x| == 2 == |y| && x[0] == y[0] && x[1] == y[1];
    }
  }

  lemma PrependExtendOne(a: Entry, r: Run, e: Entry)
    ensures Prepend(a, Extend([r], e)) == Extend(Prepend(a, [r]), e)
  {
    assert AllButLast([r]) == [];
    if a.person == r.person {
      OneJoins(a, r, e);
    } else {
      OneOpens(a, r, e);
    }
  }

  lemma OneJoins(a: Entry, r: Run, e: Entry)
    requires a.person == r.person
    ensures Prepend(a, Extend([r], e)) == Extend(Prepend(a, [r]), e)
  {
    if e.person == r.person {
      AllJoin(a, r, e);
    } else {
      FrontJoins(a, r, e);
    }
  }

  lemma AllJoin(a: Entry, r: Run, e: Entry)
    requires a.person == r.person && e.person == r.person
    ensures Prepend(a, Extend([r], e)) == Extend(Prepend(a, [r]), e)
  {
    var both := Run(r.person, r.count + 2, a.time, e.time);
    assert Prepend(a, Extend([r], e)) == [both] by {
      assert AllButLast([r]) == [];
      assert Extend([r], e) == [r.(count := r.count + 1, last := e.time)];
    }
    var h := r.(count := r.count + 1, first := a.time);
    assert Extend(Prepend(a, [r]), e) == [both] by {
      assert Prepend(a, [r]) == [h];
      assert AllButLast([h]) == [];
    }
  }

  lemma FrontJoins(a: Entry, r: Run, e: Entry)
    requires a.person == r.person && e.person != r.person
    ensures Prepend(a, Extend([r], e)) == Extend(Prepend(a, [r]), e)
  {
    var h := r.(count := r.count + 1, first := a.time);
    var n := Run(e.person, 1, e.time, e.time);
    assert Prepend(a, Extend([r], e)) == [h, n] by {
      assert Extend([r], e) == [r, n];
    }
    assert Extend(Prepend(a, [r]), e) == [h, n] by {
      assert Prepend(a, [r]) == [h];
    }
  }

  lemma OneOpens(a: Entry, r: Run, e: Entry)
    requires a.person != r.person
    ensures Prepend(a, Extend([r], e)) == Extend(Prepend(a, [r]), e)
  {
    var h := Run(a.person, 1, a.time, a.time);
    assert Prepend(a, [r]) == [h] + [r];
    ExtendCons(h, [r], e);
    assert AllButLast([r]) == [];
    if e.person == r.person {
      assert Extend([r], e) == [r.(count := r.count + 1, last := e.time)];
    } else {
      assert Extend([r], e) == [r, Run(e.person, 1, e.time, e.time)];
    }
  }

  /** With two runs or more, the front line and the back line touch
      different runs. */
  lemma PrependExtendLong(a: Entry, rs: seq<Run>, e: Entry)
    requires |rs| >= 2
    ensures Prepend(a, Extend(rs, e)) == Extend(Prepend(a, rs), e)
  {
    ExtendCons(rs[0], rs[1..], e);
    assert [rs[0]] + rs[1..] == rs;
    if a.person == rs[0].person {
      PrependJoins(a, rs, e);
    } else {
      PrependOpens(a, rs, e);
    }
  }

  lemma PrependJoins(a: Entry, rs: seq<Run>, e: Entry)
    requires |rs| >= 2 && a.person == rs[0].person
    requires Extend(rs, e) == [rs[0]] + Extend(rs[1..], e)
    ensures Prepend(a, Extend(rs, e)) == Extend(Prepend(a, rs), e)
  {
    var ext := Extend(rs, e);
    var h := rs[0].(count := rs[0].count + 1, first := a.time);
    assert ext[1..] == Extend(rs[1..], e);
    assert Prepend(a, rs) == [h] + rs[1..];
    ExtendCons(h, rs[1..], e);
  }

  lemma PrependOpens(a: Entry, rs: seq<Run>, e: Entry)
    requires |rs| >= 2 && a.person != rs[0].person
    requires Extend(rs, e) == [rs[0]] + Extend(rs[1..], e)
    ensures Prepend(a, Extend(rs, e)) == Extend(Prepend(a, rs), e)
  {
    var h := Run(a.person, 1, a.time, a.time);
    assert Prepend(a, rs) == [h] + rs;
    ExtendCons(h, rs, e);
  }

  /** Extending runs leaves all but the last alone. */
  lemma ExtendCons(h: Run, tail: seq<Run>, e: Entry)
    requires tail != []
    ensures Extend([h] + tail, e) == [h] + Extend(tail, e)
  {
    assert AllButLast([h] + tail) == [h] + AllButLast(tail);
  }

  /** The grouping gains a line at the back exactly as the script's runs
      do. */
  lemma {:induction false} GroupSnoc(es: seq<Entry>, e: Entry)
    ensures Group(es + [e]) == Extend(Group(es), e)
    decreases |es|
  {
    if es == [] {
      assert es + [e] == [e];
      assert [e][1..] == [];
    } else {
      var t := es + [e];
      assert t[0] == es[0];
      assert t[1..] == es[1..] + [e];
      GroupSnoc(es[1..], e);
      PrependExtend(es[0], Group(es[1..]), e);
    }
  }

  /** The runs built line by line are the runs found back to front. */
  lemma {:induction false} RunsAreGroups(es: seq<Entry>)
    ensures Runs(es) == Group(es)
    decreases |es|
  {
    if es != [] {
      var init := es[..|es| - 1];
      var e := es[|es| - 1];
      assert init + [e] == es;
      RunsAreGroups(init);
      RunsSnoc(init, e);
      GroupSnoc(init, e);
    }
  }

  function CountSum(rs: seq<Run>): (n: nat) {
    if rs == [] then 0 else CountSum(rs[..|rs| - 1]) + rs[|rs| - 1].count
  }

  /** Runs are maximal and cover the input: every run has at least one line,
      neighbouring runs belong to different people, and the counts add up to
      the number of lines. */
  predicate Covers(rs: seq<Run>, es: seq<Entry>) {
    && CountSum(rs) == |es|
    && (forall i :: 0 <= i < |rs| ==> rs[i].count >= 1)
    && (forall i :: 0 < i < |rs| ==> rs[i - 1].person != rs[i].person)
  }

  lemma {:induction false} RunsCover(es: seq<Entry>)
    ensures Covers(Runs(es), es)
    decreases |es|
  {
    if es != [] {
      var init := es[..|es| - 1];
      var e := es[|es| - 1];
      assert init + [e] == es;
      RunsCover(init);
      RunsSnoc(init, e);
      if Runs(init) == [] || NewPerson(Runs(init), e.person) {
        NewRunCovers(Runs(init), init, e);
      } else {
        SameRunCovers(Runs(init), init, e);
      }
    }
  }

  lemma NewRunCovers(rs: seq<Run>, es: seq<Entry>, e: Entry)
    requires Covers(rs, es)
    requires rs == [] || NewPerson(rs, e.person)
    ensures Covers(Extend(rs, e), es + [e])
  {
    var rs' := rs + [Run(e.person, 1, e.time, e.time)];
    assert rs'[..|rs'| - 1] == rs;
  }

  lemma SameRunCovers(rs: seq<Run>, es: seq<Entry>, e: Entry)
    requires Covers(rs, es)
    requires rs != [] && !NewPerson(rs, e.person)
    ensures Covers(Extend(rs, e), es + [e])
  {
    var rs' := Extend(rs, e);
    assert rs'[..|rs'| - 1] == AllButLast(rs);
    assert rs[..|rs| - 1] == AllButLast(rs);
  }

  /** Three lines, two by one person and then one by another. */
  lemma RunsExample()
    ensures Runs([Entry(30, "ann"), Entry(20, "ann"), Entry(10, "bo")])
         == [Run("ann", 2, 30, 20), Run("bo", 1, 10, 10)]
  {
    var es := [Entry(30, "ann"), Entry(20, "ann"), Entry(10, "bo")];
    assert es[..2] == [Entry(30, "ann"), Entry(20, "ann")];
    assert es[..2][..1] == [Entry(30, "ann")];
    assert es[..2][..1][..0] == [];
  }

  /** What the script holds between lines: the rows printed so far are those
      of every run but the last, and its variables describe the last run. */
  predicate Tracks(rs: seq<Run>, rows: seq<StatRow>, person: Option<string>, count: nat, latest: int, earliest: int) {
    && rows == RowsOf(AllButLast(rs))
    && (rs == [] <==> person.None?)
    && (rs != [] ==> rs[|rs| - 1] == Run(person.value, count, latest, earliest))
  }

  /** The row the script prints for the run it is tracking. */
  function Pending(person: Option<string>, count: int, latest: int, earliest: int): (row: StatRow)
    requires person.Some?
  {
    StatRow(count, latest - earliest, person.value)
  }

  /** A good line naming someone new: the tracked run is printed (when
      there is one) and a run of one line starts. */
  lemma NewRunStep(rs: seq<Run>, e: Entry, rows: seq<StatRow>, person: Option<string>, count: nat, latest: int, earliest: int)
    requires Tracks(rs, rows, person, count, latest, earliest)
    requires person != Some(e.person)
    ensures Tracks(Extend(rs, e), if person.Some? then rows + [Pending(person, count, latest, earliest)] else rows,
                   Some(e.person), 1, e.time, e.time)
  {
    var rs' := Extend(rs, e);
    assert rs' == rs + [Run(e.person, 1, e.time, e.time)];
    assert AllButLast(rs') == rs;
    if rs != [] {
      RowsOfSnoc(AllButLast(rs), rs[|rs| - 1]);
      assert AllButLast(rs) + [rs[|rs| - 1]] == rs;
    }
  }

  /** A good line naming the tracked person: the run grows by one line and
      now ends at that line's time. */
  lemma SameRunStep(rs: seq<Run>, e: Entry, rows: seq<StatRow>, person: Option<string>, count: nat, latest: int, earliest: int)
    requires Tracks(rs, rows, person, count, latest, earliest)
    requires person == Some(e.person)
    ensures Tracks(Extend(rs, e), rows, person, count + 1, latest, e.time)
  {
    var rs' := Extend(rs, e);
    assert rs' == AllButLast(rs) + [Run(e.person, count + 1, latest, e.time)];
    assert AllButLast(rs') == AllButLast(rs);
  }

  /** The rows printed before a bad line raises: every finished run, and
      also the run in progress when the line has a comma and names someone
      else, since the script prints that run before reading the time. */
  function RowsAtError(rs: seq<Run>, l: Line): seq<StatRow> {
    RowsOf(if l.BadTime? && NewPerson(rs, l.person) then rs else AllButLast(rs))
  }

  /** The loop body for a line with a comma and an integer time. */
  method Feed(ghost rs: seq<Run>, e: Entry, rows: seq<StatRow>, person: Option<string>, count: nat, latest: int, earliest: int)
    returns (rows': seq<StatRow>, person': Option<string>, count': nat, latest': int, earliest': int)
    requires Tracks(rs, rows, person, count, latest, earliest)
    ensures Tracks(Extend(rs, e), rows', person', count', latest', earliest')
    ensures person' == Some(e.person)
  {
    rows', person', count', latest' := rows, person, count, latest;
    if person != Some(e.person) {
      NewRunStep(rs, e, rows, person, count, latest, earliest);
      if person.Some? {
        rows' := rows + [Pending(person, count, latest, earliest)];
      }
      person' := Some(e.person);
      latest' := e.time;
      count' := 0;
    } else {
      SameRunStep(rs, e, rows, person, count, latest, earliest);
    }
    count' := count' + 1;
    earliest' := e.time;
  }

  /** The loop body for a line with a comma but no integer time: the run in
      progress is printed first when the line names someone else. */
  method Abort(ghost rs: seq<Run>, l: Line, rows: seq<StatRow>, person: Option<string>, count: nat, latest: int, earliest: int)
    returns (rows': seq<StatRow>)
    requires Tracks(rs, rows, person, count, latest, earliest)
    requires l.BadTime?
    ensures rows' == RowsAtError(rs, l)
  {
    rows' := rows;
    if rs != [] {
      RowsOfSnoc(AllButLast(rs), rs[|rs| - 1]);
      assert AllButLast(rs) + [rs[|rs| - 1]] == rs;
    }
    if person != Some(l.person) && person.Some? {
      rows' := rows + [Pending(person, count, latest, earliest)];
    }
  }

  /** The final print completes the rows with the run in progress. */
  method Finish(ghost rs: seq<Run>, rows: seq<StatRow>, person: Option<string>, count: nat, latest: int, earliest: int)
    returns (rows': seq<StatRow>)
    requires Tracks(rs, rows, person, count, latest, earliest)
    requires person.Some?
    ensures rows' == RowsOf(rs)
  {
    RowsOfSnoc(AllButLast(rs), rs[|rs| - 1]);
    assert AllButLast(rs) + [rs[|rs| - 1]] == rs;
    rows' := rows + [Pending(person, count, latest, earliest)];
  }

  /** The script's loop up to the first line that raises (or the end): the
      variables track the runs of the good lines read so far. */
  method Scan(ls: seq<Line>) returns (i: nat, rows: seq<StatRow>, person: Option<string>, count: nat, latest: int, earliest: int)
    ensures i <= |ls| && AllGood(ls[..i]) && (i < |ls| ==> !ls[i].Good?)
    ensures Tracks(Runs(Entries(ls[..i])), rows, person, count, latest, earliest)
    ensures person.None? <==> i == 0
  {
    person, count, latest, earliest := None, 0, 0, 0;
    rows := [];
    i := 0;
    while i < |ls| && ls[i].Good?
      invariant i <= |ls|
      invariant AllGood(ls[..i])
      invariant Tracks(Runs(Entries(ls[..i])), rows, person, count, latest, earliest)
      invariant person.None? <==> i == 0
    {
      var e := ls[i].entry;
      GoodPrefix(ls, i);
      RunsSnoc(Entries(ls[..i]), e);
      rows, person, count, latest, earliest := Feed(Runs(Entries(ls[..i])), e, rows, person, count, latest, earliest);
      i := i + 1;
    }
  }

  /** The script's loop and final print over the parsed lines. */
  method SummariseLines(ls: seq<Line>) returns (rows: seq<StatRow>, err: Option<StatsError>)
    ensures ls == [] ==> rows == [] && err == Some(NameError)
    ensures err.None? ==> ls != [] && AllGood(ls) && rows == RowsOf(Runs(Entries(ls)))
    ensures err.Some? && ls != [] ==>
      && err.value.ValueError?
      && err.value.line < |ls|
      && AllGood(ls[..err.value.line])
      && !ls[err.value.line].Good?
      && rows == RowsAtError(Runs(Entries(ls[..err.value.line])), ls[err.value.line])
  {
    var i, person, count, latest, earliest;
    i, rows, person, count, latest, earliest := Scan(ls);
    if i < |ls| {
      if ls[i].BadTime? {
        rows := Abort(Runs(Entries(ls[..i])), ls[i], rows, person, count, latest, earliest);
      }
      err := Some(ValueError(i));
    } else if person.None? {
      err := Some(NameError);
    } else {
      assert ls[..i] == ls;
      rows := Finish(Runs(Entries(ls)), rows, person, count, latest, earliest);
      err := None;
    }
  }

  /** The script over raw lines. */
  method Summarise(lines: seq<string>) returns (rows: seq<StatRow>, err: Option<StatsError>)
    ensures lines == [] ==> rows == [] && err == Some(NameError)
    ensures err.None? ==> lines != [] && AllGood(ParseLines(lines)) && rows == RowsOf(Runs(Entries(ParseLines(lines))))
    ensures err.Some? && lines != [] ==>
      var ls := ParseLines(lines);
      && err.value.ValueError?
      && err.value.line < |ls|
      && AllGood(ls[..err.value.line])
      && !ls[err.value.line].Good?
      && rows == RowsAtError(Runs(Entries(ls[..err.value.line])), ls[err.value.line])
  {
    rows, err := SummariseLines(ParseLines(lines));
  }
}

=== FILE: comment_strip.dfy ===
/**
 The comment stage of term extraction: a block-comment continuation line
 contributes nothing, and otherwise the line is cut before its first
 block opener (a slash followed by a star) and then, in what is left,
 before its first `//`.
*/
module CommentStrip {
  import opened PyStr

  /** A block-comment continuation line: optional whitespace, `*`, then a
      space (the pattern `^\s*\* `, matched at the start of the line). */
  predicate IsContinuation(s: string) {
    var t := LStrip(s);
    |t| >= 2 && t[0] == '*' && t[1] == ' '
  }

  /** Some comment opener, slash-star or `//`, starts at position `i` of `s`. */
  predicate OpenerAt(s: string, i: int) {
    0 <= i && i + 1 < |s| && s[i] == '/' && (s[i + 1] == '*' || s[i + 1] == '/')
  }

  predicate NoOpener(s: string) {
    forall i :: 0 <= i < |s| ==> !OpenerAt(s, i)
  }

  /** `split` at the first slash-star, keeping the part before it, then the
      same at the first `//`. The result is a prefix holding no opener, and
      the text resumes with an opener right after it unless nothing was
      cut. */
  function StripComments(s: string): (r: string)
    ensures r <= s
    ensures NoOpener(r)
    ensures r == s || StartsWith(s[|r|..], "/*") || StartsWith(s[|r|..], "//")
  {
    var r1 := Before(s, "/*");
    var r := Before(r1, "//");
    assert NoOpener(r) by {
      forall i | 0 <= i < |r| - 1
        ensures !OpenerAt(r, i)
      {
        assert r[i..][..2] == [r[i], r[i + 1]];
        assert r1[i..][..2] == [r[i], r[i + 1]];
        assert s[i..][..2] == [r[i], r[i + 1]];
        assert !StartsWith(r[i..], "//") && !StartsWith(s[i..], "/*");
      }
    }
    r
  }

  /** `split(sep)[0]` is the prefix up to the first occurrence of `sep`. */
  lemma BeforeIsFirst(s: string, sep: string, k: nat)
    requires sep != [] && k <= |s|
    requires k == |s| || StartsWith(s[k..], sep)
    requires forall i :: 0 <= i < k ==> !StartsWith(s[i..], sep)
    ensures Before(s, sep) == s[..k]
  {
    var r := Before(s, sep);
    assert |r| < |s| ==> StartsWith(s[|r|..], sep);
    assert k < |s| ==> StartsWith(s[k..], sep);
  }

  /** A comment opener and everything after it never reaches tokenising:
      `a + marker + b` strips to `a` for either marker, provided `a` has
      no opener of its own and the marker does not merge with its
      neighbours into an earlier opener. */
  lemma CommentTailDropped(a: string, marker: string, b: string)
    requires marker == "/*" || marker == "//"
    requires NoOpener(a)
    requires marker == "//" ==> (a == [] || a[|a| - 1] != '/') && (b == [] || b[0] != '*')
    ensures StripComments(a + marker + b) == a
  {
    if marker == "/*" {
      BlockTailDropped(a, b);
    } else {
      LineTailDropped(a, b);
    }
  }

  /** A two-character separator starts at `i` exactly when the two
      characters there are its two characters. */
  lemma StartsWithPair(s: string, i: nat, sep: string)
    requires |sep| == 2 && i <= |s|
    ensures StartsWith(s[i..], sep) <==> i + 1 < |s| && s[i] == sep[0] && s[i + 1] == sep[1]
  {
    if i + 1 < |s| {
      assert s[i..][..2] == [s[i], s[i + 1]];
    }
  }

  lemma BlockTailDropped(a: string, b: string)
    requires NoOpener(a)
    ensures StripComments(a + "/*" + b) == a
  {
    var s := a + "/*" + b;
    assert s[..|a|] == a;
    StartsWithPair(s, |a|, "/*");
    forall i | 0 <= i < |a|
      ensures !StartsWith(s[i..], "/*")
    {
      StartsWithPair(s, i, "/*");
      assert !OpenerAt(a, i);
      assert s[i] == a[i];
      assert s[i + 1] == if i + 1 < |a| then a[i + 1] else '/';
    }
    BeforeIsFirst(s, "/*", |a|);
    forall i | 0 <= i < |a|
      ensures !StartsWith(a[i..], "//")
    {
      StartsWithPair(a, i, "//");
      assert !OpenerAt(a, i);
    }
    BeforeIsFirst(a, "//", |a|);
    assert a[..|a|] == a;
  }

  lemma LineTailDropped(a: string, b: string)
    requires NoOpener(a)
    requires a == [] || a[|a| - 1] != '/'
    requires b == [] || b[0] != '*'
    ensures StripComments(a + "//" + b) == a
  {
    var r1 := Before(a + "//" + b, "/*");
    NoBlockBeforeLineTail(a, b);
    assert r1[..|a|] == a by {
      assert r1[..|a|] == r1[..|a| + 2][..|a|];
    }
    assert Before(r1, "//") == a by {
      StartsWithPair(r1, |a|, "//");
      forall i | 0 <= i < |a|
        ensures !StartsWith(r1[i..], "//")
      {
        StartsWithPair(r1, i, "//");
        assert r1[i] == a[i] && !OpenerAt(a, i);
        assert r1[i + 1] == if i + 1 < |a| then a[i + 1] else '/';
      }
      BeforeIsFirst(r1, "//", |a|);
    }
  }

  /** The cut at the block opener leaves `a` and the `//` after it in place. */
  lemma NoBlockBeforeLineTail(a: string, b: string)
    requires NoOpener(a)
    requires a == [] || a[|a| - 1] != '/'
    requires b == [] || b[0] != '*'
    ensures var r1 := Before(a + "//" + b, "/*");
      |r1| >= |a| + 2 && r1[..|a| + 2] == a + "//"
  {
    var s := a + "//" + b;
    var r1 := Before(s, "/*");
    forall i | 0 <= i <= |a| + 1
      ensures !StartsWith(s[i..], "/*")
    {
      StartsWithPair(s, i, "/*");
      assert i < |a| ==> s[i] == a[i] && !OpenerAt(a, i);
      assert i + 1 < |a| ==> s[i + 1] == a[i + 1];
      assert i + 1 == |a| || i == |a| ==> s[i + 1] == '/';
      assert i == |a| + 1 && i + 1 < |s| ==> s[i + 1] == b[0];
    }
    assert |r1| >= |a| + 2 by {
      assert |r1| < |s| ==> StartsWith(s[|r1|..], "/*");
    }
    assert r1[..|a| + 2] == s[..|a| + 2] == a + "//";
  }

  /** Without a `*` a line cannot be a continuation line. */
  lemma NoStarNoContinuation(s: string)
    requires '*' !in s
    ensures !IsContinuation(s)
  {
    var t := LStrip(s);
    if t != [] {
      assert t[0] == s[|s| - |t|];
    }
  }

  /** A line with no comment opener reaches tokenising whole. */
  lemma StripCommentsNoOpener(a: string)
    requires NoOpener(a)
    ensures StripComments(a) == a
  {
    forall i | 0 <= i < |a|
      ensures !StartsWith(a[i..], "/*") && !StartsWith(a[i..], "//")
    {
      StartsWithPair(a, i, "/*");
      StartsWithPair(a, i, "//");
      assert !OpenerAt(a, i);
    }
    BeforeIsFirst(a, "/*", |a|);
    assert a[..|a|] == a;
    BeforeIsFirst(a, "//", |a|);
  }

  /** The two cuts are sequential, not a single cut at the earliest opener:
      in `x`, slash, slash, star, the slash-star is found first, and the slash
      before it survives. */
  lemma SlashSlashStarKeepsSlash()
    ensures StripComments("x//*") == "x/"
  {
    var s := "x//*";
    assert s[2..][..2] == "/*";
    assert s[0..][..2] == "x/" && s[1..][..2] == "//";
    BeforeIsFirst(s, "/*", 2);
    assert s[..2] == "x/";
    var t := "x/";
    assert t[0..] == "x/" && t[1..] == "/";
    BeforeIsFirst(t, "//", 2);
    assert t[..2] == t;
  }

  /** A comment tail cannot turn a line into a continuation line or stop it
      from being one: the markers begin with `/`, not with `*` or a space. */
  lemma ContinuationUnaffectedByTail(a: string, marker: string, b: string)
    requires marker == "/*" || marker == "//"
    ensures IsContinuation(a + marker + b) == IsContinuation(a)
  {
    assert a + marker + b == a + (marker + b);
    SlashTail(a, marker + b);
  }

  lemma SlashTail(a: string, tail: string)
    requires tail != [] && tail[0] == '/'
    ensures IsContinuation(a + tail) == IsContinuation(a)
  {
    LStripConcat(a, tail);
    var t := LStrip(a);
    if t != [] {
      assert !IsWs(a[|a| - |t|]);
      var u := t + tail;
      assert LStrip(a + tail) == u;
      assert u[0] == t[0];
      assert |t| == 1 ==> u[1] == '/';
      assert |t| > 1 ==> u[1] == t[1];
    } else {
      assert a[..|a|] == a;
      assert LStrip(tail) == tail;
    }
  }
}

=== FILE: common.dfy ===
/** Failure-carrying values shared by every module of the model. */
module Common {

  /** A value that may be absent, the model of Python's `None`. */
  datatype Option<+T> = None | Some(value: T)

  /** The outcome of an operation that can raise: `Failure` stands for the exception. */
  datatype Result<+R, +E> = Success(value: R) | Failure(error: E)

  /** The elements of an optional value, as a sequence of length zero or one. */
  function OptionToSeq<T>(o: Option<T>): (r: seq<T>)
    ensures |r| <= 1
    ensures o.Some? <==> |r| == 1
    ensures o.Some? ==> r[0] == o.value
  {
    match o
    case None => []
    case Some(v) => [v]
  }

  /** A sequence without its last element. */
  function AllButLast<T>(s: seq<T>): (r: seq<T>)
    ensures s != [] ==> s == r + [s[|s| - 1]]
    ensures s == [] ==> r == []
  {
    if s == [] then [] else s[..|s| - 1]
  }

  lemma AllButLastConcat<T>(a: seq<T>, b: seq<T>)
    requires b != []
    ensures AllButLast(a + b) == a + AllButLast(b)
  {
    assert a + b == a + AllButLast(b) + [b[|b| - 1]];
  }

  /** Regrouping a concatenation of four sequences. */
  lemma ConcatAssoc<T>(a: seq<T>, b: seq<T>, c: seq<T>, d: seq<T>)
    ensures a + (b + c + d) == a + b + c + d
  {
  }
}

=== FILE: digits.dfy ===
/**
 The number stage of term extraction, `re.sub(r'0x([a-fA-F\d]+)|(\d+)', ...)`:
 a `0x` followed by hex digits keeps its `0x` and turns each of those digits
 into `f`; any other run of decimal digits, even one inside an identifier,
 turns into as many `9`s. Only the shape of a literal survives.
 */
module Digits {
  import opened Common
  import opened PyStr

  /** Length of the run of hex digits that starts `s`. */
  function HexRun(s: string): (n: nat)
    ensures n <= |s|
    ensures forall i :: 0 <= i < n ==> IsHexDigit(s[i])
    ensures n < |s| ==> !IsHexDigit(s[n])
  {
    if s == [] || !IsHexDigit(s[0]) then 0 else 1 + HexRun(s[1..])
  }

  /** Length of the run of decimal digits that starts `s`. */
  function DigitRun(s: string): (n: nat)
    ensures n <= |s|
    ensures forall i :: 0 <= i < n ==> IsDigit(s[i])
    ensures n < |s| ==> !IsDigit(s[n])
  {
    if s == [] || !IsDigit(s[0]) then 0 else 1 + DigitRun(s[1..])
  }

  /** The first alternative applies: `0x` and at least one hex digit. */
  predicate HexStart(s: string) {
    |s| >= 3 && s[0] == '0' && s[1] == 'x' && IsHexDigit(s[2])
  }

  function Rep(c: char, n: nat): (r: string)
    ensures |r| == n && forall i :: 0 <= i < n ==> r[i] == c
  {
    seq(n, _ => c)
  }

  /** A character that may appear in a flattened line: any but `1`..`8`. */
  predicate Flat(c: char) {
    !('1' <= c <= '8')
  }

  /** What the rewrite may do to one character: leave no digit from 1 to 8,
      keep a character that is not a hex digit, and keep hex digits hex. */
  predicate Kept(a: char, b: char) {
    && Flat(b)
    && (!IsHexDigit(a) ==> b == a)
    && (IsHexDigit(b) <==> IsHexDigit(a))
  }

  /** `r` is `s` rewritten character by character within `Kept`. */
  predicate ShapeKept(s: string, r: string) {
    |r| == |s| && forall i :: 0 <= i < |s| ==> Kept(s[i], r[i])
  }

  lemma ShapeKeptConcat(s1: string, r1: string, s2: string, r2: string)
    requires ShapeKept(s1, r1) && ShapeKept(s2, r2)
    ensures ShapeKept(s1 + s2, r1 + r2)
  {
    forall i | |s1| <= i < |s1| + |s2|
      ensures Kept((s1 + s2)[i], (r1 + r2)[i])
    {
      assert (s1 + s2)[i] == s2[i - |s1|];
      assert (r1 + r2)[i] == r2[i - |s1|];
    }
  }

  /** Length of the text the scan consumes at the start of `s`: a whole
      match, or one character when no alternative matches there. */
  function PieceLen(s: string): (n: nat)
    requires s != []
    ensures 1 <= n <= |s|
  {
    if HexStart(s) then 2 + HexRun(s[2..])
    else if IsDigit(s[0]) then DigitRun(s)
    else 1
  }

  /** What replaces the first `PieceLen(s)` characters of `s`. */
  function Piece(s: string): (p: string)
    requires s != []
    ensures |p| == PieceLen(s)
  {
    if HexStart(s) then "0x" + Rep('f', HexRun(s[2..]))
    else if IsDigit(s[0]) then Rep('9', DigitRun(s))
    else [s[0]]
  }

  /** The rewrite of one line: each match replaced, the rest copied. */
  function Flatten(s: string): (r: string)
    ensures |r| == |s|
    decreases |s|
  {
    if s == [] then [] else Piece(s) + Flatten(s[PieceLen(s)..])
  }

  lemma PieceKeepsShape(s: string)
    requires s != []
    ensures ShapeKept(s[..PieceLen(s)], Piece(s))
  {
    var n := PieceLen(s);
    if HexStart(s) {
      forall i | 2 <= i < n
        ensures Kept(s[..n][i], Piece(s)[i])
      {
        assert s[..n][i] == s[2..][i - 2];
      }
    }
  }

  /** The rewrite keeps the length, keeps every character that is not a hex
      digit where it was, keeps hex digits hex, and leaves no digit from 1
      to 8 behind. */
  lemma {:induction false} FlattenKeepsShape(s: string)
    ensures ShapeKept(s, Flatten(s))
    decreases |s|
  {
    if s != [] {
      var n := PieceLen(s);
      PieceKeepsShape(s);
      FlattenKeepsShape(s[n..]);
      ShapeKeptConcat(s[..n], Piece(s), s[n..], Flatten(s[n..]));
      assert s[..n] + s[n..] == s;
    }
  }

  /** A line without digits has nothing to rewrite. */
  lemma {:induction false} FlattenNoDigits(s: string)
    requires forall i :: 0 <= i < |s| ==> !IsDigit(s[i])
    ensures Flatten(s) == s
    decreases |s|
  {
    if s != [] {
      assert !HexStart(s) && PieceLen(s) == 1;
      FlattenNoDigits(s[1..]);
    }
  }

  /** No token can carry a digit from 1 to 8 once the stage has run. */
  lemma FlattenLeavesNoSmallDigit(s: string)
    ensures forall i :: 0 <= i < |Flatten(s)| ==> Flat(Flatten(s)[i])
  {
    FlattenKeepsShape(s);
  }

  predicate AllHex(h: string) {
    forall i :: 0 <= i < |h| ==> IsHexDigit(h[i])
  }

  /** `0x` and `h` hex digits become `0x` and `h` letters `f`. */
  lemma FlattenHexLiteral(h: string, rest: string)
    requires h != [] && AllHex(h)
    requires rest == [] || !IsHexDigit(rest[0])
    ensures Flatten("0x" + h + rest) == "0x" + Rep('f', |h|) + Flatten(rest)
  {
    var s := "0x" + h + rest;
    assert s[2..] == h + rest;
    HexRunPrefix(h, rest);
    assert HexStart(s) by {
      assert s[0] == '0' && s[1] == 'x' && s[2] == h[0];
    }
    assert PieceLen(s) == 2 + |h|;
    assert Piece(s) == "0x" + Rep('f', |h|);
    assert s[2 + |h|..] == rest;
  }

  lemma {:induction false} HexRunPrefix(h: string, rest: string)
    requires AllHex(h)
    requires rest == [] || !IsHexDigit(rest[0])
    ensures HexRun(h + rest) == |h|
    decreases |h|
  {
    if h == [] {
      assert h + rest == rest;
    } else {
      assert (h + rest)[1..] == h[1..] + rest;
      HexRunPrefix(h[1..], rest);
    }
  }

  lemma {:induction false} DigitRunPrefix(d: string, rest: string)
    requires AllDigits(d)
    requires rest == [] || !IsDigit(rest[0])
    ensures DigitRun(d + rest) == |d|
    decreases |d|
  {
    if d == [] {
      assert d + rest == rest;
    } else {
      assert (d + rest)[1..] == d[1..] + rest;
      DigitRunPrefix(d[1..], rest);
    }
  }

  /** A decimal run that does not open a hex literal becomes as many `9`s. */
  lemma FlattenDecimal(d: string, rest: string)
    requires d != [] && AllDigits(d)
    requires rest == [] || !IsDigit(rest[0])
    requires !HexStart(d + rest)
    ensures Flatten(d + rest) == Rep('9', |d|) + Flatten(rest)
  {
    var s := d + rest;
    assert s[0] == d[0];
    DigitRunPrefix(d, rest);
    assert s[|d|..] == rest;
  }

  lemma {:induction false} RunsAtSpace(x: string, y: string)
    ensures HexRun(x + " " + y) == HexRun(x)
    ensures DigitRun(x + " " + y) == DigitRun(x)
    decreases |x|
  {
    if x != [] {
      assert (x + " " + y)[1..] == x[1..] + " " + y;
      RunsAtSpace(x[1..], y);
    }
  }

  lemma HexStartAtSpace(x: string, y: string)
    requires x != []
    ensures HexStart(x + " " + y) == HexStart(x)
  {
    var s := x + " " + y;
    assert s[0] == x[0];
    assert |x| >= 2 ==> s[1] == x[1];
    assert |x| == 1 ==> s[1] == ' ';
    assert |x| >= 3 ==> s[2] == x[2];
    assert |x| == 2 ==> s[2] == ' ';
  }

  lemma PieceAtSpace(x: string, y: string)
    requires x != []
    ensures PieceLen(x + " " + y) == PieceLen(x)
    ensures Piece(x + " " + y) == Piece(x)
  {
    var s := x + " " + y;
    HexStartAtSpace(x, y);
    assert s[0] == x[0];
    if HexStart(x) {
      assert s[2..] == x[2..] + " " + y;
      RunsAtSpace(x[2..], y);
    }
    RunsAtSpace(x, y);
  }

  /** Literals never reach across a space, so the stage works on the two
      sides of a space independently. */
  lemma {:induction false} FlattenAtSpace(x: string, y: string)
    ensures Flatten(x + " " + y) == Flatten(x) + " " + Flatten(y)
    decreases |x|
  {
    if x == [] {
      FlattenAfterSpace(y);
      assert x + " " + y == " " + y;
    } else {
      FlattenAtSpace(x[PieceLen(x)..], y);
      FlattenAtSpaceStep(x, y);
    }
  }

  lemma FlattenAfterSpace(y: string)
    ensures Flatten(" " + y) == " " + Flatten(y)
  {
    var s := " " + y;
    assert s[1..] == y;
  }

  /** One piece of `x` is replaced the same way whether or not a space and
      more text follow it. */
  lemma FlattenAtSpaceStep(x: string, y: string)
    requires x != []
    requires Flatten(x[PieceLen(x)..] + " " + y) == Flatten(x[PieceLen(x)..]) + " " + Flatten(y)
    ensures Flatten(x + " " + y) == Flatten(x) + " " + Flatten(y)
  {
    FlattenFirstPiece(x, y);
    var k := PieceLen(x);
    assert Flatten(x) == Piece(x) + Flatten(x[k..]);
    ConcatAssoc(Piece(x), Flatten(x[k..]), " ", Flatten(y));
  }

  lemma FlattenFirstPiece(x: string, y: string)
    requires x != []
    ensures Flatten(x + " " + y) == Piece(x) + Flatten(x[PieceLen(x)..] + " " + y)
  {
    var s := x + " " + y;
    var k := PieceLen(x);
    PieceAtSpace(x, y);
    assert s[k..] == x[k..] + " " + y;
  }

  /** `0x1A` becomes `0xff`. */
  lemma HexExample()
    ensures Flatten("0x1A") == "0xff"
  {
    FlattenHexLiteral("1A", "");
    assert "0x" + "1A" + "" == "0x1A";
    assert Rep('f', 2) == "ff";
  }

  /** `42` becomes `99`, and the digits inside the identifier `x86` too. */
  lemma DecimalExamples()
    ensures Flatten("42") == "99"
    ensures Flatten("x86") == "x99"
  {
    FlattenDecimal("42", "");
    assert "42" + "" == "42";
    FlattenDecimal("86", "");
    assert "86" + "" == "86";
    assert Rep('9', 2) == "99";
    assert "x86"[1..] == "86";
  }
}

=== FILE: log_parser.dfy ===
/**
 `readrecord`: a state machine over the lines of `git log -p -U0
 --date=raw`. Its state is the record being filled and the two filenames of
 the current diff; a `commit ` line hands the pending record out and opens a
 fresh one, and the `+`/`-` lines of a `.c` or `.h` file feed the record's
 added and removed term sets. Terms are unioned per commit, not per file.

 A Python exception ends the generator: the records it yielded before are
 kept, and the error is reported with the index of the line that raised it.
 */
module LogParser {
  import opened Common
  import opened PyStr
  import TermExtractor

  datatype CommitRecord = CommitRecord(
    commitId: string,
    author: Option<string>,
    date: Option<int>,
    addTerms: set<string>,
    delTerms: set<string>)

  /** The exceptions a line can raise: a missing `split` field, an `int()`
      that fails, and an attribute access on `None` (no record yet, or no
      filename yet). */
  datatype ErrorKind = IndexError | ValueError | AttributeError

  datatype ParseState = ParseState(
    current: Option<CommitRecord>,
    oldFile: Option<string>,
    newFile: Option<string>)

  const Start: ParseState := ParseState(None, None, None)

  /** `interesting_file`: a C source or header. */
  predicate InterestingFile(name: string) {
    EndsWith(name, ".c") || EndsWith(name, ".h")
  }

  /** `line.split(None, 1)[1].strip()` on a `commit ` line. */
  function CommitId(line: string): (r: Result<string, ErrorKind>)
    ensures r.Failure? <==> |Words(line)| < 2
    ensures r.Failure? ==> r.error == IndexError
    ensures r.Success? ==> Words(r.value) == Words(line)[1..]
  {
    var f := SplitOnce(line);
    SplitOnceAgreesWithWords(line);
    if |f| < 2 then Failure(IndexError)
    else
      WordsOfStrip(f[1]);
      Success(Strip(f[1]))
  }

  /** `line.split(None, 1)[1].split('<', 1)[0].strip()` on an `Author: `
      line: the name before the e-mail address. */
  function AuthorName(line: string): (r: Result<string, ErrorKind>)
    ensures r.Failure? <==> |Words(line)| < 2
    ensures r.Failure? ==> r.error == IndexError
    ensures r.Success? ==> '<' !in r.value
  {
    var f := SplitOnce(line);
    SplitOnceAgreesWithWords(line);
    if |f| < 2 then Failure(IndexError)
    else
      var b := Before(f[1], "<");
      BeforeExcludes(f[1], '<');
      StripKeepsOut(b, '<');
      Success(Strip(b))
  }

  /** `int(line.split(None)[1])` on a `Date: ` line. */
  function DateValue(line: string): (r: Result<int, ErrorKind>)
    ensures r.Failure? && |Words(line)| < 2 ==> r.error == IndexError
    ensures r.Failure? && |Words(line)| >= 2 ==> r.error == ValueError && ParseInt(Words(line)[1]).None?
    ensures r.Success? ==> |Words(line)| >= 2 && ParseInt(Words(line)[1]) == Some(r.value)
  {
    var w := Words(line);
    if |w| < 2 then Failure(IndexError)
    else
      match ParseInt(w[1])
      case None => Failure(ValueError)
      case Some(v) => Success(v)
  }

  /** `line.split(' ', 1)[1].strip()` on a line that starts with `--- ` or
      `+++ `: the text after the marker, trimmed. */
  function FileName(line: string): string
    requires |line| >= 4 && line[3] == ' '
  {
    Strip(line[4..])
  }

  /** Every term a record holds is a token the extractor can produce:
      non-empty, whitespace-free, and without a digit from 1 to 8. */
  predicate WellFormed(rec: CommitRecord) {
    && (forall t :: t in rec.addTerms ==> IsWord(t) && TermExtractor.FlatWord(t))
    && (forall t :: t in rec.delTerms ==> IsWord(t) && TermExtractor.FlatWord(t))
  }

  predicate WellFormedState(st: ParseState) {
    st.current.Some? ==> WellFormed(st.current.value)
  }

  /** Two states hold the same record, as far as its id goes. */
  predicate SameRecord(a: Option<CommitRecord>, b: Option<CommitRecord>) {
    a.Some? == b.Some? && (a.Some? ==> a.value.commitId == b.value.commitId)
  }

  /** What one line does: the records it hands out, and the next state or
      the exception it raises. */
  datatype Outcome = Outcome(emitted: seq<CommitRecord>, next: Result<ParseState, ErrorKind>)

  /** A line as the loop's tests see it, with whatever the chosen branch
      computes from the line alone: the id, the author, the date, a
      filename, or the text of a `+`/`-` line after its marker. */
  datatype LineKind =
    | CommitLine(id: Result<string, ErrorKind>)
    | AuthorLine(name: Result<string, ErrorKind>)
    | DateLine(date: Result<int, ErrorKind>)
    | OldFileLine(oldName: string)
    | NewFileLine(newName: string)
    | ContentLine(added: bool, text: string)
    | OtherLine

  /** The tests of the loop, in the source's order. */
  function Classify(line: string): (k: LineKind)
    ensures k.CommitLine? <==> StartsWith(line, "commit ")
    ensures k.CommitLine? ==> k.id == CommitId(line)
  {
    if StartsWith(line, "commit ") then CommitLine(CommitId(line))
    else if StartsWith(line, "Author: ") then AuthorLine(AuthorName(line))
    else if StartsWith(line, "Date: ") then DateLine(DateValue(line))
    else if StartsWith(line, "--- ") then OldFileLine(FileName(line))
    else if StartsWith(line, "+++ ") then NewFileLine(FileName(line))
    else if StartsWith(line, "+") then ContentLine(true, line[1..])
    else if StartsWith(line, "-") then ContentLine(false, line[1..])
    else OtherLine
  }

  /** A `+` or `-` content line: the filename is looked at first (an
      attribute error when there is none yet), then the record, whose added
      or removed set gains the tokens of the text. */
  function Content(st: ParseState, added: bool, text: string): Outcome {
    var file := if added then st.newFile else st.oldFile;
    match file
    case None => Outcome([], Failure(AttributeError))
    case Some(f) =>
      if !InterestingFile(f) then Outcome([], Success(st))
      else if st.current.None? then Outcome([], Failure(AttributeError))
      else
        var rec := st.current.value;
        var rec' := if added then rec.(addTerms := TermExtractor.AccumulateTerms(text, rec.addTerms, TermExtractor.Defaults))
                    else rec.(delTerms := TermExtractor.AccumulateTerms(text, rec.delTerms, TermExtractor.Defaults));
        Outcome([], Success(st.(current := Some(rec'))))
  }

  /** One iteration of the loop on a classified line. */
  function Apply(st: ParseState, k: LineKind): (o: Outcome)
    ensures k.CommitLine? ==> o.emitted == OptionToSeq(st.current)
    ensures k.CommitLine? ==> (o.next.Success? <==> k.id.Success?)
    ensures k.CommitLine? && o.next.Success? ==>
              o.next.value.current == Some(CommitRecord(k.id.value, None, None, {}, {}))
    ensures !k.CommitLine? ==> o.emitted == []
    ensures !k.CommitLine? && o.next.Success? ==> SameRecord(st.current, o.next.value.current)
  {
    match k
    case CommitLine(id) =>
      var emitted := OptionToSeq(st.current);
      (match id
       case Failure(e) => Outcome(emitted, Failure(e))
       case Success(i) => Outcome(emitted, Success(st.(current := Some(CommitRecord(i, None, None, {}, {}))))))
    case AuthorLine(name) =>
      (match name
       case Failure(e) => Outcome([], Failure(e))
       case Success(a) =>
         if st.current.None? then Outcome([], Failure(AttributeError))
         else Outcome([], Success(st.(current := Some(st.current.value.(author := Some(a)))))))
    case DateLine(date) =>
      (match date
       case Failure(e) => Outcome([], Failure(e))
       case Success(d) =>
         if st.current.None? then Outcome([], Failure(AttributeError))
         else Outcome([], Success(st.(current := Some(st.current.value.(date := Some(d)))))))
    case OldFileLine(f) => Outcome([], Success(st.(oldFile := Some(f))))
    case NewFileLine(f) => Outcome([], Success(st.(newFile := Some(f))))
    case ContentLine(added, text) => Content(st, added, text)
    case OtherLine => Outcome([], Success(st))
  }

  /** One iteration of the loop on a raw line. */
  function Step(st: ParseState, line: string): (o: Outcome)
    ensures StartsWith(line, "commit ") ==> o.emitted == OptionToSeq(st.current)
    ensures StartsWith(line, "commit ") ==> (o.next.Success? <==> CommitId(line).Success?)
    ensures StartsWith(line, "commit ") && o.next.Success? ==>
              o.next.value.current == Some(CommitRecord(CommitId(line).value, None, None, {}, {}))
    ensures !StartsWith(line, "commit ") ==> o.emitted == []
    ensures !StartsWith(line, "commit ") && o.next.Success? ==> SameRecord(st.current, o.next.value.current)
  {
    Apply(st, Classify(line))
  }
  /** A line that matches none of the loop's prefixes (`diff --git`, `index`,
      `@@` and indented message lines among them) falls through every test:
      it hands nothing out, never raises and leaves the state as it was. */
  lemma UnmatchedLineStep(st: ParseState, line: string)
    requires !StartsWith(line, "commit ") && !StartsWith(line, "Author: ") && !StartsWith(line, "Date: ")
    requires !StartsWith(line, "+") && !StartsWith(line, "-")
    ensures Step(st, line) == Outcome([], Success(st))
  {
  }

  datatype LineError = LineError(line: nat, kind: ErrorKind)

  /** The records the generator yields, and the exception that ended it. */
  datatype Parsed = Parsed(records: seq<CommitRecord>, error: Option<LineError>)

  /** Every line of the input, classified. */
  function Classified(lines: seq<string>): (ks: seq<LineKind>)
    ensures |ks| == |lines|
  {
    if lines == [] then [] else [Classify(lines[0])] + Classified(lines[1..])
  }

  /** The loop from state `st` over the classified lines `ks`, the first of
      which is line number `at`; the end of the input hands out the pending
      record. */
  function RunFrom(st: ParseState, ks: seq<LineKind>, at: nat): (p: Parsed)
    ensures p.error.Some? ==> at <= p.error.value.line < at + |ks|
    decreases |ks|
  {
    if ks == [] then Parsed(OptionToSeq(st.current), None)
    else
      var o := Apply(st, ks[0]);
      match o.next
      case Failure(e) => Parsed(o.emitted, Some(LineError(at, e)))
      case Success(st') =>
        var rest := RunFrom(st', ks[1..], at + 1);
        Parsed(o.emitted + rest.records, rest.error)
  }

  /** `readrecord` over a finite input. */
  function ReadRecords(lines: seq<string>): Parsed {
    RunFrom(Start, Classified(lines), 0)
  }

  /** The ids of a sequence of records. */
  function Ids(rs: seq<CommitRecord>): (r: seq<string>)
    ensures |r| == |rs| && forall i :: 0 <= i < |rs| ==> r[i] == rs[i].commitId
  {
    seq(|rs|, i requires 0 <= i < |rs| => rs[i].commitId)
  }

  lemma IdsConcat(a: seq<CommitRecord>, b: seq<CommitRecord>)
    ensures Ids(a + b) == Ids(a) + Ids(b)
  {
    assert forall i :: 0 <= i < |a| + |b| ==> Ids(a + b)[i] == (Ids(a) + Ids(b))[i];
  }

  /** The id a classified line announces, if any. */
  function KindIds(k: LineKind): seq<string> {
    if k.CommitLine? && k.id.Success? then [k.id.value] else []
  }

  /** The ids the `commit ` lines among `ks` announce, in order. */
  function KindsIds(ks: seq<LineKind>): seq<string> {
    if ks == [] then [] else KindIds(ks[0]) + KindsIds(ks[1..])
  }

  function CountCommitKinds(ks: seq<LineKind>): nat {
    if ks == [] then 0 else (if ks[0].CommitLine? then 1 else 0) + CountCommitKinds(ks[1..])
  }

  /** The ids a raw line announces: the id of a well-formed `commit ` line. */
  function LineIds(line: string): seq<string> {
    if StartsWith(line, "commit ") && CommitId(line).Success? then [CommitId(line).value] else []
  }

  /** The ids the `commit ` lines of an input announce, read off the lines
      alone. */
  function CommitIds(lines: seq<string>): seq<string> {
    if lines == [] then [] else LineIds(lines[0]) + CommitIds(lines[1..])
  }

  /** How many lines start with `commit `. */
  function CountCommitLines(lines: seq<string>): nat {
    if lines == [] then 0
    else (if StartsWith(lines[0], "commit ") then 1 else 0) + CountCommitLines(lines[1..])
  }

  /** Classifying keeps what the `commit ` lines announce. */
  lemma {:induction false} ClassifiedIds(lines: seq<string>)
    ensures KindsIds(Classified(lines)) == CommitIds(lines)
    ensures CountCommitKinds(Classified(lines)) == CountCommitLines(lines)
    decreases |lines|
  {
    if lines != [] {
      ClassifyIds(lines[0]);
      ClassifiedIds(lines[1..]);
    }
  }

  /** A line announces through its classification what it announces by
      itself. */
  lemma ClassifyIds(line: string)
    ensures KindIds(Classify(line)) == LineIds(line)
    ensures Classify(line).CommitLine? <==> StartsWith(line, "commit ")
  {
  }

  lemma {:induction false} ClassifiedPrefix(lines: seq<string>, k: nat)
    requires k <= |lines|
    ensures Classified(lines)[..k] == Classified(lines[..k])
    decreases k
  {
    if k > 0 {
      ClassifiedPrefix(lines[1..], k - 1);
      assert lines[..k][1..] == lines[1..][..k - 1];
      assert lines[..k][0] == lines[0];
    }
  }

  lemma {:induction false} ClassifiedAt(lines: seq<string>, i: nat)
    requires i < |lines|
    ensures Classified(lines)[i] == Classify(lines[i])
    decreases i
  {
    if i > 0 {
      ClassifiedAt(lines[1..], i - 1);
    }
  }

  /** One successful step: the ids handed out plus the id now pending are
      the id pending before plus the one the line announces. */
  lemma ApplyIds(st: ParseState, k: LineKind)
    requires Apply(st, k).next.Success?
    ensures Ids(Apply(st, k).emitted) + Ids(OptionToSeq(Apply(st, k).next.value.current))
         == Ids(OptionToSeq(st.current)) + KindIds(k)
    ensures Apply(st, k).emitted != [] ==> Apply(st, k).next.value.current.Some?
  {
  }

  /** The records come out in input order, one per `commit ` line, each
      carrying the id its line announced. */
  lemma {:induction false} RunIds(st: ParseState, ks: seq<LineKind>, at: nat)
    ensures RunFrom(st, ks, at).error.None? ==>
              Ids(RunFrom(st, ks, at).records) == Ids(OptionToSeq(st.current)) + KindsIds(ks)
    decreases |ks|
  {
    if ks != [] && Apply(st, ks[0]).next.Success? {
      var o := Apply(st, ks[0]);
      var st' := o.next.value;
      var rest := RunFrom(st', ks[1..], at + 1);
      RunIds(st', ks[1..], at + 1);
      IdsConcat(o.emitted, rest.records);
      ApplyIds(st, ks[0]);
      if rest.error.None? {
        SeqRegroup(Ids(o.emitted), Ids(OptionToSeq(st'.current)), Ids(OptionToSeq(st.current)),
                   KindIds(ks[0]), KindsIds(ks[1..]));
      }
    }
  }

  lemma KindsIdsPrefix(ks: seq<LineKind>, k: nat)
    requires 1 <= k < |ks|
    ensures KindsIds(ks[..k]) == KindIds(ks[0]) + KindsIds(ks[1..][..k - 1])
    ensures ks[k] == ks[1..][k - 1]
  {
    assert ks[..k][0] == ks[0];
    assert ks[..k][1..] == ks[1..][..k - 1];
  }

  lemma SeqRegroup<T>(a: seq<T>, b: seq<T>, c: seq<T>, d: seq<T>, e: seq<T>)
    requires a + b == c + d
    ensures c + (d + e) == a + (b + e)
  {
    assert c + (d + e) == (c + d) + e;
  }

  /** The ids handed out before a raising line, given the ids `announced`
      by then: all of them when the line is a `commit ` line (the pending
      record was handed out before the line raised), all but the last
      otherwise (the pending record is lost). */
  predicate ErrorIds(ids: seq<string>, announced: seq<string>, commitLine: bool) {
    if commitLine then ids == announced else ids == AllButLast(announced)
  }

  /** Prepending the ids of one successful step to a later error's ids. */
  lemma CombineErrorIds(e: seq<string>, b: seq<string>, c: seq<string>, d: seq<string>, t: seq<string>,
                        r: seq<string>, commitLine: bool)
    requires e + b == c + d
    requires b + t == [] ==> e == []
    requires ErrorIds(r, b + t, commitLine)
    ensures ErrorIds(e + r, c + (d + t), commitLine)
  {
    SeqRegroup(e, b, c, d, t);
    if !commitLine {
      if b + t != [] {
        AllButLastConcat(e, b + t);
      } else {
        assert e + (b + t) == [];
      }
    }
  }

  /** When a line raises, the records handed out are those of the `commit `
      lines before it; the record pending at that moment is handed out too
      when the raising line is itself a `commit ` line, and lost otherwise. */
  lemma {:induction false} RunIdsBeforeError(st: ParseState, ks: seq<LineKind>, at: nat)
    ensures var p := RunFrom(st, ks, at);
      p.error.Some? ==>
        var k := p.error.value.line - at;
        ErrorIds(Ids(p.records), Ids(OptionToSeq(st.current)) + KindsIds(ks[..k]), ks[k].CommitLine?)
    decreases |ks|
  {
    if ks != [] {
      if Apply(st, ks[0]).next.Failure? {
        ErrorOnFirstLine(st, ks, at);
      } else {
        var st' := Apply(st, ks[0]).next.value;
        RunIdsBeforeError(st', ks[1..], at + 1);
        var o := Apply(st, ks[0]);
        RunFromSuccess(st, ks, at);
        ApplyIds(st, ks[0]);
        ShiftErrorIds(RunFrom(st, ks, at), RunFrom(st', ks[1..], at + 1), o.emitted, st.current, st'.current, ks, at);
      }
    }
  }

  lemma ErrorOnFirstLine(st: ParseState, ks: seq<LineKind>, at: nat)
    requires ks != [] && Apply(st, ks[0]).next.Failure?
    ensures var p := RunFrom(st, ks, at);
      && p.error == Some(LineError(at, Apply(st, ks[0]).next.error))
      && ErrorIds(Ids(p.records), Ids(OptionToSeq(st.current)) + KindsIds(ks[..0]), ks[0].CommitLine?)
  {
    assert ks[..0] == [];
    var ids := Ids(OptionToSeq(st.current));
    assert ids + [] == ids;
    assert |ids| <= 1;
  }

  /** A step that does not raise hands out its records ahead of the rest. */
  lemma RunFromSuccess(st: ParseState, ks: seq<LineKind>, at: nat)
    requires ks != [] && Apply(st, ks[0]).next.Success?
    ensures var o := Apply(st, ks[0]);
      var rest := RunFrom(o.next.value, ks[1..], at + 1);
      RunFrom(st, ks, at) == Parsed(o.emitted + rest.records, rest.error)
  {
  }

  /** The ids of one successful step, put in front of a later error's. */
  lemma ShiftErrorIds(p: Parsed, rest: Parsed, emitted: seq<CommitRecord>,
                      cur: Option<CommitRecord>, cur': Option<CommitRecord>, ks: seq<LineKind>, at: nat)
    requires ks != []
    requires p == Parsed(emitted + rest.records, rest.error)
    requires rest.error.Some? ==> at + 1 <= rest.error.value.line < at + |ks|
    requires Ids(emitted) + Ids(OptionToSeq(cur')) == Ids(OptionToSeq(cur)) + KindIds(ks[0])
    requires emitted != [] ==> cur'.Some?
    requires rest.error.Some? ==>
      var k := rest.error.value.line - (at + 1);
      ErrorIds(Ids(rest.records), Ids(OptionToSeq(cur')) + KindsIds(ks[1..][..k]), ks[1..][k].CommitLine?)
    ensures p.error.Some? ==>
      var k := p.error.value.line - at;
      ErrorIds(Ids(p.records), Ids(OptionToSeq(cur)) + KindsIds(ks[..k]), ks[k].CommitLine?)
  {
    if rest.error.Some? {
      var j := rest.error.value.line - (at + 1);
      KindsIdsPrefix(ks, j + 1);
      var t := KindsIds(ks[1..][..j]);
      IdsConcat(emitted, rest.records);
      var b := Ids(OptionToSeq(cur'));
      assert b + t == [] ==> Ids(emitted) == [];
      CombineErrorIds(Ids(emitted), b, Ids(OptionToSeq(cur)), KindIds(ks[0]), t, Ids(rest.records), ks[j + 1].CommitLine?);
    }
  }

  /** A run that raises nothing met no malformed `commit ` line, so it
      announces one id per `commit ` line. */
  lemma {:induction false} RunCounts(st: ParseState, ks: seq<LineKind>, at: nat)
    ensures RunFrom(st, ks, at).error.None? ==> |KindsIds(ks)| == CountCommitKinds(ks)
    decreases |ks|
  {
    if ks != [] {
      var o := Apply(st, ks[0]);
      if o.next.Success? {
        RunCounts(o.next.value, ks[1..], at + 1);
      }
    }
  }

  predicate AllWellFormed(rs: seq<CommitRecord>) {
    forall i :: 0 <= i < |rs| ==> WellFormed(rs[i])
  }

  lemma AllWellFormedConcat(a: seq<CommitRecord>, b: seq<CommitRecord>)
    requires AllWellFormed(a) && AllWellFormed(b)
    ensures AllWellFormed(a + b)
  {
    forall i | |a| <= i < |a| + |b|
      ensures WellFormed((a + b)[i])
    {
      assert (a + b)[i] == b[i - |a|];
    }
  }

  /** One step keeps the state well formed and hands out only well-formed
      records. */
  lemma ApplyWellFormed(st: ParseState, k: LineKind)
    requires WellFormedState(st)
    ensures AllWellFormed(Apply(st, k).emitted)
    ensures Apply(st, k).next.Success? ==> WellFormedState(Apply(st, k).next.value)
  {
  }

  /** Every record handed out only holds tokens the extractor can produce. */
  lemma {:induction false} RunWellFormed(st: ParseState, ks: seq<LineKind>, at: nat)
    requires WellFormedState(st)
    ensures AllWellFormed(RunFrom(st, ks, at).records)
    decreases |ks|
  {
    if ks == [] {
      assert AllWellFormed(OptionToSeq(st.current));
    } else {
      var o := Apply(st, ks[0]);
      ApplyWellFormed(st, ks[0]);
      if o.next.Success? {
        RunWellFormed(o.next.value, ks[1..], at + 1);
        AllWellFormedConcat(o.emitted, RunFrom(o.next.value, ks[1..], at + 1).records);
      }
    }
  }

  /** Over a whole input that raises nothing, the records are exactly those
      the `commit ` lines announce, in order, one per such line. */
  lemma ReadRecordsIds(lines: seq<string>)
    ensures var p := ReadRecords(lines);
      p.error.None? ==> Ids(p.records) == CommitIds(lines) && |p.records| == CountCommitLines(lines)
  {
    RunIds(Start, Classified(lines), 0);
    RunCounts(Start, Classified(lines), 0);
    ClassifiedIds(lines);
  }

  /** Over a whole input that raises at line `k`, the records are those the
      `commit ` lines before `k` announce, less the last one unless line `k`
      is itself a `commit ` line. */
  lemma ReadRecordsBeforeError(lines: seq<string>)
    ensures var p := ReadRecords(lines);
      p.error.Some? ==>
        var k := p.error.value.line;
        k < |lines| && ErrorIds(Ids(p.records), CommitIds(lines[..k]), StartsWith(lines[k], "commit "))
  {
    var ks := Classified(lines);
    RunIdsBeforeError(Start, ks, 0);
    var p := ReadRecords(lines);
    if p.error.Some? {
      var k := p.error.value.line;
      ClassifiedPrefix(lines, k);
      ClassifiedIds(lines[..k]);
      ClassifiedAt(lines, k);
      ClassifyIds(lines[k]);
      assert Ids(OptionToSeq(Start.current)) == [];
      assert [] + KindsIds(ks[..k]) == KindsIds(ks[..k]);
    }
  }

  /** Every record `readrecord` hands out holds only extractor tokens. */
  lemma ReadRecordsWellFormed(lines: seq<string>)
    ensures AllWellFormed(ReadRecords(lines).records)
  {
    RunWellFormed(Start, Classified(lines), 0);
  }

  /** The end of the input as written: `readline` returns "" (never None)
      on every call after the last line, and `fuel` counts such calls. */
  function DrainAsWritten(st: ParseState, fuel: nat): seq<CommitRecord> {
    if fuel == 0 then []
    else
      var o := Step(st, "");
      o.emitted + (if o.next.Success? then DrainAsWritten(o.next.value, fuel - 1) else [])
  }

  /** However many further calls are made, an empty line hands nothing out
      and changes nothing, so the last commit's record is never yielded. */
  lemma {:induction false} PendingRecordNeverYielded(st: ParseState, fuel: nat)
    ensures Step(st, "") == Outcome([], Success(st))
    ensures DrainAsWritten(st, fuel) == []
  {
    if fuel > 0 {
      PendingRecordNeverYielded(st, fuel - 1);
    }
  }

  /** A `+` content line, in order: no new filename yet raises, a file that
      is not C source is skipped, no record yet raises, and otherwise the
      record's added terms gain the line's tokens with nothing else changed. */
  lemma AddedLine(st: ParseState, line: string)
    requires StartsWith(line, "+") && !StartsWith(line, "+++ ")
    ensures var o := Step(st, line);
      && o.emitted == []
      && (st.newFile.None? ==> o.next == Failure(AttributeError))
      && (st.newFile.Some? && !InterestingFile(st.newFile.value) ==> o.next == Success(st))
      && (st.newFile.Some? && InterestingFile(st.newFile.value) && st.current.None? ==>
            o.next == Failure(AttributeError))
      && (st.newFile.Some? && InterestingFile(st.newFile.value) && st.current.Some? ==>
            o.next.Success? && o.next.value.current.Some?
            && o.next.value.current.value.addTerms
               == TermExtractor.AccumulateTerms(line[1..], st.current.value.addTerms, TermExtractor.Defaults)
            && o.next.value.current.value == st.current.value.(addTerms := o.next.value.current.value.addTerms)
            && o.next.value.oldFile == st.oldFile && o.next.value.newFile == st.newFile)
  {
    ClassifyContent(line);
    assert Step(st, line) == Content(st, true, line[1..]);
  }

  /** A `-` content line, likewise on the old filename and removed terms. */
  lemma RemovedLine(st: ParseState, line: string)
    requires StartsWith(line, "-") && !StartsWith(line, "--- ")
    ensures var o := Step(st, line);
      && o.emitted == []
      && (st.oldFile.None? ==> o.next == Failure(AttributeError))
      && (st.oldFile.Some? && !InterestingFile(st.oldFile.value) ==> o.next == Success(st))
      && (st.oldFile.Some? && InterestingFile(st.oldFile.value) && st.current.None? ==>
            o.next == Failure(AttributeError))
      && (st.oldFile.Some? && InterestingFile(st.oldFile.value) && st.current.Some? ==>
            o.next.Success? && o.next.value.current.Some?
            && o.next.value.current.value.delTerms
               == TermExtractor.AccumulateTerms(line[1..], st.current.value.delTerms, TermExtractor.Defaults)
            && o.next.value.current.value == st.current.value.(delTerms := o.next.value.current.value.delTerms)
            && o.next.value.oldFile == st.oldFile && o.next.value.newFile == st.newFile)
  {
    ClassifyContent(line);
    assert Step(st, line) == Content(st, false, line[1..]);
  }

  /** A `+` or `-` line that is not a filename header is a content line. */
  lemma ClassifyContent(line: string)
    requires line != [] && (line[0] == '+' || line[0] == '-')
    requires !StartsWith(line, "+++ ") && !StartsWith(line, "--- ")
    ensures Classify(line) == ContentLine(line[0] == '+', line[1..])
  {
    assert !StartsWith(line, "commit ") && !StartsWith(line, "Author: ") && !StartsWith(line, "Date: ");
    assert StartsWith(line, "+") <==> line[0] == '+';
    assert StartsWith(line, "-") <==> line[0] == '-';
  }

  /** The filename headers are matched before the content rules: a `--- `
      or `+++ ` line never raises and never touches the record, whatever
      file is current. */
  lemma FileHeadersAreNotContent(st: ParseState, line: string)
    requires StartsWith(line, "--- ") || StartsWith(line, "+++ ")
    ensures Step(st, line).emitted == []
    ensures Step(st, line).next.Success?
    ensures Step(st, line).next.value.current == st.current
    ensures StartsWith(line, "--- ") ==> Step(st, line).next.value.newFile == st.newFile
    ensures StartsWith(line, "+++ ") ==> Step(st, line).next.value.oldFile == st.oldFile
  {
    ClassifyHeader(line);
  }

  lemma ClassifyHeader(line: string)
    requires StartsWith(line, "--- ") || StartsWith(line, "+++ ")
    ensures StartsWith(line, "--- ") ==> Classify(line) == OldFileLine(FileName(line))
    ensures StartsWith(line, "+++ ") ==> Classify(line) == NewFileLine(FileName(line))
  {
    assert line[0] == '-' || line[0] == '+';
    assert !StartsWith(line, "commit ") && !StartsWith(line, "Author: ") && !StartsWith(line, "Date: ");
  }

  /* Which lines a record's terms come from */

  /** The added (or removed) terms of a record. */
  function SideTerms(rec: CommitRecord, added: bool): set<string> {
    if added then rec.addTerms else rec.delTerms
  }

  /** The filename a `+` (or `-`) line is charged to: the last `+++ ` (or
      `--- `) header among `ks`, if any. */
  function FileBefore(ks: seq<LineKind>, added: bool): Option<string> {
    if ks == [] then None
    else
      var k := ks[|ks| - 1];
      if added && k.NewFileLine? then Some(k.newName)
      else if !added && k.OldFileLine? then Some(k.oldName)
      else FileBefore(ks[..|ks| - 1], added)
  }

  /** The terms line `k` contributes to its side when `file` is current:
      those of a content line of that side in a C file, and none otherwise. */
  function LineTerms(k: LineKind, added: bool, file: Option<string>): set<string> {
    if k.ContentLine? && k.added == added && file.Some? && InterestingFile(file.value)
    then TermExtractor.Terms(k.text, TermExtractor.Defaults)
    else {}
  }

  /** The union of what lines `a` up to `b` (exclusive) contribute. */
  function TermsIn(ks: seq<LineKind>, added: bool, a: nat, b: nat): set<string>
    requires a <= b <= |ks|
    decreases b - a
  {
    if a == b then {}
    else LineTerms(ks[a], added, FileBefore(ks[..a], added)) + TermsIn(ks, added, a + 1, b)
  }

  /** The index of the first `commit ` line at or after `a`, or `|ks|`. */
  function NextCommit(ks: seq<LineKind>, a: nat): (n: nat)
    requires a <= |ks|
    ensures a <= n <= |ks|
    ensures forall j :: a <= j < n ==> !ks[j].CommitLine?
    ensures n < |ks| ==> ks[n].CommitLine?
    decreases |ks| - a
  {
    if a == |ks| || ks[a].CommitLine? then a else NextCommit(ks, a + 1)
  }

  /** `recs` are the records of the `commit ` lines from index `n` on, and
      each holds on the chosen side exactly the terms of the lines between
      its `commit ` line and the next. */
  predicate CommitTerms(recs: seq<CommitRecord>, ks: seq<LineKind>, added: bool, n: nat)
    requires n <= |ks|
    decreases |ks| - n
  {
    if n == |ks| then recs == []
    else
      var m := NextCommit(ks, n + 1);
      && recs != []
      && SideTerms(recs[0], added) == TermsIn(ks, added, n + 1, m)
      && CommitTerms(recs[1..], ks, added, m)
  }

  /** One line that does not raise sets the filename only through a header
      of that side. */
  lemma ApplyFile(st: ParseState, k: LineKind, added: bool)
    requires Apply(st, k).next.Success?
    ensures var st' := Apply(st, k).next.value;
      (if added then st'.newFile else st'.oldFile)
      == if added && k.NewFileLine? then Some(k.newName)
         else if !added && k.OldFileLine? then Some(k.oldName)
         else if added then st.newFile else st.oldFile
  {
  }

  /** A line other than a `commit ` line that does not raise adds to the
      pending record exactly what it contributes. */
  lemma ApplyTerms(st: ParseState, k: LineKind, added: bool)
    requires !k.CommitLine? && st.current.Some? && Apply(st, k).next.Success?
    ensures var st' := Apply(st, k).next.value;
      && st'.current.Some?
      && SideTerms(st'.current.value, added)
         == SideTerms(st.current.value, added) + LineTerms(k, added, if added then st.newFile else st.oldFile)
  {
  }

  lemma FileBeforeNext(ks: seq<LineKind>, a: nat, added: bool)
    requires a < |ks|
    ensures FileBefore(ks[..a + 1], added)
         == if added && ks[a].NewFileLine? then Some(ks[a].newName)
            else if !added && ks[a].OldFileLine? then Some(ks[a].oldName)
            else FileBefore(ks[..a], added)
  {
    assert ks[..a + 1][..a] == ks[..a];
  }

  /** `recs` are what the run from line `a` hands out when `cur` is
      pending: the pending record, having gained the terms of the lines up
      to the next `commit ` line, then one record per later `commit ` line
      holding the terms of its own lines. */
  predicate TermsFrom(cur: Option<CommitRecord>, recs: seq<CommitRecord>, ks: seq<LineKind>, added: bool, a: nat)
    requires a <= |ks|
  {
    var n := NextCommit(ks, a);
    if cur.Some? then
      && recs != []
      && SideTerms(recs[0], added) == SideTerms(cur.value, added) + TermsIn(ks, added, a, n)
      && CommitTerms(recs[1..], ks, added, n)
    else CommitTerms(recs, ks, added, n)
  }

  /** The run from line `a` on, from a state whose filename is the one the
      headers before `a` set. */
  lemma {:induction false} RunTerms(st: ParseState, ks: seq<LineKind>, a: nat, added: bool)
    requires a <= |ks|
    requires (if added then st.newFile else st.oldFile) == FileBefore(ks[..a], added)
    requires RunFrom(st, ks[a..], a).error.None?
    ensures TermsFrom(st.current, RunFrom(st, ks[a..], a).records, ks, added, a)
    decreases |ks| - a
  {
    if a < |ks| {
      var k := ks[a];
      assert ks[a..][0] == k && ks[a..][1..] == ks[a + 1..];
      var o := Apply(st, k);
      var st' := o.next.value;
      var rest := RunFrom(st', ks[a + 1..], a + 1);
      RunFromSuccess(st, ks[a..], a);
      ApplyFile(st, k, added);
      FileBeforeNext(ks, a, added);
      RunTerms(st', ks, a + 1, added);
      if !k.CommitLine? && st.current.Some? {
        ApplyTerms(st, k, added);
      }
      StepTerms(ks, added, a, st.current, st'.current, o.emitted, rest.records);
    }
  }

  /** One line that does not raise, put in front of the run after it. */
  lemma StepTerms(ks: seq<LineKind>, added: bool, a: nat, cur: Option<CommitRecord>, cur': Option<CommitRecord>,
                  emitted: seq<CommitRecord>, recs: seq<CommitRecord>)
    requires a < |ks|
    requires ks[a].CommitLine? ==>
      emitted == OptionToSeq(cur) && cur'.Some? && SideTerms(cur'.value, added) == {}
    requires !ks[a].CommitLine? ==>
      && emitted == [] && cur'.Some? == cur.Some?
      && (cur.Some? ==> SideTerms(cur'.value, added)
                        == SideTerms(cur.value, added) + LineTerms(ks[a], added, FileBefore(ks[..a], added)))
    requires TermsFrom(cur', recs, ks, added, a + 1)
    ensures TermsFrom(cur, emitted + recs, ks, added, a)
  {
    if ks[a].CommitLine? {
      CommitLineTerms(ks, added, a, recs);
      if cur.Some? {
        assert (emitted + recs)[1..] == recs;
      } else {
        assert emitted + recs == recs;
      }
    } else {
      assert emitted + recs == recs;
      OtherLineTerms(ks, added, a);
    }
  }

  /** A `commit ` line at `a` starts the record of the lines after it. */
  lemma CommitLineTerms(ks: seq<LineKind>, added: bool, a: nat, recs: seq<CommitRecord>)
    requires a < |ks| && ks[a].CommitLine?
    requires var m := NextCommit(ks, a + 1);
      && recs != []
      && SideTerms(recs[0], added) == {} + TermsIn(ks, added, a + 1, m)
      && CommitTerms(recs[1..], ks, added, m)
    ensures NextCommit(ks, a) == a && TermsIn(ks, added, a, a) == {}
    ensures CommitTerms(recs, ks, added, a)
  {
    assert {} + TermsIn(ks, added, a + 1, NextCommit(ks, a + 1)) == TermsIn(ks, added, a + 1, NextCommit(ks, a + 1));
  }

  /** Any other line at `a` belongs to the same commit as the line after it. */
  lemma OtherLineTerms(ks: seq<LineKind>, added: bool, a: nat)
    requires a < |ks| && !ks[a].CommitLine?
    ensures NextCommit(ks, a) == NextCommit(ks, a + 1)
    ensures TermsIn(ks, added, a, NextCommit(ks, a))
         == LineTerms(ks[a], added, FileBefore(ks[..a], added)) + TermsIn(ks, added, a + 1, NextCommit(ks, a + 1))
  {
  }

  /** Over a whole input that raises nothing, the records are those of the
      `commit ` lines, in order, and each one's added terms are the union of
      the terms of the `+` lines of C files between its `commit ` line and
      the next; its removed terms likewise with the `-` lines. */
  lemma ReadRecordsTerms(lines: seq<string>, added: bool)
    ensures var ks := Classified(lines);
      var p := ReadRecords(lines);
      p.error.None? ==> CommitTerms(p.records, ks, added, NextCommit(ks, 0))
  {
    var ks := Classified(lines);
    assert ks[0..] == ks && ks[..0] == [];
    if ReadRecords(lines).error.None? {
      RunTerms(Start, ks, 0, added);
    }
  }

  /* The header lines of a commit, field by field */

  /** The id of a `commit ` line is the rest of the line, trimmed; a line
      with nothing after the keyword raises `IndexError`. */
  lemma CommitIdOfLine(rest: string)
    ensures CommitId("commit " + rest)
         == if AllWs(rest) then Failure(IndexError) else Success(Strip(rest))
  {
    assert "commit " + rest == "commit" + " " + rest;
    if AllWs(rest) {
      SplitOnceAfterWordAlone("commit", rest);
    } else {
      SplitOnceAfterWord("commit", rest);
      StripOfLStrip(rest);
    }
  }

  /** The hash git prints, with the line's newline, comes back exactly. */
  lemma CommitIdOfHash(id: string)
    requires IsWord(id)
    ensures CommitId("commit " + id + "\n") == Success(id)
  {
    var rest := id + "\n";
    assert "commit " + id + "\n" == "commit " + rest;
    assert !AllWs(rest) && Strip(rest) == id by {
      assert rest[0] == id[0];
      StripTrailing(id, "\n");
    }
    CommitIdOfLine(rest);
  }

  /** The author of an `Author: ` line is the rest of the line up to the
      first `<`, trimmed; nothing after the keyword raises `IndexError`. */
  lemma AuthorNameOfLine(rest: string)
    ensures AuthorName("Author: " + rest)
         == if AllWs(rest) then Failure(IndexError) else Success(Strip(Before(rest, "<")))
  {
    assert "Author: " + rest == "Author:" + " " + rest;
    if AllWs(rest) {
      SplitOnceAfterWordAlone("Author:", rest);
    } else {
      SplitOnceAfterWord("Author:", rest);
      StripBeforeOfLStrip(rest, '<');
    }
  }

  /** `Author: name <address>` gives the name, for any trimmed name without
      a `<` and whatever follows the `<`. */
  lemma AuthorNameBeforeAddress(name: string, address: string)
    requires name != [] && !IsWs(name[0]) && !IsWs(name[|name| - 1]) && '<' !in name
    ensures AuthorName("Author: " + name + " <" + address) == Success(name)
  {
    var rest := name + " <" + address;
    assert "Author: " + name + " <" + address == "Author: " + rest;
    assert rest[0] == name[0];
    AuthorNameOfLine(rest);
    NameBeforeAddress(name, address);
  }

  /** An `Author: ` line, in the order the source tests things: the field
      first, then the record; it sets the author and nothing else. */
  lemma AuthorLineStep(st: ParseState, rest: string)
    ensures var o := Step(st, "Author: " + rest);
      && o.emitted == []
      && o.next == if AllWs(rest) then Failure(IndexError)
                   else if st.current.None? then Failure(AttributeError)
                   else Success(st.(current := Some(st.current.value.(author := Some(Strip(Before(rest, "<")))))))
  {
    var line := "Author: " + rest;
    StartsWithPrefix("Author: ", rest);
    ClassifyAuthor(line);
    AuthorNameOfLine(rest);
  }

  /** The fields of `Date: ` and a remainder: the keyword, then the
      remainder's own fields. */
  lemma WordsAfterKeyword(keyword: string, rest: string)
    requires IsWord(keyword)
    ensures Words(keyword + " " + rest) == [keyword] + Words(rest)
  {
    assert keyword + " " + rest == keyword + [' '] + rest;
    WordsAtWs(keyword, ' ', rest);
    WordsOfWord(keyword);
  }

  /** A `Date: ` line: the first field after the keyword must be there and
      be an integer, then there must be a record; it sets the date and
      nothing else. The range check `fromtimestamp` makes afterwards is not
      part of the model. */
  lemma DateLineStep(st: ParseState, rest: string)
    ensures var o := Step(st, "Date: " + rest);
      var w := Words(rest);
      && o.emitted == []
      && o.next == if w == [] then Failure(IndexError)
                   else if ParseInt(w[0]).None? then Failure(ValueError)
                   else if st.current.None? then Failure(AttributeError)
                   else Success(st.(current := Some(st.current.value.(date := ParseInt(w[0])))))
  {
    var line := "Date: " + rest;
    StartsWithPrefix("Date: ", rest);
    ClassifyDate(line);
    DateLineWords(rest);
  }

  lemma DateLineWords(rest: string)
    ensures Words("Date: " + rest) == ["Date:"] + Words(rest)
  {
    var keyword := "Date:";
    assert IsWord(keyword);
    assert "Date: " + rest == keyword + " " + rest;
    WordsAfterKeyword(keyword, rest);
  }

  lemma ClassifyAuthor(line: string)
    requires StartsWith(line, "Author: ")
    ensures Classify(line) == AuthorLine(AuthorName(line))
  {
    assert line[0] == 'A';
    assert !StartsWith(line, "commit ") by {
      assert |line| >= 7 ==> line[..7][0] == 'A';
    }
  }

  lemma ClassifyDate(line: string)
    requires StartsWith(line, "Date: ")
    ensures Classify(line) == DateLine(DateValue(line))
  {
    assert line[0] == 'D';
    assert !StartsWith(line, "commit ") by {
      assert |line| >= 7 ==> line[..7][0] == 'D';
    }
    assert !StartsWith(line, "Author: ") by {
      assert |line| >= 8 ==> line[..8][0] == 'D';
    }
  }

  lemma StartsWithPrefix(prefix: string, rest: string)
    ensures StartsWith(prefix + rest, prefix)
  {
    assert (prefix + rest)[..|prefix|] == prefix;
  }
}

=== FILE: map_sum.dfy ===
/**
 The sum of the values of a finite map, the quantity `total_count` is meant
 to track, with the two facts every update needs: removing a key and
 overwriting a key.
 */
module MapSum {

  ghost function Sum<K>(m: map<K, nat>): nat
    decreases |m|
  {
    if m == map[] then 0
    else
      var k :| k in m;
      m[k] + Sum(m - {k})
  }

  /** Any key can be taken out first. */
  lemma {:induction false} SumRemove<K>(m: map<K, nat>, k: K)
    requires k in m
    ensures Sum(m) == m[k] + Sum(m - {k})
    decreases |m|
  {
    var j :| j in m && Sum(m) == m[j] + Sum(m - {j});
    if j != k {
      SumRemove(m - {j}, k);
      SumRemove(m - {k}, j);
      assert m - {j} - {k} == m - {k} - {j};
    }
  }

  /** Overwriting one value moves the sum by the difference. */
  lemma SumUpdate<K>(m: map<K, nat>, k: K, v: nat)
    ensures k in m ==> Sum(m[k := v]) == Sum(m) - m[k] + v
    ensures k !in m ==> Sum(m[k := v]) == Sum(m) + v
  {
    var m' := m[k := v];
    SumRemove(m', k);
    assert m' - {k} == m - {k};
    if k in m {
      SumRemove(m, k);
    } else {
      assert m - {k} == m;
    }
  }

  /** No single value exceeds the sum. */
  lemma ValueAtMostSum<K>(m: map<K, nat>, k: K)
    requires k in m
    ensures m[k] <= Sum(m)
  {
    SumRemove(m, k);
  }
}

=== FILE: operators.dfy ===
/**
 The operator stage of term extraction: every operator or punctuation
 cluster gets a space on each side. The clusters are, in the order the
 alternation tries them at each position: `->`, a maximal run of the
 characters `<>!=~`, `||`, `&&`, `++`, `--`, `::`, and any single one of
 `[]{}.,;()-+/^%*&?:|` (the same set as the regex's class). The first alternative that matches wins, and the
 scan resumes after the match.
*/
module Operators {
  import opened Common

  predicate IsRelChar(c: char) {
    c == '<' || c == '>' || c == '!' || c == '=' || c == '~'
  }

  predicate IsPunct(c: char) {
    || c == '[' || c == ']' || c == '{' || c == '}' || c == '.' || c == ','
    || c == ';' || c == '(' || c == ')' || c == '-' || c == '+' || c == '*'
    || c == '/' || c == '^' || c == '%' || c == '&' || c == '?' || c == ':'
    || c == '|'
  }

  /** Any character that can be part of a cluster. */
  predicate IsOpChar(c: char) {
    IsRelChar(c) || IsPunct(c)
  }

  /** Length of the run of `<>!=~` characters that starts `s`. */
  function RelRun(s: string): (n: nat)
    ensures n <= |s|
    ensures forall i :: 0 <= i < n ==> IsRelChar(s[i])
    ensures n < |s| ==> !IsRelChar(s[n])
  {
    if s == [] || !IsRelChar(s[0]) then 0 else 1 + RelRun(s[1..])
  }

  predicate TwoChar(s: string, a: char, b: char) {
    |s| >= 2 && s[0] == a && s[1] == b
  }

  /** Length of the cluster the alternation matches at the start of `s`,
      zero when none does. */
  function OpLen(s: string): (n: nat)
    ensures n <= |s|
    ensures n > 0 ==> forall i :: 0 <= i < n ==> IsOpChar(s[i])
    ensures s != [] && IsOpChar(s[0]) ==> n > 0
  {
    if TwoChar(s, '-', '>') then 2
    else if s != [] && IsRelChar(s[0]) then RelRun(s)
    else if TwoChar(s, '|', '|') || TwoChar(s, '&', '&') || TwoChar(s, '+', '+')
         || TwoChar(s, '-', '-') || TwoChar(s, ':', ':') then 2
    else if s != [] && IsPunct(s[0]) then 1
    else 0
  }

  /** `re.sub(r'(->|[<>!=~]+|...)', r' \1 ', s)`. */
  function SpaceOps(s: string): string
    decreases |s|
  {
    if s == [] then []
    else
      var n := OpLen(s);
      if n == 0 then [s[0]] + SpaceOps(s[1..])
      else " " + s[..n] + " " + SpaceOps(s[n..])
  }

  /** `s` with its spaces removed. */
  function Unspaced(s: string): (r: string)
    ensures |r| <= |s|
  {
    if s == [] then []
    else if s[0] == ' ' then Unspaced(s[1..])
    else [s[0]] + Unspaced(s[1..])
  }

  lemma {:induction false} UnspacedConcat(a: string, b: string)
    ensures Unspaced(a + b) == Unspaced(a) + Unspaced(b)
    decreases |a|
  {
    if a == [] {
      assert a + b == b;
    } else {
      assert (a + b)[1..] == a[1..] + b;
      UnspacedConcat(a[1..], b);
    }
  }

  /** The stage only inserts spaces: deleting every space from its output
      gives the input with every space deleted. */
  lemma {:induction false} SpaceOpsOnlyInsertsSpaces(s: string)
    ensures Unspaced(SpaceOps(s)) == Unspaced(s)
    decreases |s|
  {
    if s != [] {
      var n := OpLen(s);
      if n == 0 {
        assert [s[0]] + SpaceOps(s[1..]) == SpaceOps(s);
        UnspacedConcat([s[0]], SpaceOps(s[1..]));
        SpaceOpsOnlyInsertsSpaces(s[1..]);
        UnspacedConcat([s[0]], s[1..]);
        assert [s[0]] + s[1..] == s;
      } else {
        var rest := SpaceOps(s[n..]);
        assert " " + s[..n] + " " + rest == " " + (s[..n] + (" " + rest));
        UnspacedConcat(" ", s[..n] + (" " + rest));
        UnspacedConcat(s[..n], " " + rest);
        UnspacedConcat(" ", rest);
        SpaceOpsOnlyInsertsSpaces(s[n..]);
        UnspacedConcat(s[..n], s[n..]);
        assert s[..n] + s[n..] == s;
      }
    }
  }

  /** Text without cluster characters passes through unchanged. */
  lemma {:induction false} SpaceOpsNoOps(s: string)
    requires forall i :: 0 <= i < |s| ==> !IsOpChar(s[i])
    ensures SpaceOps(s) == s
    decreases |s|
  {
    if s != [] {
      SpaceOpsNoOps(s[1..]);
    }
  }

  lemma {:induction false} RelRunAtSpace(x: string, y: string)
    ensures RelRun(x + " " + y) == RelRun(x)
    decreases |x|
  {
    if x != [] && IsRelChar(x[0]) {
      assert (x + " " + y)[1..] == x[1..] + " " + y;
      RelRunAtSpace(x[1..], y);
    }
  }

  lemma OpLenAtSpace(x: string, y: string)
    requires x != []
    ensures OpLen(x + " " + y) == OpLen(x)
  {
    var s := x + " " + y;
    assert s[0] == x[0];
    assert |x| >= 2 ==> s[1] == x[1];
    assert |x| == 1 ==> s[1] == ' ';
    RelRunAtSpace(x, y);
  }

  /** Clusters never reach across a space, so the stage works on the two
      sides of a space independently. */
  lemma {:induction false} SpaceOpsAtSpace(x: string, y: string)
    ensures SpaceOps(x + " " + y) == SpaceOps(x) + " " + SpaceOps(y)
    decreases |x|
  {
    if x == [] {
      SpaceOpsAfterSpace(y);
      assert x + " " + y == " " + y;
    } else {
      var n := OpLen(x);
      SpaceOpsAtSpace(x[if n == 0 then 1 else n..], y);
      SpaceOpsAtSpaceStep(x, y);
    }
  }

  lemma SpaceOpsAfterSpace(y: string)
    ensures SpaceOps(" " + y) == " " + SpaceOps(y)
  {
    var s := " " + y;
    assert s[1..] == y;
  }

  /** The first character or cluster of `x` is spaced the same way whether
      or not a space and more text follow it. */
  lemma SpaceOpsAtSpaceStep(x: string, y: string)
    requires x != []
    requires var n := if OpLen(x) == 0 then 1 else OpLen(x);
      SpaceOps(x[n..] + " " + y) == SpaceOps(x[n..]) + " " + SpaceOps(y)
    ensures SpaceOps(x + " " + y) == SpaceOps(x) + " " + SpaceOps(y)
  {
    var n := OpLen(x);
    OpLenAtSpace(x, y);
    if n == 0 {
      PlainFirst(x, y);
      ConcatAssoc([x[0]], SpaceOps(x[1..]), " ", SpaceOps(y));
    } else {
      ClusterFirst(x, y, n);
      ConcatAssoc(" " + x[..n] + " ", SpaceOps(x[n..]), " ", SpaceOps(y));
    }
  }

  lemma PlainFirst(x: string, y: string)
    requires x != [] && OpLen(x + " " + y) == 0
    ensures SpaceOps(x + " " + y) == [x[0]] + SpaceOps(x[1..] + " " + y)
  {
    var s := x + " " + y;
    assert s[0] == x[0];
    assert s[1..] == x[1..] + " " + y;
  }

  lemma ClusterFirst(x: string, y: string, n: nat)
    requires 0 < n <= |x| && OpLen(x + " " + y) == n
    ensures SpaceOps(x + " " + y) == " " + x[..n] + " " + SpaceOps(x[n..] + " " + y)
  {
    var s := x + " " + y;
    assert s[..n] == x[..n];
    assert s[n..] == x[n..] + " " + y;
  }

  /** `a->b`: the arrow is tried first and stays whole. */
  lemma ArrowExample()
    ensures SpaceOps("a->b") == "a -> b"
  {
    assert OpLen("a->b") == 0;
    assert "a->b"[1..] == "->b";
    assert OpLen("->b") == 2;
    assert "->b"[2..] == "b";
    assert SpaceOps("b") == "b";
  }

  /** `x<<=y`: the `<>!=~` run is maximal, so `<<=` stays whole. */
  lemma ShiftAssignExample()
    ensures SpaceOps("x<<=y") == "x <<= y"
  {
    assert "x<<=y"[1..] == "<<=y";
    assert RelRun("=y") == 1;
    assert RelRun("<=y") == 2;
    assert RelRun("<<=y") == 3;
    assert "<<=y"[3..] == "y";
    assert SpaceOps("y") == "y";
  }

  /** `a-=b`: `-` matches alone, then `=` forms its own run. */
  lemma MinusAssignExample()
    ensures SpaceOps("a-=b") == "a -  = b"
  {
    assert "a-=b"[1..] == "-=b";
    assert OpLen("-=b") == 1;
    assert "-=b"[1..] == "=b";
    assert OpLen("=b") == 1;
    assert "=b"[1..] == "b";
    assert SpaceOps("b") == "b";
    assert "=b"[..1] == "=";
    assert SpaceOps("=b") == " = b";
    assert "-=b"[..1] == "-";
    assert SpaceOps("-=b") == " - " + " = b";
  }
}

=== FILE: pystr.dfy ===
/**
 The few Python 2 `str` builtins both scripts rely on: `strip`, `split()` on
 whitespace, `split(None, 1)`, `split(sep)[0]`, `startswith`/`endswith`, and
 `int()` on a decimal string. Strings are byte strings, so whitespace is the
 six ASCII characters that `str.isspace` and the `\s` regex class accept.
 */
module PyStr {
  import opened Common

  predicate IsWs(c: char) {
    c == ' ' || c == '\t' || c == '\n' || c == '\r' || c == '\U{000B}' || c == '\U{000C}'
  }

  predicate IsDigit(c: char) {
    '0' <= c <= '9'
  }

  predicate IsHexDigit(c: char) {
    IsDigit(c) || 'a' <= c <= 'f' || 'A' <= c <= 'F'
  }

  predicate AllWs(s: string) {
    forall i :: 0 <= i < |s| ==> IsWs(s[i])
  }

  /** A piece `split()` can return: non-empty and free of whitespace. */
  predicate IsWord(w: string) {
    w != [] && forall i :: 0 <= i < |w| ==> !IsWs(w[i])
  }

  predicate StartsWith(s: string, prefix: string) {
    |prefix| <= |s| && s[..|prefix|] == prefix
  }

  predicate EndsWith(s: string, suffix: string) {
    |suffix| <= |s| && s[|s| - |suffix|..] == suffix
  }

  /** Length of the run of whitespace characters that starts `s`. */
  function WsRun(s: string): (n: nat)
    ensures n <= |s|
    ensures forall i :: 0 <= i < n ==> IsWs(s[i])
    ensures n < |s| ==> !IsWs(s[n])
  {
    if s != [] && IsWs(s[0]) then 1 + WsRun(s[1..]) else 0
  }

  /** Length of the run of whitespace characters that ends `s`. */
  function TrailWs(s: string): (n: nat)
    ensures n <= |s|
    ensures forall i :: |s| - n <= i < |s| ==> IsWs(s[i])
    ensures n < |s| ==> !IsWs(s[|s| - 1 - n])
  {
    if s != [] && IsWs(s[|s| - 1]) then 1 + TrailWs(s[..|s| - 1]) else 0
  }

  /** `s.lstrip()`: drops the leading whitespace and nothing else. */
  function LStrip(s: string): (r: string)
    ensures |r| <= |s| && r == s[|s| - |r|..]
    ensures AllWs(s[..|s| - |r|])
    ensures r != [] ==> !IsWs(r[0])
  {
    s[WsRun(s)..]
  }

  /** `s.rstrip()`: drops the trailing whitespace and nothing else. */
  function RStrip(s: string): (r: string)
    ensures |r| <= |s| && r == s[..|r|]
    ensures AllWs(s[|r|..])
    ensures r != [] ==> !IsWs(r[|r| - 1])
  {
    s[..|s| - TrailWs(s)]
  }

  /** `s.strip()`: the middle of `s` once whitespace is removed from both ends. */
  function Strip(s: string): (r: string)
    ensures exists i, j {:trigger s[i..j]} :: 0 <= i <= j <= |s| && r == s[i..j] && AllWs(s[..i]) && AllWs(s[j..])
    ensures r != [] ==> !IsWs(r[0]) && !IsWs(r[|r| - 1])
  {
    StripBounds(s);
    RStrip(LStrip(s))
  }

  /** Where the two ends `strip` cuts lie. */
  lemma StripBounds(s: string)
    ensures var t := LStrip(s); var r := RStrip(t);
      var i := |s| - |t|;
      && i + |r| <= |s| && r == s[i..i + |r|] && AllWs(s[..i]) && AllWs(s[i + |r|..])
      && (r != [] ==> !IsWs(r[0]) && !IsWs(r[|r| - 1]))
  {
    var t := LStrip(s);
    var i := |s| - |t|;
    SliceOfSuffix(s, t, RStrip(t));
  }

  /** A prefix `r` of a suffix `t` of `s` is a slice of `s`, and what
      follows it in `t` is what follows it in `s`. */
  lemma SliceOfSuffix(s: string, t: string, r: string)
    requires |t| <= |s| && t == s[|s| - |t|..]
    requires |r| <= |t| && r == t[..|r|]
    ensures var i := |s| - |t|; r == s[i..i + |r|] && s[i + |r|..] == t[|r|..]
  {
  }

  /** A string with no whitespace at either end is its own strip. */
  lemma StripTrimmed(s: string)
    requires s != [] ==> !IsWs(s[0]) && !IsWs(s[|s| - 1])
    ensures Strip(s) == s
  {
    if s != [] {
      assert LStrip(s) == s;
      assert RStrip(s) == s;
    }
  }

  /** Length of the run of non-whitespace characters that starts `s`. */
  function NonWsRun(s: string): (n: nat)
    ensures n <= |s|
    ensures forall i :: 0 <= i < n ==> !IsWs(s[i])
    ensures n < |s| ==> IsWs(s[n])
  {
    if s == [] || IsWs(s[0]) then 0 else 1 + NonWsRun(s[1..])
  }

  /** `s.split()`: the maximal whitespace-free runs of `s`, in order. */
  function Words(s: string): (r: seq<string>)
    ensures forall i :: 0 <= i < |r| ==> IsWord(r[i])
    ensures forall i, j :: 0 <= i < |r| && 0 <= j < |r[i]| ==> r[i][j] in s
    decreases |s|
  {
    if s == [] then []
    else if IsWs(s[0]) then Words(s[1..])
    else
      var n := NonWsRun(s);
      [s[..n]] + Words(s[n..])
  }

  /** `s.split(None, 1)`: the first word and, when anything but whitespace
      follows it, the rest of the line from its first non-blank character. */
  function SplitOnce(s: string): (r: seq<string>)
    ensures |r| <= 2
    ensures |r| >= 1 ==> IsWord(r[0])
    ensures |r| == 2 ==> r[1] != [] && !IsWs(r[1][0])
  {
    var t := LStrip(s);
    if t == [] then []
    else
      var n := NonWsRun(t);
      assert n > 0;
      var first := t[..n];
      assert IsWord(first);
      var rest := LStrip(t[n..]);
      if rest == [] then [first] else [first, rest]
  }

  /** `s.split(sep)[0]`: everything before the first occurrence of `sep`. */
  function Before(s: string, sep: string): (r: string)
    requires sep != []
    ensures r <= s
    ensures r == s || StartsWith(s[|r|..], sep)
    ensures forall i :: 0 <= i < |r| ==> !StartsWith(s[i..], sep)
  {
    if s == [] || StartsWith(s, sep) then []
    else
      var r := [s[0]] + Before(s[1..], sep);
      assert forall i :: 1 <= i < |r| ==> s[i..] == s[1..][i - 1..];
      r
  }

  /** A one-character separator does not occur in what comes before it. */
  lemma BeforeExcludes(s: string, c: char)
    ensures c !in Before(s, [c])
  {
    var r := Before(s, [c]);
    forall i | 0 <= i < |r|
      ensures r[i] != c
    {
      assert !StartsWith(s[i..], [c]);
      assert s[i..][..1] == [s[i]];
    }
  }

  /** `lstrip` removes exactly the whitespace before the first non-blank
      character. */
  lemma {:induction false} LStripAt(s: string, k: nat)
    requires k <= |s|
    requires forall i :: 0 <= i < k ==> IsWs(s[i])
    requires k < |s| ==> !IsWs(s[k])
    ensures LStrip(s) == s[k..]
    decreases k
  {
    if k > 0 {
      var t := s[1..];
      assert forall i :: 0 <= i < k - 1 ==> t[i] == s[i + 1];
      assert k - 1 < |t| ==> t[k - 1] == s[k];
      LStripAt(t, k - 1);
      assert t[k - 1..] == s[k..];
    }
  }

  /** Stripping leading whitespace from a concatenation. */
  lemma LStripConcat(x: string, y: string)
    ensures AllWs(x) ==> LStrip(x + y) == LStrip(y)
    ensures !AllWs(x) ==> LStrip(x + y) == LStrip(x) + y
  {
    var k := |x| - |LStrip(x)|;
    if k < |x| {
      assert x[k] == LStrip(x)[0];
      assert AllWs(x[..k]);
      LStripPastWs(x, y, k);
      assert LStrip(x) == x[k..];
    } else {
      assert x[..k] == x;
      var j := |y| - |LStrip(y)|;
      assert AllWs(y[..j]);
      assert j < |y| ==> y[j] == LStrip(y)[0];
      LStripWsPrefix(x, y, j);
    }
  }

  lemma LStripWsPrefix(x: string, y: string, k: nat)
    requires AllWs(x) && k <= |y| && AllWs(y[..k]) && (k < |y| ==> !IsWs(y[k]))
    ensures LStrip(x + y) == y[k..]
  {
    var s := x + y;
    var ws := y[..k];
    assert s[..|x| + k] == x + ws;
    forall i | 0 <= i < |x| + k
      ensures IsWs(s[i])
    {
      assert s[i] == (x + ws)[i];
    }
    assert |x| + k < |s| ==> s[|x| + k] == y[k];
    LStripAt(s, |x| + k);
    assert s[|x| + k..] == y[k..];
  }

  lemma LStripPastWs(x: string, y: string, k: nat)
    requires k < |x| && AllWs(x[..k]) && !IsWs(x[k])
    ensures LStrip(x + y) == x[k..] + y
  {
    var s := x + y;
    var ws := x[..k];
    forall i | 0 <= i < k
      ensures IsWs(s[i])
    {
      assert s[i] == ws[i];
    }
    assert s[k] == x[k];
    LStripAt(s, k);
    assert s[k..] == x[k..] + y;
  }

  /* Whitespace splitting: how `split()` meets concatenation */

  lemma {:induction false} NonWsRunAtWs(x: string, c: char, y: string)
    requires IsWs(c)
    ensures NonWsRun(x + [c] + y) == NonWsRun(x)
    decreases |x|
  {
    if x != [] && !IsWs(x[0]) {
      assert (x + [c] + y)[1..] == x[1..] + [c] + y;
      NonWsRunAtWs(x[1..], c, y);
    }
  }

  /** A whitespace character splits the words of a concatenation exactly. */
  lemma {:induction false} WordsAtWs(x: string, c: char, y: string)
    requires IsWs(c)
    ensures Words(x + [c] + y) == Words(x) + Words(y)
    decreases |x|
  {
    var s := x + [c] + y;
    if x == [] {
      assert s[1..] == y;
    } else if IsWs(x[0]) {
      assert s[1..] == x[1..] + [c] + y;
      WordsAtWs(x[1..], c, y);
    } else {
      NonWsRunAtWs(x, c, y);
      var n := NonWsRun(x);
      assert s[..n] == x[..n];
      assert s[n..] == x[n..] + [c] + y;
      WordsAtWs(x[n..], c, y);
    }
  }

  /** Joining words with single spaces (one after each). */
  function Spaced(ws: seq<string>): string {
    if ws == [] then [] else ws[0] + " " + Spaced(ws[1..])
  }

  /** `split()` undoes joining with spaces: the words come back unchanged. */
  lemma {:induction false} WordsOfSpaced(ws: seq<string>)
    requires forall i :: 0 <= i < |ws| ==> IsWord(ws[i])
    ensures Words(Spaced(ws)) == ws
  {
    if ws != [] {
      WordsAtWs(ws[0], ' ', Spaced(ws[1..]));
      WordsOfSpaced(ws[1..]);
      WordsOfWord(ws[0]);
    }
  }

  /** A single word splits to itself. */
  lemma WordsOfWord(w: string)
    requires IsWord(w)
    ensures Words(w) == [w]
  {
    assert NonWsRun(w) == |w|;
    assert w[..|w|] == w;
    assert w[|w|..] == [];
    assert Words(w[|w|..]) == [];
  }

  lemma {:induction false} WordsOfAllWs(s: string)
    requires AllWs(s)
    ensures Words(s) == []
    decreases |s|
  {
    if s != [] {
      WordsOfAllWs(s[1..]);
    }
  }

  lemma {:induction false} WordsOfLStrip(s: string)
    ensures Words(LStrip(s)) == Words(s)
    decreases |s|
  {
    if s != [] && IsWs(s[0]) {
      WordsOfLStrip(s[1..]);
    }
  }

  /** Trailing whitespace adds no word. */
  lemma WordsAppendWs(x: string, t: string)
    requires AllWs(t)
    ensures Words(x + t) == Words(x)
  {
    if t == [] {
      assert x + t == x;
    } else {
      assert x + t == x + [t[0]] + t[1..];
      WordsAtWs(x, t[0], t[1..]);
      WordsOfAllWs(t[1..]);
    }
  }

  /** Trailing whitespace is not part of any word. */
  lemma WordsOfRStrip(t: string)
    ensures Words(RStrip(t)) == Words(t)
  {
    var r := RStrip(t);
    var w := t[|r|..];
    assert t == r + w;
    WordsAppendWs(r, w);
  }

  /** `strip()` never changes the words of a string. */
  lemma WordsOfStrip(s: string)
    ensures Words(Strip(s)) == Words(s)
  {
    var t := LStrip(s);
    assert Strip(s) == RStrip(t);
    WordsOfRStrip(t);
    WordsOfLStrip(s);
  }

  /** `strip()` only removes characters: one absent before stays absent. */
  lemma StripKeepsOut(s: string, c: char)
    requires c !in s
    ensures c !in Strip(s)
  {
    var t := LStrip(s);
    var r := RStrip(t);
    assert Strip(s) == r;
    assert r == s[|s| - |t|..][..|r|];
  }

  /** The second part of `split(None, 1)` is the rest of the line: the
      suffix that follows the first word and the blanks after it. */
  lemma SplitOnceRest(s: string)
    ensures var r := SplitOnce(s); |r| == 2 ==> FollowsWord(s, r[0], r[1])
  {
    if |SplitOnce(s)| == 2 {
      var t, n := SplitOnceShape(s);
      SplitParts(s, t, n, SplitOnce(s)[0], SplitOnce(s)[1]);
    }
  }

  /** When `split(None, 1)` gives two parts, the first is the word that
      starts `t = s.lstrip()` and the second follows it after blanks. */
  lemma SplitOnceShape(s: string) returns (t: string, n: nat)
    requires |SplitOnce(s)| == 2
    ensures CutAfterWord(s, t, n, SplitOnce(s)[0], SplitOnce(s)[1])
  {
    t := LStrip(s);
    n := NonWsRun(t);
    var u := t[n..];
    assert SplitOnce(s)[1] == LStrip(u);
    assert IsWs(u[0]);
  }

  /** `rest` is a suffix of `s` and what comes before it is the one word
      `w` between blanks, the last of them just before `rest`. */
  predicate FollowsWord(s: string, w: string, rest: string) {
    var k := |s| - |rest|;
    0 < k && rest == s[k..] && IsWs(s[k - 1]) && Words(s[..k]) == [w]
  }

  /** `s` is blanks, then the suffix `t`, whose first `n` characters are
      the word `w`, followed by at least one blank and then `rest`. */
  predicate CutAfterWord(s: string, t: string, n: nat, w: string, rest: string) {
    && |t| <= |s| && t == s[|s| - |t|..] && AllWs(s[..|s| - |t|])
    && 0 < n <= |t| && w == t[..n] && IsWord(w)
    && var u := t[n..];
    |rest| < |u| && rest == u[|u| - |rest|..] && AllWs(u[..|u| - |rest|])
  }

  /** A line cut as leading blanks, a word `t[..n]`, a non-empty run of
      blanks and a suffix `rest`: the suffix follows one word and blanks. */
  lemma SplitParts(s: string, t: string, n: nat, w: string, rest: string)
    requires CutAfterWord(s, t, n, w, rest)
    ensures FollowsWord(s, w, rest)
  {
    var i := |s| - |t|;
    var u := t[n..];
    var gap := u[..|u| - |rest|];
    var k := |s| - |rest|;
    assert s[..k] == s[..i] + t[..n] + gap;
    assert s[k - 1] == gap[|gap| - 1];
    WordsOfLeadWordGap(s[..i], t[..n], gap);
  }

  /** Blanks, one word, blanks: a single word. */
  lemma WordsOfLeadWordGap(lead: string, w: string, gap: string)
    requires AllWs(lead) && IsWord(w) && AllWs(gap) && gap != []
    ensures Words(lead + w + gap) == [w]
  {
    assert lead + w + gap == (lead + w) + [gap[0]] + gap[1..];
    WordsAtWs(lead + w, gap[0], gap[1..]);
    WordsOfAllWs(gap[1..]);
    LStripOverWs(lead, w);
    WordsOfLStrip(lead + w);
    WordsOfWord(w);
    assert Words(gap[1..]) == [];
    assert Words(lead + w) + [] == Words(lead + w);
  }

  /** `split(None, 1)` of a word, a space and a remainder that is not all
      blank: the word, and the remainder without its leading blanks. */
  lemma SplitOnceAfterWord(w: string, rest: string)
    requires IsWord(w) && !AllWs(rest)
    ensures SplitOnce(w + " " + rest) == [w, LStrip(rest)]
  {
    var s := w + " " + rest;
    assert s == w + [' '] + rest;
    assert s[0] == w[0];
    LStripAt(s, 0);
    assert LStrip(s) == s;
    NonWsRunAtWs(w, ' ', rest);
    var n := NonWsRun(w);
    assert n == |w|;
    assert s[..n] == w;
    assert s[n..] == [' '] + rest;
    assert ([' '] + rest)[1..] == rest;
    assert LStrip([' '] + rest) == LStrip(rest);
    assert LStrip(rest) != [];
  }

  /** The whole `split(None, 1)`: nothing but blanks gives no part; one
      word and blanks give one part. */
  lemma SplitOnceAfterWordAlone(w: string, rest: string)
    requires IsWord(w) && AllWs(rest)
    ensures |SplitOnce(w + " " + rest)| == 1
  {
    var s := w + " " + rest;
    assert s == w + [' '] + rest;
    WordsAtWs(w, ' ', rest);
    WordsOfWord(w);
    WordsOfAllWs(rest);
    assert Words(s) == [w];
    SplitOnceAgreesWithWords(s);
  }

  /** `lstrip` is idempotent, so `strip` ignores a prior `lstrip`. */
  lemma StripOfLStrip(x: string)
    ensures Strip(LStrip(x)) == Strip(x)
  {
    var t := LStrip(x);
    assert LStrip(t) == t;
  }

  /** Leading blanks come before any `<`, so `split('<')[0]` keeps them. */
  lemma {:induction false} BeforeAfterWs(lead: string, x: string, c: char)
    requires AllWs(lead) && !IsWs(c)
    ensures Before(lead + x, [c]) == lead + Before(x, [c])
    decreases |lead|
  {
    if lead == [] {
      assert lead + x == x;
    } else {
      var s := lead + x;
      BeforeStep(s, c);
      assert s[1..] == lead[1..] + x;
      BeforeAfterWs(lead[1..], x, c);
      assert lead == [lead[0]] + lead[1..];
    }
  }

  /** A first character other than the separator is kept. */
  lemma BeforeStep(s: string, c: char)
    requires s != [] && s[0] != c
    ensures Before(s, [c]) == [s[0]] + Before(s[1..], [c])
  {
    assert !StartsWith(s, [c]);
  }

  /** `split(sep)[0]` stops at the first separator. */
  lemma {:induction false} BeforeFirst(x: string, c: char, y: string)
    requires c !in x
    ensures Before(x + [c] + y, [c]) == x
    decreases |x|
  {
    var s := x + [c] + y;
    if x == [] {
      assert s[..1] == [c];
    } else {
      assert s[0] == x[0];
      BeforeStep(s, c);
      assert s[1..] == x[1..] + [c] + y;
      BeforeFirst(x[1..], c, y);
      assert x == [x[0]] + x[1..];
    }
  }

  /** Leading blanks change neither `strip()` nor `split('<')[0].strip()`. */
  lemma StripBeforeOfLStrip(x: string, c: char)
    requires !IsWs(c)
    ensures Strip(Before(LStrip(x), [c])) == Strip(Before(x, [c]))
  {
    var t := LStrip(x);
    var lead := x[..|x| - |t|];
    assert x == lead + t;
    BeforeAfterWs(lead, t, c);
    var b := Before(t, [c]);
    LStripConcat(lead, b);
    assert Strip(lead + b) == RStrip(LStrip(lead + b));
  }

  /** `split(None, 1)` agrees with `split()`: the same first word, and a
      remainder whose own words are the remaining words. */
  lemma SplitOnceAgreesWithWords(s: string)
    ensures |SplitOnce(s)| == (if |Words(s)| < 2 then |Words(s)| else 2)
    ensures |SplitOnce(s)| >= 1 ==> SplitOnce(s)[0] == Words(s)[0]
    ensures |SplitOnce(s)| == 2 ==> Words(SplitOnce(s)[1]) == Words(s)[1..]
  {
    var t := LStrip(s);
    WordsOfLStrip(s);
    if t == [] {
    } else {
      var n := NonWsRun(t);
      var rest := LStrip(t[n..]);
      assert Words(t) == [t[..n]] + Words(t[n..]);
      WordsOfLStrip(t[n..]);
      if rest == [] {
        assert Words(t[n..]) == [];
      } else {
        assert Words(rest) != [];
      }
    }
  }

  /* `int()` on a decimal string */

  function DigitValue(c: char): nat
    requires IsDigit(c)
  {
    (c as int - '0' as int) as nat
  }

  predicate AllDigits(d: string) {
    forall i :: 0 <= i < |d| ==> IsDigit(d[i])
  }

  /** The number a run of decimal digits denotes (most significant first). */
  function DigitsValue(d: string): nat
    requires AllDigits(d)
  {
    if d == [] then 0 else DigitsValue(d[..|d| - 1]) * 10 + DigitValue(d[|d| - 1])
  }

  /** Trailing blanks after a non-blank character are all `rstrip` drops. */
  lemma {:induction false} RStripWsSuffix(x: string, y: string)
    requires x != [] && !IsWs(x[|x| - 1]) && AllWs(y)
    ensures RStrip(x + y) == x
    decreases |y|
  {
    if y != [] {
      var y' := y[..|y| - 1];
      assert (x + y)[..|x + y| - 1] == x + y';
      RStripWsSuffix(x, y');
    } else {
      assert x + y == x;
    }
  }

  /** Blanks on either side of a trimmed string are what `strip` removes. */
  lemma StripAround(lead: string, core: string, trail: string)
    requires AllWs(lead) && AllWs(trail)
    requires core != [] && !IsWs(core[0]) && !IsWs(core[|core| - 1])
    ensures Strip(lead + core + trail) == core
  {
    assert lead + core + trail == lead + (core + trail);
    LStripConcat(lead, core + trail);
    assert LStrip(core + trail) == core + trail;
    RStripWsSuffix(core, trail);
  }

  /** Blanks after a trimmed string are what `strip` removes. */
  lemma StripTrailing(core: string, trail: string)
    requires AllWs(trail)
    requires core != [] && !IsWs(core[0]) && !IsWs(core[|core| - 1])
    ensures Strip(core + trail) == core
  {
    var lead: string := [];
    assert lead + core + trail == core + trail;
    StripAround(lead, core, trail);
  }

  /** `name <address>`: the part before the `<`, trimmed, is the name. */
  lemma NameBeforeAddress(name: string, address: string)
    requires name != [] && !IsWs(name[0]) && !IsWs(name[|name| - 1]) && '<' !in name
    ensures Strip(Before(name + " <" + address, "<")) == name
  {
    assert name + " <" + address == (name + " ") + ['<'] + address;
    BeforeFirst(name + " ", '<', address);
    StripTrailing(name, " ");
  }

  /** `int(s)` in base ten: surrounding whitespace, an optional sign, more
      whitespace after the sign, and at least one digit; anything else
      raises `ValueError`, here `None`. */
  function ParseInt(s: string): Option<int> {
    ParseStripped(Strip(s))
  }

  /** `int()` once the surrounding whitespace is gone. */
  function ParseStripped(t: string): Option<int> {
    if t != [] && (t[0] == '-' || t[0] == '+') then ParseUnsigned(LStrip(t[1..]), t[0] == '-')
    else ParseUnsigned(t, false)
  }

  /** A non-empty run of digits, negated when `neg` holds. */
  function ParseUnsigned(d: string, neg: bool): Option<int> {
    if d != [] && AllDigits(d) then
      var v: int := DigitsValue(d);
      Some(if neg then -v else v)
    else None
  }

  /** An optional sign: nothing, `-` or `+`. */
  predicate IsSign(sign: string) {
    sign == [] || (|sign| == 1 && (sign[0] == '-' || sign[0] == '+'))
  }

  /** The value of an optional sign applied to `v`. */
  function Signed(sign: string, v: int): int {
    if sign != [] && sign[0] == '-' then -v else v
  }

  /** A sign, blanks and digits, with nothing around them. */
  lemma ParseSignedCore(sign: string, gap: string, d: string)
    requires IsSign(sign) && (sign == [] ==> gap == [])
    requires AllWs(gap) && d != [] && AllDigits(d)
    ensures ParseStripped(sign + gap + d) == Some(Signed(sign, DigitsValue(d)))
  {
    if sign == [] {
      assert sign + gap + d == d;
      ParseStrippedDigits(d);
    } else {
      var u := gap + d;
      assert sign + gap + d == sign + u;
      SignedTail(sign, gap, d);
    }
  }

  lemma SignedTail(sign: string, gap: string, d: string)
    requires |sign| == 1 && (sign[0] == '-' || sign[0] == '+')
    requires AllWs(gap) && d != [] && AllDigits(d)
    ensures ParseStripped(sign + (gap + d)) == Some(Signed(sign, DigitsValue(d)))
  {
    var t := sign + (gap + d);
    assert t[0] == sign[0] && t[1..] == gap + d;
    ParseStrippedSigned(t);
    assert IsDigit(d[0]);
    LStripOverWs(gap, d);
    ParseUnsignedDigits(d, sign[0] == '-');
  }

  /** `lstrip` skips exactly a run of blanks followed by a non-blank. */
  lemma {:induction false} LStripOverWs(gap: string, d: string)
    requires AllWs(gap) && d != [] && !IsWs(d[0])
    ensures LStrip(gap + d) == d
    decreases |gap|
  {
    if gap == [] {
      assert gap + d == d;
    } else {
      assert (gap + d)[0] == gap[0];
      assert (gap + d)[1..] == gap[1..] + d;
      LStripOverWs(gap[1..], d);
    }
  }

  lemma ParseStrippedDigits(d: string)
    requires d != [] && AllDigits(d)
    ensures ParseStripped(d) == Some(Signed([], DigitsValue(d)))
  {
    assert IsDigit(d[0]);
    assert ParseStripped(d) == ParseUnsigned(d, false);
    ParseUnsignedDigits(d, false);
  }

  lemma ParseStrippedSigned(t: string)
    requires t != [] && (t[0] == '-' || t[0] == '+')
    ensures ParseStripped(t) == ParseUnsigned(LStrip(t[1..]), t[0] == '-')
  {
  }

  lemma ParseUnsignedDigits(d: string, neg: bool)
    requires d != [] && AllDigits(d)
    ensures ParseUnsigned(d, neg) == Some(if neg then -(DigitsValue(d) as int) else DigitsValue(d))
  {
  }

  /** Every string of the shape blanks, optional sign, blanks (only after a
      sign), digits, blanks is accepted, with the signed value of the
      digits. */
  lemma ParseIntAccepts(lead: string, sign: string, gap: string, d: string, trail: string)
    requires AllWs(lead) && AllWs(gap) && AllWs(trail)
    requires IsSign(sign) && (sign == [] ==> gap == [])
    requires d != [] && AllDigits(d)
    ensures ParseInt(lead + sign + gap + d + trail) == Some(Signed(sign, DigitsValue(d)))
  {
    var core := sign + gap + d;
    ConcatAssoc(lead, sign, gap, d);
    assert core[|core| - 1] == d[|d| - 1] && IsDigit(d[|d| - 1]);
    assert core[0] == (if sign == [] then d[0] else sign[0]) && (sign == [] ==> IsDigit(d[0]));
    StripAround(lead, core, trail);
    ParseSignedCore(sign, gap, d);
  }

  /** Only strings of that shape are accepted: an accepted string splits
      into blanks, a sign, blanks, digits and blanks, and the value is the
      signed value of the digits. */
  lemma ParseIntForm(s: string) returns (lead: string, sign: string, gap: string, d: string, trail: string)
    requires ParseInt(s).Some?
    ensures s == lead + sign + gap + d + trail
    ensures AllWs(lead) && AllWs(gap) && AllWs(trail)
    ensures IsSign(sign) && (sign == [] ==> gap == [])
    ensures d != [] && AllDigits(d)
    ensures ParseInt(s) == Some(Signed(sign, DigitsValue(d)))
  {
    var t;
    lead, t, trail := StripSplit(s);
    sign, gap, d := ParseStrippedForm(t);
    ConcatAssoc(lead, sign, gap, d);
  }

  /** The blanks `strip` removes, and what it keeps between them. */
  lemma StripSplit(s: string) returns (lead: string, t: string, trail: string)
    ensures s == lead + t + trail && t == Strip(s)
    ensures AllWs(lead) && AllWs(trail)
  {
    var t0 := LStrip(s);
    var k := |s| - |t0|;
    lead := s[..k];
    assert s == lead + t0 by {
      assert t0 == s[k..];
    }
    t := RStrip(t0);
    trail := t0[|t|..];
    assert t0 == t + trail by {
      assert t == t0[..|t|];
    }
    assert Strip(s) == t;
  }

  /** The sign, blanks and digits an accepted stripped string is made of. */
  lemma ParseStrippedForm(t: string) returns (sign: string, gap: string, d: string)
    requires ParseStripped(t).Some?
    ensures t == sign + gap + d
    ensures AllWs(gap)
    ensures IsSign(sign) && (sign == [] ==> gap == [])
    ensures d != [] && AllDigits(d)
    ensures ParseStripped(t) == Some(Signed(sign, DigitsValue(d)))
  {
    if t[0] == '-' || t[0] == '+' {
      sign := [t[0]];
      gap, d := SignedForm(t);
    } else {
      sign, gap, d := [], [], t;
      assert t == sign + gap + d;
      assert ParseStripped(t) == ParseUnsigned(t, false);
      ParseUnsignedDigits(t, false);
    }
  }

  /** The blanks and digits after the sign of an accepted stripped string. */
  lemma SignedForm(t: string) returns (gap: string, d: string)
    requires t != [] && (t[0] == '-' || t[0] == '+')
    requires ParseStripped(t).Some?
    ensures t == [t[0]] + gap + d
    ensures AllWs(gap) && d != [] && AllDigits(d)
    ensures ParseStripped(t) == Some(Signed([t[0]], DigitsValue(d)))
  {
    var u := t[1..];
    d := LStrip(u);
    gap := u[..|u| - |d|];
    assert t == [t[0]] + gap + d by {
      assert d == u[|u| - |d|..];
      assert u == gap + d;
      assert t == [t[0]] + u;
    }
    assert d != [] && AllDigits(d) && ParseStripped(t) == Some(Signed([t[0]], DigitsValue(d))) by {
      ParseStrippedSigned(t);
      ParseUnsignedDigits(d, t[0] == '-');
    }
  }

  /** Where each kind of character sits in blanks, sign, blanks, digits,
      blanks. */
  lemma FormAt(lead: string, sign: string, gap: string, d: string, trail: string, p: nat)
    requires AllWs(lead) && AllWs(gap) && AllWs(trail) && AllDigits(d)
    requires IsSign(sign)
    requires p < |lead + sign + gap + d + trail|
    ensures var s := lead + sign + gap + d + trail;
      var a, b, c := |lead| + |sign|, |lead| + |sign| + |gap|, |lead| + |sign| + |gap| + |d|;
      && (p < |lead| ==> IsWs(s[p]))
      && (|lead| <= p < a ==> p == |lead| && (s[p] == '-' || s[p] == '+'))
      && (a <= p < b ==> IsWs(s[p]))
      && (b <= p < c ==> IsDigit(s[p]))
      && (c <= p ==> IsWs(s[p]))
  {
  }

  /** A non-blank character that is not a digit, after another non-blank
      character, makes `int()` fail: only a sign may be a non-digit, and
      only in first place. */
  lemma ParseIntRejects(s: string, i: nat, j: nat)
    requires i < j < |s|
    requires !IsWs(s[i]) && !IsWs(s[j]) && !IsDigit(s[j])
    ensures ParseInt(s) == None
  {
    if ParseInt(s).Some? {
      var lead, sign, gap, d, trail := ParseIntForm(s);
      FormAt(lead, sign, gap, d, trail, i);
      FormAt(lead, sign, gap, d, trail, j);
    }
  }

  /** Blanks between digits and something more make `int()` fail. */
  lemma ParseIntRejectsGap(s: string, i: nat, j: nat, k: nat)
    requires i < j < k < |s|
    requires IsDigit(s[i]) && IsWs(s[j]) && !IsWs(s[k])
    ensures ParseInt(s) == None
  {
    if ParseInt(s).Some? {
      var lead, sign, gap, d, trail := ParseIntForm(s);
      FormAt(lead, sign, gap, d, trail, i);
      FormAt(lead, sign, gap, d, trail, j);
      FormAt(lead, sign, gap, d, trail, k);
    }
  }

  /** Without a digit `int()` fails. */
  lemma ParseIntNeedsDigit(s: string)
    requires forall k :: 0 <= k < |s| ==> !IsDigit(s[k])
    ensures ParseInt(s) == None
  {
    if ParseInt(s).Some? {
      var lead, sign, gap, d, trail := ParseIntForm(s);
      var p := |lead| + |sign| + |gap|;
      FormAt(lead, sign, gap, d, trail, p);
    }
  }

  /** Decimal rendering of a natural number, without leading zeros. */
  function ShowNat(n: nat): (r: string)
    ensures r != [] && AllDigits(r)
  {
    var c := ['0' + (n % 10) as char];
    if n < 10 then c else ShowNat(n / 10) + c
  }

  /** Decimal rendering of an integer, with a leading `-` when negative. */
  function ShowInt(n: int): (r: string) {
    if n < 0 then "-" + ShowNat(-n) else ShowNat(n)
  }

  lemma {:induction false} DigitsOfShowNat(n: nat)
    ensures DigitsValue(ShowNat(n)) == n
  {
    var r := ShowNat(n);
    if n >= 10 {
      DigitsOfShowNat(n / 10);
      assert r[..|r| - 1] == ShowNat(n / 10);
    }
  }

  /** `int()` of a plain run of digits is its value. */
  lemma ParseDigits(d: string)
    requires d != [] && AllDigits(d)
    ensures ParseInt(d) == Some(DigitsValue(d) as int)
  {
    assert "" + "" + "" + d + "" == d;
    ParseIntAccepts("", "", "", d, "");
  }

  /** `int()` of `-` and a run of digits is the value negated. */
  lemma ParseNegated(d: string)
    requires d != [] && AllDigits(d)
    ensures ParseInt("-" + d) == Some(-(DigitsValue(d) as int))
  {
    assert "" + "-" + "" + d + "" == "-" + d;
    ParseIntAccepts("", "-", "", d, "");
  }

  /** Python 2's `int()` also takes blanks between the sign and the digits. */
  lemma ParseSpacedSign()
    ensures ParseInt(" - 5 ") == Some(-5)
  {
    var five := "5";
    assert DigitsValue(five) == 5 by {
      assert five[..0] == [];
    }
    assert " " + "-" + " " + five + " " == " - 5 " by {
      assert " " + "-" == " -";
      assert " -" + " " == " - ";
      assert " - " + five == " - 5";
    }
    ParseIntAccepts(" ", "-", " ", five, " ");
  }

  lemma ParseMinusSpaceFive()
    ensures ParseInt("- 5") == Some(-5)
  {
    var five := "5";
    assert DigitsValue(five) == 5 by {
      assert five[..0] == [];
    }
    assert [] + "-" + " " + five + [] == "- 5" by {
      assert [] + "-" + " " == "- ";
    }
    ParseIntAccepts([], "-", " ", five, []);
  }

  lemma ParseTabbedSign()
    ensures ParseInt("+\t12") == Some(12)
  {
    var twelve := "12";
    assert DigitsValue(twelve) == 12 by {
      assert twelve[..1] == "1" && "1"[..0] == [];
    }
    assert [] + "+" + "\t" + twelve + [] == "+\t12" by {
      assert [] + "+" + "\t" == "+\t";
    }
    ParseIntAccepts([], "+", "\t", twelve, []);
  }

  /** A second sign makes `int()` fail. */
  lemma ParseDoubleSign()
    ensures ParseInt("--5") == None
  {
    ParseIntRejects("--5", 0, 1);
  }

  /** Blanks inside the digits make `int()` fail. */
  lemma ParseSplitDigits()
    ensures ParseInt("5 5") == None
  {
    ParseIntRejectsGap("5 5", 0, 1, 2);
  }

  /** `int()` reads back what decimal rendering writes. */
  lemma ParseShowInt(n: int)
    ensures ParseInt(ShowInt(n)) == Some(n)
  {
    var d := ShowNat(if n < 0 then -n else n);
    DigitsOfShowNat(if n < 0 then -n else n);
    if n < 0 {
      assert ShowInt(n) == "-" + d;
      ParseNegated(d);
    } else {
      assert ShowInt(n) == d;
      ParseDigits(d);
    }
  }
}

=== FILE: string_literals.dfy ===
/**
 The string stage of term extraction: every double-quoted literal is
 replaced by ` $ `. A literal opens at a `"` not preceded by a backslash and
 closes at the nearest later `"` not preceded by a backslash; the characters
 between may be anything but a newline (the regex `.` is not in DOTALL mode).
 The scan is leftmost, resumes after each replaced literal, and a quote that
 finds no closing partner is kept as an ordinary character.
 */
module StringLiterals {
  import opened Common

  /** Whether the character before position `j` of `t` is a backslash, where
      `prevBackslash` says so for the character just before `t`. */
  predicate EscapedAt(t: string, j: nat, prevBackslash: bool)
    requires j <= |t|
  {
    if j == 0 then prevBackslash else t[j - 1] == '\\'
  }

  /** A quote at `j` that can close a literal: not escaped. */
  predicate ClosesAt(t: string, j: nat, prevBackslash: bool)
    requires j < |t|
  {
    t[j] == '"' && !EscapedAt(t, j, prevBackslash)
  }

  predicate NoNewline(t: string) {
    forall k :: 0 <= k < |t| ==> t[k] != '\n'
  }

  /** The lazy `.*?"` after an opening quote: the index in `t` of the first
      unescaped quote, provided no newline comes before it. */
  function CloseAt(t: string, prevBackslash: bool): (r: Option<nat>)
    ensures r.Some? ==> r.value < |t| && ClosesAt(t, r.value, prevBackslash) && NoNewline(t[..r.value])
    ensures r.Some? ==> forall k :: 0 <= k < r.value ==> !ClosesAt(t, k, prevBackslash)
    ensures r.None? ==> forall j :: 0 <= j < |t| && ClosesAt(t, j, prevBackslash) ==> !NoNewline(t[..j])
  {
    if t == [] then None
    else if t[0] == '"' && !prevBackslash then Some(0)
    else if t[0] == '\n' then
      assert forall j :: 0 < j <= |t| ==> t[..j][0] == '\n';
      None
    else
      match CloseAt(t[1..], t[0] == '\\')
      case None =>
        assert forall j :: 1 <= j <= |t| ==> t[..j][1..] == t[1..][..j - 1];
        None
      case Some(j) =>
        assert t[..j + 1] == [t[0]] + t[1..][..j];
        assert ClosesAt(t, j + 1, prevBackslash) by {
          assert t[j + 1] == t[1..][j];
          assert EscapedAt(t, j + 1, prevBackslash) == EscapedAt(t[1..], j, t[0] == '\\');
        }
        assert forall k :: 1 <= k < j + 1 ==> ClosesAt(t, k, prevBackslash) == ClosesAt(t[1..], k - 1, t[0] == '\\');
        Some(j + 1)
  }

  /** `re.sub(re_c_string, ' $ ', s)`; `prevBackslash` tells whether the
      character before `s` in the original text is a backslash. */
  function Collapse(s: string, prevBackslash: bool): string
    decreases |s|
  {
    if s == [] then []
    else if s[0] == '"' && !prevBackslash then
      match CloseAt(s[1..], false)
      case Some(j) => " $ " + Collapse(s[j + 2..], false)
      case None => ['"'] + Collapse(s[1..], false)
    else [s[0]] + Collapse(s[1..], s[0] == '\\')
  }

  /** Literal replacement over a whole line. */
  function CollapseLine(s: string): string {
    Collapse(s, false)
  }

  /** The text between the quotes of a well-formed literal: no newline, every
      quote inside escaped, and no backslash just before the closing quote. */
  predicate LiteralBody(body: string) {
    && NoNewline(body)
    && (forall k :: 0 <= k < |body| && body[k] == '"' ==> k > 0 && body[k - 1] == '\\')
    && (body != [] ==> body[|body| - 1] != '\\')
  }

  function LastIsBackslash(a: string, prevBackslash: bool): bool {
    if a == [] then prevBackslash else a[|a| - 1] == '\\'
  }

  /** Text without quotes passes through unchanged, and the scan continues
      after it knowing whether it ended in a backslash. */
  lemma {:induction false} CollapseQuoteFree(a: string, rest: string, prevBackslash: bool)
    requires '"' !in a
    ensures Collapse(a + rest, prevBackslash) == a + Collapse(rest, LastIsBackslash(a, prevBackslash))
    decreases |a|
  {
    if a != [] {
      assert (a + rest)[1..] == a[1..] + rest;
      assert a[0] in a;
      CollapseQuoteFree(a[1..], rest, a[0] == '\\');
      assert LastIsBackslash(a[1..], a[0] == '\\') == LastIsBackslash(a, prevBackslash);
    } else {
      assert a + rest == rest;
    }
  }

  /** A line without quotes is left alone. */
  lemma CollapseNoQuote(s: string)
    requires '"' !in s
    ensures CollapseLine(s) == s
  {
    CollapseQuoteFree(s, [], false);
    assert s + [] == s;
    assert Collapse([], LastIsBackslash(s, false)) == [];
  }

  /** A well-formed literal is closed exactly by the quote after its body. */
  lemma CloseAtLiteral(body: string, c: string)
    requires LiteralBody(body)
    ensures CloseAt(body + ['"'] + c, false) == Some(|body|)
  {
    var t := body + ['"'] + c;
    assert t[..|body|] == body;
    assert ClosesAt(t, |body|, false);
    forall k | 0 <= k < |body|
      ensures !ClosesAt(t, k, false)
    {
      assert t[k] == body[k];
      if k > 0 {
        assert t[k - 1] == body[k - 1];
      }
    }
  }

  /** Each literal becomes ` $ `: its contents vanish and the scan goes on
      right after its closing quote. */
  lemma CollapseLiteral(a: string, body: string, c: string)
    requires '"' !in a
    requires a == [] || a[|a| - 1] != '\\'
    requires LiteralBody(body)
    ensures CollapseLine(a + ['"'] + body + ['"'] + c) == a + " $ " + CollapseLine(c)
  {
    var lit := ['"'] + body + ['"'] + c;
    assert a + ['"'] + body + ['"'] + c == a + lit;
    CollapseQuoteFree(a, lit, false);
    assert !LastIsBackslash(a, false);
    LiteralStart(body, c);
  }

  lemma LiteralStart(body: string, c: string)
    requires LiteralBody(body)
    ensures Collapse(['"'] + body + ['"'] + c, false) == " $ " + Collapse(c, false)
  {
    var lit := ['"'] + body + ['"'] + c;
    assert lit[1..] == body + ['"'] + c;
    CloseAtLiteral(body, c);
    assert lit[|body| + 2..] == c;
  }

  /** A quote with no closing partner on the line stays as it is. */
  lemma CollapseUnterminated(a: string, t: string)
    requires '"' !in a && '"' !in t
    requires a == [] || a[|a| - 1] != '\\'
    ensures CollapseLine(a + ['"'] + t) == a + ['"'] + t
  {
    var rest := ['"'] + t;
    assert a + ['"'] + t == a + rest;
    CollapseQuoteFree(a, rest, false);
    assert rest[1..] == t;
    assert forall j :: 0 <= j < |t| ==> t[j] != '"';
    assert CloseAt(t, false).None?;
    CollapseQuoteFree(t, [], false);
    assert t + [] == t;
  }
}

=== FILE: term_extractor.dfy ===
/**
 `accumulate_terms`: one changed source line becomes a set of normalised
 tokens through an ordered pipeline: the comment stage, literal collapsing,
 spacing out operator clusters, flattening numbers, and splitting on
 whitespace. Each stage but the cluster one can be switched off.
 */
module TermExtractor {
  import opened PyStr
  import opened CommentStrip
  import opened StringLiterals
  import opened Operators
  import opened Digits

  /** The keyword arguments `skipcomment`, `genericstring`, `genericdigit`. */
  datatype Options = Options(skipComment: bool, genericString: bool, genericDigit: bool)

  /** The script always calls with every stage on. */
  const Defaults: Options := Options(true, true, true)

  /** A token from a flattened line: no digit from 1 to 8 anywhere. */
  predicate FlatWord(t: string) {
    forall k :: 0 <= k < |t| ==> Flat(t[k])
  }

  /** The cluster and number stages, which run on every line. */
  function Later(s: string, o: Options): string {
    var b := SpaceOps(s);
    if o.genericDigit then Flatten(b) else b
  }

  /** The stages after the comment stage, in the source's order. */
  function Rewrite(s: string, o: Options): string {
    Later(if o.genericString then CollapseLine(s) else s, o)
  }

  /** The tokens one line contributes. */
  function Terms(text: string, o: Options): (r: set<string>)
    ensures forall t :: t in r ==> IsWord(t)
    ensures o.genericDigit ==> forall t :: t in r ==> FlatWord(t)
  {
    if o.skipComment && IsContinuation(text) then {}
    else
      var s := if o.skipComment then StripComments(text) else text;
      var out := Rewrite(s, o);
      var ws := Words(out);
      assert o.genericDigit ==> forall i :: 0 <= i < |ws| ==> FlatWord(ws[i]) by {
        if o.genericDigit {
          FlattenLeavesNoSmallDigit(SpaceOps(if o.genericString then CollapseLine(s) else s));
        }
      }
      set w | w in ws
  }

  /** `accumulate_terms(text, tset)`: the set only grows, and what it gains
      is whitespace-free, non-empty and, with `genericdigit`, free of the
      digits 1 to 8; a continuation line adds nothing. */
  function AccumulateTerms(text: string, tset: set<string>, o: Options): (r: set<string>)
    ensures tset <= r
    ensures forall t :: t in r && t !in tset ==> IsWord(t)
    ensures o.genericDigit ==> forall t :: t in r && t !in tset ==> FlatWord(t)
    ensures o.skipComment && IsContinuation(text) ==> r == tset
  {
    tset + Terms(text, o)
  }

  /** Everything from a comment opener on is ignored: the line yields the
      same tokens as the text before the opener. */
  lemma CommentTailIgnored(a: string, marker: string, b: string, tset: set<string>, o: Options)
    requires o.skipComment
    requires marker == "/*" || marker == "//"
    requires NoOpener(a)
    requires marker == "//" ==> (a == [] || a[|a| - 1] != '/') && (b == [] || b[0] != '*')
    ensures AccumulateTerms(a + marker + b, tset, o) == AccumulateTerms(a, tset, o)
  {
    ContinuationUnaffectedByTail(a, marker, b);
    CommentTailDropped(a, marker, b);
    StripCommentsNoOpener(a);
  }

  /** Neither the cluster nor the number stage reaches across a space. */
  lemma LaterAtSpace(x: string, y: string, o: Options)
    ensures Later(x + " " + y, o) == Later(x, o) + " " + Later(y, o)
  {
    SpaceOpsAtSpace(x, y);
    if o.genericDigit {
      FlattenAtSpace(SpaceOps(x), SpaceOps(y));
    }
  }

  /** A collapsed literal, ` $ `, comes out of the later stages as the
      single token `$` between the tokens of its two sides. */
  lemma WordsAroundDollar(x: string, y: string, o: Options)
    ensures Words(Later(x + " $ " + y, o)) == Words(Later(x, o)) + ["$"] + Words(Later(y, o))
  {
    assert x + " $ " + y == x + " " + ("$" + " " + y);
    LaterAtSpace(x, "$" + " " + y, o);
    LaterAtSpace("$", y, o);
    assert SpaceOps("$") == "$";
    assert Flatten("$") == "$";
    assert Later("$", o) == "$";
    var lx := Later(x, o);
    var ly := Later(y, o);
    WordsAtWs(lx, ' ', "$" + " " + ly);
    WordsAtWs("$", ' ', ly);
    WordsOfWord("$");
  }

  /** With `genericstring`, a literal that reaches the later stages turns
      into the single token `$`: after the comment stage, the tokens are
      those of the text before the literal, then `$`, then those of the
      text after it, and nothing from inside the quotes. */
  lemma LiteralBecomesDollar(a: string, body: string, c: string, o: Options)
    requires o.genericString
    requires '"' !in a
    requires a == [] || a[|a| - 1] != '\\'
    requires LiteralBody(body)
    ensures Words(Rewrite(a + ['"'] + body + ['"'] + c, o))
         == Words(Rewrite(a, o)) + ["$"] + Words(Rewrite(c, o))
  {
    CollapseLiteral(a, body, c);
    CollapseNoQuote(a);
    WordsAroundDollar(a, CollapseLine(c), o);
  }

  /** The same for a whole line, when the comment stage leaves it alone
      (it is off, or the line has no opener and is no continuation line):
      the set gains the tokens before the literal, `$`, and the tokens
      after it. */
  lemma LiteralLineTerms(a: string, body: string, c: string, tset: set<string>, o: Options)
    requires o.genericString
    requires '"' !in a
    requires a == [] || a[|a| - 1] != '\\'
    requires LiteralBody(body)
    requires o.skipComment ==> NoOpener(a + ['"'] + body + ['"'] + c)
    requires o.skipComment ==> !IsContinuation(a + ['"'] + body + ['"'] + c)
    ensures AccumulateTerms(a + ['"'] + body + ['"'] + c, tset, o)
         == tset + set w | w in Words(Rewrite(a, o)) + ["$"] + Words(Rewrite(c, o))
  {
    var line := a + ['"'] + body + ['"'] + c;
    if o.skipComment {
      StripCommentsNoOpener(line);
    }
    LiteralBecomesDollar(a, body, c, o);
  }

  /** The comment stage runs first, so a literal holding a comment opener
      is cut inside the quotes and never collapses. For a word `a` of plain
      characters not ending in a backslash, `a"//` and whatever follows
      leave only `a"`: its quote has no partner, and `a"` is the one
      token. */
  lemma OpenerInsideLiteral(a: string, b: string)
    requires IsWord(a) && '"' !in a && a[|a| - 1] != '\\'
    requires forall i :: 0 <= i < |a| ==> !IsOpChar(a[i]) && !IsDigit(a[i])
    requires b == [] || b[0] != '*'
    ensures Terms(a + ['"'] + "//" + b, Defaults) == {a + ['"']}
  {
    var cut := a + ['"'];
    var line := cut + "//" + b;
    QuotedWordCut(a, b);
    QuotedWordRewrite(a);
    WordsOfWord(cut);
    var ws := Words(Rewrite(StripComments(line), Defaults));
    assert ws == [cut];
    assert Terms(line, Defaults) == set w | w in ws;
  }

  /** The comment stage cuts `a"//` and its tail back to `a"`. */
  lemma QuotedWordCut(a: string, b: string)
    requires IsWord(a)
    requires forall i :: 0 <= i < |a| ==> !IsOpChar(a[i])
    requires b == [] || b[0] != '*'
    ensures !IsContinuation(a + ['"'] + "//" + b)
    ensures StripComments(a + ['"'] + "//" + b) == a + ['"']
  {
    var cut := a + ['"'];
    var line := cut + "//" + b;
    assert line[0] == a[0];
    LStripAt(line, 0);
    assert NoOpener(cut) by {
      forall i | 0 <= i < |cut|
        ensures !OpenerAt(cut, i)
      {
        if i < |a| {
          assert !IsOpChar(a[i]);
        }
      }
    }
    CommentTailDropped(cut, "//", b);
  }

  /** The later stages leave `a"` as it is: the quote has no partner, and
      there is no cluster character or digit. */
  lemma QuotedWordRewrite(a: string)
    requires '"' !in a && (a == [] || a[|a| - 1] != '\\')
    requires forall i :: 0 <= i < |a| ==> !IsOpChar(a[i]) && !IsDigit(a[i])
    ensures Rewrite(a + ['"'], Defaults) == a + ['"']
  {
    var cut := a + ['"'];
    CollapseUnterminated(a, []);
    assert a + ['"'] + [] == cut;
    assert forall i :: 0 <= i < |cut| ==> !IsOpChar(cut[i]) && !IsDigit(cut[i]);
    SpaceOpsNoOps(cut);
    FlattenNoDigits(cut);
  }




  /** The line `a"//"c` gives the single token `a"`, not `a`, `$` and
      `c`. */
  lemma OpenerInsideLiteralExample()
    ensures Terms("a" + ['"'] + "//" + ['"'] + "c", Defaults) == {"a" + ['"']}
  {
    OpenerInsideLiteral("a", ['"'] + "c");
    assert "a" + ['"'] + "//" + ['"'] + "c" == "a" + ['"'] + "//" + (['"'] + "c");
  }

  /** A line with no quote, no cluster character and no digit passes every
      stage unchanged, whatever the options: it adds exactly its
      whitespace-separated words. */
  lemma PlainLineTerms(text: string, tset: set<string>, o: Options)
    requires '"' !in text
    requires forall i :: 0 <= i < |text| ==> !IsOpChar(text[i]) && !IsDigit(text[i])
    ensures AccumulateTerms(text, tset, o) == tset + set w | w in Words(text)
  {
    assert '*' !in text by {
      assert forall i :: 0 <= i < |text| ==> text[i] != '*';
    }
    NoStarNoContinuation(text);
    assert NoOpener(text);
    StripCommentsNoOpener(text);
    CollapseNoQuote(text);
    SpaceOpsNoOps(text);
    FlattenNoDigits(text);
  }
}

=== FILE: unigram.dfy ===
/**
 `UnigramModel`: a word-frequency table and the running total of all counts.
 Probabilities are exact rationals here; `bits`, `entropy` and
 `cross_entropy` take the base-2 logarithm as a parameter, so what is stated
 about them is which probabilities they look up and when a lookup fails.
 */
module Unigram {
  import opened Common
  import opened MapSum

  datatype Model = Model(counts: map<string, nat>, total: nat)

  const Empty: Model := Model(map[], 0)

  /** `total_count` is the sum of the counts, and every stored count is
      positive (a word is only stored once it has been seen). */
  ghost predicate Valid(m: Model) {
    && m.total == Sum(m.counts)
    && forall w :: w in m.counts ==> m.counts[w] > 0
  }

  /** `unigram_counts.get(w, 0)`. */
  function Count(m: Model, w: string): nat {
    if w in m.counts then m.counts[w] else 0
  }

  lemma EmptyValid()
    ensures Valid(Empty)
  {
  }

  /** `add(w)`: the count of `w` and the total go up by exactly one, no other
      count moves, and the table stays consistent with its total. */
  function Add(m: Model, w: string): (r: Model)
    ensures Count(r, w) == Count(m, w) + 1
    ensures forall v :: v != w ==> Count(r, v) == Count(m, v)
    ensures r.total == m.total + 1
    ensures r.counts.Keys == m.counts.Keys + {w}
    ensures Valid(m) ==> Valid(r)
  {
    var r := Model(m.counts[w := Count(m, w) + 1], m.total + 1);
    SumUpdate(m.counts, w, Count(m, w) + 1);
    r
  }

  /** `update(words)` over a collection: `add` on each element in turn. The
      total grows by the number of elements, each count by the number of
      times its word occurs, and the table stays consistent. */
  function Update(m: Model, ws: seq<string>): (r: Model)
    ensures r.total == m.total + |ws|
    ensures forall v :: Count(r, v) == Count(m, v) + multiset(ws)[v]
    ensures r.counts.Keys == m.counts.Keys + set w | w in ws
    ensures Valid(m) ==> Valid(r)
    decreases |ws|
  {
    if ws == [] then m
    else
      var r := Update(Add(m, ws[0]), ws[1..]);
      SplitFirst(ws);
      r
  }

  lemma SplitFirst(ws: seq<string>)
    requires ws != []
    ensures multiset(ws) == multiset{ws[0]} + multiset(ws[1..])
    ensures (set w | w in ws) == {ws[0]} + set w | w in ws[1..]
  {
    assert ws == [ws[0]] + ws[1..];
  }

  /** No word occurs twice. */
  predicate NoDups(ws: seq<string>) {
    ws == [] || (ws[0] !in ws[1..] && NoDups(ws[1..]))
  }

  /** `update` over a set: every word of the set counted once more, whatever
      order the set is walked in. */
  function UpdateSet(m: Model, s: set<string>): Model {
    Model(map w | w in m.counts.Keys + s :: Count(m, w) + (if w in s then 1 else 0), m.total + |s|)
  }

  lemma {:induction false} DistinctCounts(ws: seq<string>)
    requires NoDups(ws)
    ensures forall v :: multiset(ws)[v] == (if v in ws then 1 else 0)
    ensures |set w | w in ws| == |ws|
  {
    if ws != [] {
      DistinctCounts(ws[1..]);
      assert ws == [ws[0]] + ws[1..];
      assert multiset(ws) == multiset{ws[0]} + multiset(ws[1..]);
      assert ws[0] !in ws[1..];
      assert (set w | w in ws) == {ws[0]} + set w | w in ws[1..];
    }
  }

  /** Two tables with the same keys and the same count for every word are
      the same table. */
  lemma SameModel(r: Model, u: Model)
    requires r.counts.Keys == u.counts.Keys && r.total == u.total
    requires forall w :: Count(r, w) == Count(u, w)
    ensures r == u
  {
    forall w | w in r.counts.Keys
      ensures r.counts[w] == u.counts[w]
    {
      assert Count(r, w) == Count(u, w);
    }
    assert r.counts == u.counts;
  }

  /** Walking a set in any order gives the same model, so the set's
      iteration order does not matter. */
  lemma UpdateAnyOrder(m: Model, ws: seq<string>, s: set<string>)
    requires NoDups(ws) && (set w | w in ws) == s
    ensures Update(m, ws) == UpdateSet(m, s)
  {
    DistinctCounts(ws);
    var r := Update(m, ws);
    var u := UpdateSet(m, s);
    forall w
      ensures Count(r, w) == Count(u, w)
    {
      assert (w in ws) == (w in s);
    }
    SameModel(r, u);
  }

  /** A set walked in some order: exists for every set. */
  lemma SetHasEnumeration(s: set<string>) returns (ws: seq<string>)
    ensures NoDups(ws) && (set w | w in ws) == s
    decreases |s|
  {
    if s == {} {
      ws := [];
    } else {
      var x :| x in s;
      var rest := SetHasEnumeration(s - {x});
      ws := [x] + rest;
      assert (set w | w in ws) == {x} + set w | w in rest;
    }
  }

  /** `update` over a set: the total grows by the set's size, every word of
      the set gains exactly one count, and a consistent table stays
      consistent. */
  lemma UpdateSetKeeps(m: Model, s: set<string>)
    ensures UpdateSet(m, s).total == m.total + |s|
    ensures UpdateSet(m, s).counts.Keys == m.counts.Keys + s
    ensures forall v :: Count(UpdateSet(m, s), v) == Count(m, v) + (if v in s then 1 else 0)
    ensures Valid(m) ==> Valid(UpdateSet(m, s))
  {
    var ws := SetHasEnumeration(s);
    UpdateAnyOrder(m, ws, s);
    DistinctCounts(ws);
  }

  datatype ProbError = KeyError | ZeroDivisionError | MathDomainError

  /** `p(w)`: the relative frequency of a known word; an unknown word is
      looked up as the empty word, which raises `KeyError` unless smoothing
      put it there; an empty table divides by zero. */
  function P(m: Model, w: string): (r: Result<real, ProbError>)
    ensures r == Failure(KeyError) <==> w !in m.counts && "" !in m.counts
    ensures w in m.counts && m.total > 0 ==> r == Success(m.counts[w] as real / m.total as real)
    ensures w !in m.counts && "" in m.counts && m.total > 0 ==> r == Success(m.counts[""] as real / m.total as real)
    ensures r == Failure(ZeroDivisionError) <==> (w in m.counts || "" in m.counts) && m.total == 0
  {
    var key := if w in m.counts then w else "";
    if key !in m.counts then Failure(KeyError)
    else if m.total == 0 then Failure(ZeroDivisionError)
    else Success(m.counts[key] as real / m.total as real)
  }

  /** On a consistent table a known word has a probability in (0, 1]. */
  lemma PKnownWord(m: Model, w: string)
    requires Valid(m) && w in m.counts
    ensures P(m, w).Success?
    ensures 0.0 < P(m, w).value <= 1.0
    ensures P(m, w).value * m.total as real == m.counts[w] as real
  {
    ValueAtMostSum(m.counts, w);
    assert m.counts[w] <= m.total;
    assert m.counts[w] > 0;
  }

  /** A word seen for the first time has probability one over the new
      total. */
  lemma FirstSightingProbability(m: Model, w: string)
    requires Valid(m) && w !in m.counts
    ensures P(Add(m, w), w) == Success(1.0 / (m.total + 1) as real)
  {
  }

  /** `bits(w)`: minus the base-2 logarithm of `p(w)`; the logarithm of zero
      raises. */
  function Bits(m: Model, w: string, log2: real -> real): (r: Result<real, ProbError>)
    ensures P(m, w).Failure? ==> r == Failure(P(m, w).error)
    ensures P(m, w).Success? && P(m, w).value > 0.0 ==> r == Success(-log2(P(m, w).value))
    ensures r == Failure(MathDomainError) <==> P(m, w) == Success(0.0)
  {
    match P(m, w)
    case Failure(e) => Failure(e)
    case Success(p) => if p <= 0.0 then Failure(MathDomainError) else Success(-log2(p))
  }

  /** The sum of `self.bits(w) * other.p(w)` over `words`, in order; the
      first failing lookup raises. `entropy` is this sum with `other` the
      model itself, `cross_entropy` with another model, and `words` the
      keys of that other model. */
  function WeightedBits(self: Model, other: Model, words: seq<string>, log2: real -> real): (r: Result<real, ProbError>)
    ensures r.Failure? ==> exists i :: 0 <= i < |words| && (Bits(self, words[i], log2).Failure? || P(other, words[i]).Failure?)
    ensures (forall i :: 0 <= i < |words| ==> Bits(self, words[i], log2).Success? && P(other, words[i]).Success?) ==> r.Success?
  {
    if words == [] then Success(0.0)
    else
      match Bits(self, words[0], log2)
      case Failure(e) => Failure(e)
      case Success(b) =>
        match P(other, words[0])
        case Failure(e) => Failure(e)
        case Success(q) =>
          match WeightedBits(self, other, words[1..], log2)
          case Failure(e) => Failure(e)
          case Success(rest) => Success(b * q + rest)
  }

  /** Enumerations of a table's keys: each key exactly once. */
  predicate Enumerates(ws: seq<string>, keys: set<string>) {
    NoDups(ws) && (set w | w in ws) == keys
  }

  /** `entropy()` over the table's keys. */
  function Entropy(m: Model, order: seq<string>, log2: real -> real): Result<real, ProbError> {
    WeightedBits(m, m, order, log2)
  }

  /** `cross_entropy(other)` over the other table's keys. */
  function CrossEntropy(self: Model, other: Model, order: seq<string>, log2: real -> real): Result<real, ProbError> {
    WeightedBits(self, other, order, log2)
  }

  /** Every lookup the two sums make succeeds when the model queried knows
      every word it is asked about: in particular `cross_entropy` never
      reaches the `''` lookup when the other model's vocabulary lies inside
      this one's. */
  lemma CrossEntropyDefined(self: Model, other: Model, order: seq<string>, log2: real -> real)
    requires Valid(self) && Valid(other)
    requires Enumerates(order, other.counts.Keys)
    requires other.counts.Keys <= self.counts.Keys
    ensures CrossEntropy(self, other, order, log2).Success?
  {
    forall i | 0 <= i < |order|
      ensures Bits(self, order[i], log2).Success? && P(other, order[i]).Success?
    {
      assert order[i] in other.counts.Keys;
      PKnownWord(self, order[i]);
      PKnownWord(other, order[i]);
    }
  }

  /** `entropy()` of a consistent table is always defined. */
  lemma EntropyDefined(m: Model, order: seq<string>, log2: real -> real)
    requires Valid(m) && Enumerates(order, m.counts.Keys)
    ensures Entropy(m, order, log2).Success?
  {
    CrossEntropyDefined(m, m, order, log2);
  }

  /** A word the model has never seen and no `''` entry: `cross_entropy`
      raises `KeyError`. */
  lemma CrossEntropyUnknownWord(self: Model, other: Model, order: seq<string>, log2: real -> real)
    requires Valid(self) && Valid(other) && Enumerates(order, other.counts.Keys)
    requires "" !in self.counts
    requires exists w :: w in other.counts && w !in self.counts
    ensures CrossEntropy(self, other, order, log2) == Failure(KeyError)
  {
    var w :| w in other.counts && w !in self.counts;
    assert w in set v | v in order;
    forall i | 0 <= i < |order| ensures order[i] in other.counts {
      assert order[i] in set v | v in order;
    }
    UnknownWordRaises(self, other, order, log2);
  }

  lemma {:induction false} UnknownWordRaises(self: Model, other: Model, words: seq<string>, log2: real -> real)
    requires Valid(self) && Valid(other) && "" !in self.counts
    requires forall i :: 0 <= i < |words| ==> words[i] in other.counts
    requires exists i :: 0 <= i < |words| && words[i] !in self.counts
    ensures WeightedBits(self, other, words, log2) == Failure(KeyError)
  {
    var w := words[0];
    if w !in self.counts {
      assert Bits(self, w, log2) == Failure(KeyError);
    } else {
      PKnownWord(self, w);
      PKnownWord(other, w);
      var i :| 0 <= i < |words| && words[i] !in self.counts;
      assert words[1..][i - 1] == words[i];
      UnknownWordRaises(self, other, words[1..], log2);
    }
  }

  /** The position of the first word with the highest count. */
  function FirstMax(m: Model, order: seq<string>): (i: nat)
    requires order != []
    ensures i < |order|
    ensures forall j :: 0 <= j < |order| ==> Count(m, order[j]) <= Count(m, order[i])
    ensures forall j :: 0 <= j < i ==> Count(m, order[j]) < Count(m, order[i])
  {
    if |order| == 1 then 0
    else
      var k := FirstMax(m, order[1..]);
      if Count(m, order[0]) >= Count(m, order[1..][k]) then 0 else k + 1
  }

  /** `order` without its element at `i`. */
  function Without(order: seq<string>, i: nat): (r: seq<string>)
    requires i < |order|
    ensures |r| == |order| - 1
  {
    order[..i] + order[i + 1..]
  }

  lemma WithoutMembers(order: seq<string>, k: nat)
    requires k < |order|
    ensures forall w :: w in Without(order, k) ==> w in order
    ensures forall w :: w in order && w != order[k] ==> w in Without(order, k)
    ensures NoDups(order) ==> order[k] !in Without(order, k)
  {
    var rest := Without(order, k);
    assert forall j :: 0 <= j < k ==> rest[j] == order[j];
    assert forall j :: k < j < |order| ==> rest[j - 1] == order[j];
    forall w | w in order && w != order[k] ensures w in rest {
      var j :| 0 <= j < |order| && order[j] == w;
      if j < k { assert rest[j] == w; } else { assert rest[j - 1] == w; }
    }
    forall w | w in rest ensures w in order {
      var j :| 0 <= j < |rest| && rest[j] == w;
      if j < k { assert order[j] == w; } else { assert order[j + 1] == w; }
    }
    if NoDups(order) {
      WithoutLoses(order, k);
    }
  }

  /** Dropping a position of `order` that is not the first one keeps the
      first word in front. */
  lemma WithoutCons(order: seq<string>, k: nat)
    requires 0 < k < |order|
    ensures Without(order, k) == [order[0]] + Without(order[1..], k - 1)
  {
    assert order[..k] == [order[0]] + order[1..][..k - 1];
    assert order[k + 1..] == order[1..][k..];
  }

  /** Without duplicates, the dropped word is gone from what is left. */
  lemma {:induction false} WithoutLoses(order: seq<string>, k: nat)
    requires k < |order| && NoDups(order)
    ensures order[k] !in Without(order, k)
    decreases k
  {
    if k == 0 {
      assert Without(order, 0) == order[1..];
    } else {
      WithoutCons(order, k);
      WithoutLoses(order[1..], k - 1);
      assert order[k] == order[1..][k - 1];
      assert order[k] in order[1..];
    }
  }

  lemma {:induction false} WithoutDistinct(order: seq<string>, k: nat)
    requires k < |order| && NoDups(order)
    ensures NoDups(Without(order, k))
    decreases k
  {
    if k == 0 {
      assert Without(order, 0) == order[1..];
    } else {
      WithoutCons(order, k);
      WithoutDistinct(order[1..], k - 1);
      WithoutMembers(order[1..], k - 1);
      var r := Without(order, k);
      assert r[1..] == Without(order[1..], k - 1);
    }
  }

  /** `heapq.nlargest(n, counts, key=counts.get)`, the keys met in dict
      order `order`: the stable selection of the `n` highest counts, ties
      going to the word met first. */
  function TopWords(m: Model, order: seq<string>, n: int): (r: seq<string>)
    ensures |r| == (if n <= 0 then 0 else if n < |order| then n else |order|)
    decreases |order|
  {
    if n <= 0 || order == [] then []
    else
      var k := FirstMax(m, order);
      [order[k]] + TopWords(m, Without(order, k), n - 1)
  }

  /** Every element of `r` is one of `order`. */
  predicate AllIn(r: seq<string>, order: seq<string>) {
    forall i :: 0 <= i < |r| ==> r[i] in order
  }

  /** Only words of `order` come out. */
  lemma {:induction false} TopWordsFrom(m: Model, order: seq<string>, n: int)
    ensures AllIn(TopWords(m, order, n), order)
    decreases |order|
  {
    if n > 0 && order != [] {
      TopWordsFrom(m, Without(order, FirstMax(m, order)), n - 1);
      FromStep(m, order, n);
    }
  }

  lemma FromStep(m: Model, order: seq<string>, n: int)
    requires n > 0 && order != []
    requires AllIn(TopWords(m, Without(order, FirstMax(m, order)), n - 1), Without(order, FirstMax(m, order)))
    ensures AllIn(TopWords(m, order, n), order)
  {
    var k := FirstMax(m, order);
    var rest := Without(order, k);
    WithoutMembers(order, k);
    ConsFrom(order[k], TopWords(m, rest, n - 1), rest, order);
  }

  lemma ConsFrom(x: string, tail: seq<string>, rest: seq<string>, order: seq<string>)
    requires x in order
    requires forall w :: w in rest ==> w in order
    requires AllIn(tail, rest)
    ensures AllIn([x] + tail, order)
  {
    forall i | 0 < i < |[x] + tail| ensures ([x] + tail)[i] in order {
      assert ([x] + tail)[i] == tail[i - 1];
    }
  }

  /** Counts never increase along `r`. */
  predicate Descending(m: Model, r: seq<string>) {
    forall i, j :: 0 <= i < j < |r| ==> Count(m, r[i]) >= Count(m, r[j])
  }

  /** Every word of `order` missing from `r` counts at most as much as each
      word of `r`. */
  predicate Dominates(m: Model, r: seq<string>, order: seq<string>) {
    forall w, i :: w in order && w !in r && 0 <= i < |r| ==> Count(m, w) <= Count(m, r[i])
  }

  lemma ConsDescending(m: Model, x: string, tail: seq<string>)
    requires Descending(m, tail)
    requires forall i :: 0 <= i < |tail| ==> Count(m, tail[i]) <= Count(m, x)
    ensures Descending(m, [x] + tail)
  {
    var r := [x] + tail;
    forall i, j | 0 <= i < j < |r|
      ensures Count(m, r[i]) >= Count(m, r[j])
    {
      assert r[j] == tail[j - 1];
      if i > 0 {
        assert r[i] == tail[i - 1];
      }
    }
  }

  lemma ConsDistinct(x: string, tail: seq<string>, rest: seq<string>)
    requires NoDups(tail) && x !in rest
    requires AllIn(tail, rest)
    ensures NoDups([x] + tail)
  {
    assert ([x] + tail)[1..] == tail;
  }

  lemma ConsDominates(m: Model, x: string, tail: seq<string>, order: seq<string>, rest: seq<string>)
    requires Dominates(m, tail, rest)
    requires forall w :: w in order && w != x ==> w in rest
    requires forall w :: w in order ==> Count(m, w) <= Count(m, x)
    ensures Dominates(m, [x] + tail, order)
  {
    var r := [x] + tail;
    forall w, i | w in order && w !in r && 0 <= i < |r|
      ensures Count(m, w) <= Count(m, r[i])
    {
      assert w != x && w !in tail;
      if i > 0 {
        assert r[i] == tail[i - 1];
      }
    }
  }

  /** The words come out with non-increasing counts. */
  lemma {:induction false} TopWordsDescending(m: Model, order: seq<string>, n: int)
    ensures Descending(m, TopWords(m, order, n))
    decreases |order|
  {
    if n > 0 && order != [] {
      var k := FirstMax(m, order);
      var rest := Without(order, k);
      WithoutMembers(order, k);
      TopWordsDescending(m, rest, n - 1);
      TopWordsFrom(m, rest, n - 1);
      var tail := TopWords(m, rest, n - 1);
      ConsDescending(m, order[k], tail);
    }
  }

  /** No word left out has a higher count than any word returned. */
  lemma {:induction false} TopWordsMaximal(m: Model, order: seq<string>, n: int)
    ensures Dominates(m, TopWords(m, order, n), order)
    decreases |order|
  {
    if n > 0 && order != [] {
      var k := FirstMax(m, order);
      var rest := Without(order, k);
      WithoutMembers(order, k);
      TopWordsMaximal(m, rest, n - 1);
      ConsDominates(m, order[k], TopWords(m, rest, n - 1), order, rest);
    }
  }

  /** Distinct keys give distinct words. */
  lemma {:induction false} TopWordsDistinct(m: Model, order: seq<string>, n: int)
    requires NoDups(order)
    ensures NoDups(TopWords(m, order, n))
    decreases |order|
  {
    if n > 0 && order != [] {
      var k := FirstMax(m, order);
      WithoutDistinct(order, k);
      TopWordsDistinct(m, Without(order, k), n - 1);
      DistinctStep(m, order, n);
    } else {
      assert TopWords(m, order, n) == [];
    }
  }

  lemma DistinctStep(m: Model, order: seq<string>, n: int)
    requires n > 0 && order != [] && NoDups(order)
    requires NoDups(TopWords(m, Without(order, FirstMax(m, order)), n - 1))
    ensures NoDups(TopWords(m, order, n))
  {
    var k := FirstMax(m, order);
    var rest := Without(order, k);
    WithoutMembers(order, k);
    TopWordsFrom(m, rest, n - 1);
    ConsDistinct(order[k], TopWords(m, rest, n - 1), rest);
  }
}
